=== FILE: README.md ===
# Notes app core, modelled in Dafny

This project models the logic at the heart of a React notes and blog app.

- **Paste classifier and segmenter.** When text is pasted, the app decides line by line whether it is code or prose, using twelve pattern "indicators" and two fallback rules. It then cuts the paste into an ordered list of trimmed `text`/`code` blocks. `ContentEditor.jsx` and `NoteEditor.jsx` hold identical copies; one definition serves both.
- **Block-list editor.** Add, update, remove, move and toggle, plus the component's paste handler. The handler is defined but never attached (see "## Left out").
- **Note editor.**
  - which mode a stored note opens in;
  - what a paste switches to;
  - the order of the submit checks;
  - the record that is saved;
  - the fields the notes service (`src/services/notes.js`) writes, and what a saved note reopens as.
- **In-memory category store.** Lookup, filter, create, update and delete over a module-level array, modelled as a class with a sequence field.
- **Dashboard.**
  - the category and search filters and the delete;
  - the popular-tag ranking;
  - the sidebar counts;
  - the featured posts.
- **Category form.** Initial values, change handling, validation and submit.
- **Note viewer.** Choice of view, paragraph and line splitting, mixed blocks, and tag badges.
- **Rich-text editor rules.** Word count, reading time, the URL allow-list gating links and images, keyboard shortcuts, and the auto-save trigger.

Modules follow the source files:

| file | module | source |
|---|---|---|
| `strings.dfy` | `Strings` | the string primitives used throughout |
| `blocks.dfy` | `Blocks` | the block record and its pure handlers |
| `classifier.dfy`, `classifier_examples.dfy` | `Classifier`, `ClassifierExamples` | `isCodeBlock` |
| `segmenter.dfy`, `segmenter_examples.dfy` | `Segmenter`, `SegmenterExamples` | `processPastedContent` |
| `content_editor.dfy` | `ContentEditing` | `ContentEditor.jsx` |
| `note_editor.dfy` | `NoteEditing` | `NoteEditor.jsx` |
| `category_service.dfy` | `CategoryService` | `categoryService.js` |
| `dashboard.dfy` | `Dashboard` | `Dashboard.jsx` |
| `category_form.dfy` | `CategoryForms` | `CategoryForm.jsx` |
| `note_viewer.dfy` | `NoteViewing` | `NoteViewer.jsx` |
| `rich_text.dfy` | `RichText` | `EnhancedRichTextEditor.jsx` |

Modelling conventions:

- **Strings.** `trim`, `\s` and `toLowerCase` are the ASCII versions.
- **Arithmetic.** The 0.2 density ratio, the `lines.length / 2` threshold and `Math.ceil` are written in integer arithmetic.
- **Imperative code stays imperative.** The loops of the source are methods proved against specification functions: indicator counting, line segmentation, tag collection and counting, `noteData` building and the error map. State that the source mutates is a class:
  - the category array;
  - the block list;
  - the category form.
- **Injected values.** The clock, the random id, the `URL` parser, the prompt answer, the save outcome and the HTML-to-text conversion are parameters.

The model follows the code as written at two points where a natural reading of the heuristic suggests otherwise:

- **Indentation with an assignment.** `"    x = 5"` is not code. After trimming, only the assignment indicator matches; the indentation rules look at the trimmed text; the string is too short for the density rule (`ClassifierExamples.IndentedAssignmentIsNotCode`).
- **The "print in Python" paste.** The three-line paste gives two blocks, not three. The first sentence is itself classified as code: `" print"` matches the keyword indicator, and `"int in"` matches the unanchored type indicator (`SegmenterExamples.PrintInPython`).

## Model

| member | source | states |
|---|---|---|
| Strings.TrimIsCore | src/components/ContentEditor.jsx:173-175 | `.trim()` returns a slice of its argument with only whitespace cut away on either side |
| Strings.TrimBlank | src/components/ContentEditor.jsx:173-174 | a trimmed accumulator is empty exactly when the accumulator holds only whitespace, which is when no text block is pushed |
| Strings.TrimIdempotent | src/components/ContentEditor.jsx:132 | trimming an already trimmed text changes nothing |
| Strings.SplitJoin | src/components/ContentEditor.jsx:162 | splitting the pasted text on `'\n'` and joining the lines with `'\n'` gives the text back |
| Strings.JoinSplit | src/components/ContentEditor.jsx:162 | joining lines free of `'\n'` and splitting the result gives the same lines back |
| Blocks.WithContent | src/components/ContentEditor.jsx:5-7 | the content handler replaces the content and keeps the block's type |
| Blocks.Toggled | src/components/ContentEditor.jsx:9-12 | the toggle changes the type and keeps the content |
| Blocks.ToggleTwice | src/components/ContentEditor.jsx:9-12 | toggling twice gives the block back |
| Blocks.Rows | src/components/ContentEditor.jsx:15-17 | rows is the line count clamped to 2..10: exactly the line count inside that range, 2 below it, 10 above it |
| Classifier.Indicator | src/components/ContentEditor.jsx:104-127 | the twelve indicators, tested on the trimmed text in the listed order: an indented line, a keyword, a brace block, two lines with semicolons, an assignment or comparison, a call, a modifier declaration, a type declaration, a regex literal, an operator character, a block comment, a line comment |
| Classifier.IndentRule | src/components/ContentEditor.jsx:139-148 | the trimmed text has more than one line and at least half of its lines start with whitespace |
| Classifier.DensityRule | src/components/ContentEditor.jsx:150-154 | the untrimmed text has more than ten characters and more than a fifth of them are special characters |
| Classifier.IsCode | src/components/ContentEditor.jsx:102-157 | code exactly when two indicators match, or the indentation rule holds, or the density rule holds |
| Classifier.IsCodeBlock | src/components/ContentEditor.jsx:102-157 | the counting loop with its early return gives exactly `IsCode`: at least two of the twelve indicators on the trimmed text, or the indentation rule, or the density rule on the untrimmed text |
| Classifier.VotesMonotone | src/components/ContentEditor.jsx:130-137 | the indicator count only grows as more indicators are tested, so returning at two does not change the verdict |
| Classifier.CountSpecialAppend | src/components/ContentEditor.jsx:151 | the special-character count of a concatenation is the sum of the counts |
| Classifier.TwoIndicatorsCode | src/components/ContentEditor.jsx:130-137 | any two distinct indicators matching the trimmed text make it code, whichever the others are |
| Classifier.SingleLineNeverIndented | src/components/ContentEditor.jsx:106 | a text without line terminators never triggers the indentation indicator, because its trimmed text starts with a non-blank character |
| Classifier.OneLineNoIndentRule | src/components/ContentEditor.jsx:140-147 | a text without line feeds never triggers the indentation rule, because its trimmed text is a single line |
| Classifier.BlankNeverCode | src/components/ContentEditor.jsx:130-156 | an empty or whitespace-only text is never code |
| ClassifierExamples.FunctionDeclarationIsCode | src/components/ContentEditor.jsx:108-116 | `function foo() { return 1; }` is code |
| ClassifierExamples.IndentedAssignmentIsNotCode | src/components/ContentEditor.jsx:140-154 | `"    x = 5"` is not code: one indicator only, single line, nine characters |
| ClassifierExamples.IntroIsCode | src/components/ContentEditor.jsx:108-119 | "Here is how you print in Python:" is code, through the keyword and the unanchored type indicator |
| ClassifierExamples.CallIsCode | src/components/ContentEditor.jsx:108-116 | `print("hello world")` is code |
| ClassifierExamples.OutroIsText | src/components/ContentEditor.jsx:104-156 | "That's the whole program." is not code |
| Segmenter.ProcessPastedContent | src/components/ContentEditor.jsx:160-215 | the line loop with its three accumulators gives exactly `Segment(IsCode, text)` |
| Segmenter.Step | src/components/ContentEditor.jsx:168-202 | one line: a code line pushes the pending text when it is not blank and opens or extends the code run; a text line pushes the open code run and extends the pending text |
| Segmenter.Finish | src/components/ContentEditor.jsx:205-212 | after the loop, the pending text and then the pending code are pushed, each trimmed and only when not blank |
| Segmenter.Segment | src/components/ContentEditor.jsx:160-215 | the paste split on line feeds, `Step` over the lines in order, then `Finish` |
| Segmenter.SegmentShape | src/components/ContentEditor.jsx:172-212 | for any line classifier, every block equals its own trim, no text block is blank, and no two text blocks are adjacent |
| Segmenter.SegmentNoBlankCode | src/components/ContentEditor.jsx:189-192 | when the classifier never accepts a blank line, no code block is blank |
| Segmenter.PastedBlocksNonBlank | src/components/ContentEditor.jsx:206-212 | with the real classifier, no emitted block is blank |
| Segmenter.SegmentPreservesContent | src/components/ContentEditor.jsx:162-214 | for any classifier, the non-whitespace characters of the blocks, in output order, are those of the paste |
| Segmenter.CodeBlankCode | src/components/ContentEditor.jsx:172-202 | code line, blank line, code line gives two adjacent code blocks |
| Segmenter.BlankTextSurvivesCode | src/components/ContentEditor.jsx:196-201 | a whitespace-only text line is not reset by a following code line and prefixes the next text |
| Segmenter.CodeCodeText | src/components/ContentEditor.jsx:172-212 | two code lines and a text line give one code block of both lines, then the text block |
| Segmenter.SegmentProse | src/components/ContentEditor.jsx:196-208 | a paste with no code line gives no blocks when blank, otherwise one text block of the trimmed paste |
| Segmenter.SegmentAllCode | src/components/ContentEditor.jsx:179-212 | a paste of code lines only gives one code block of the trimmed paste, or none when blank |
| SegmenterExamples.PrintInPython | src/components/NoteEditor.jsx:151-205 | the sentence, `print` line, sentence paste gives `[code(first two lines), text(last line)]` |
| ContentEditing.WithoutIsDeletion | src/components/ContentEditor.jsx:249-253 | removing index i deletes exactly position i; an out-of-range index gives an identical copy |
| ContentEditing.Moved | src/components/ContentEditor.jsx:255-261 | a move keeps the length and puts the moved block at `to` |
| ContentEditing.MovedPermutes | src/components/ContentEditor.jsx:255-261 | a move keeps the multiset of blocks |
| ContentEditing.MoveDownSwaps | src/components/ContentEditor.jsx:255-261 | moving i to i+1 swaps the two neighbours |
| ContentEditing.MoveUpSwaps | src/components/ContentEditor.jsx:255-261 | moving i to i-1 swaps the two neighbours |
| ContentEditing.MoveBack | src/components/ContentEditor.jsx:255-261 | moving back undoes a move |
| ContentEditing.UpdateFrame | src/components/ContentEditor.jsx:242-247 | an update through either handler changes position i only and keeps the length |
| ContentEditing.ContentEditor.constructor | src/components/ContentEditor.jsx:98 | the state list starts as the given value |
| ContentEditing.ContentEditor.AddContentBlock | src/components/ContentEditor.jsx:236-240 | as written: the list becomes exactly one empty block of the given type, whatever it held |
| ContentEditing.ContentEditor.AppendContentBlock | src/components/ContentEditor.jsx:236-240 | as intended: the new empty block is appended and the existing blocks stay in front |
| ContentEditing.AddDiscardsBlocks | src/components/ContentEditor.jsx:236-237 | the written and the intended add agree exactly when the list is empty |
| ContentEditing.ContentEditor.UpdateContentBlock | src/components/ContentEditor.jsx:242-247 | the list becomes the old list with position i replaced |
| ContentEditing.ContentEditor.RemoveContentBlock | src/components/ContentEditor.jsx:249-253 | the list becomes the old list without position i |
| ContentEditing.ContentEditor.MoveBlock | src/components/ContentEditor.jsx:255-261 | the two splices give `Moved(old list, from, to)` |
| ContentEditing.ContentEditor.HandlePaste | src/components/ContentEditor.jsx:217-234 | with a parent `onPaste` handler the list is left to the parent and unchanged; otherwise the list becomes the pasted blocks when there are any, and is unchanged when there are none |
| NoteEditing.OrElse | src/components/NoteEditor.jsx:61-62 | `o \|\| fallback` is the value when truthy, else the fallback |
| NoteEditing.Load | src/components/NoteEditor.jsx:55-78 | mode priority as if-and-only-ifs (code content or language, then an array of blocks, then rich text, then text), each mode's fields, the `'javascript'` default, and falsy category and tags as `''` |
| NoteEditing.AfterPaste | src/components/NoteEditor.jsx:504-516 | no blocks: no change; several blocks or a leading code block: mixed mode with the blocks and cleared content; one text block: plain mode with the raw paste |
| NoteEditing.SubmitError | src/components/NoteEditor.jsx:213-245 | a blank title is refused with "Title is required"; with a non-blank title, any refusal is "Code content is required" in code mode and "Content is required" in the other modes |
| NoteEditing.SubmitAccepted | src/components/NoteEditor.jsx:213-245 | a submit passes exactly when the title is non-blank and the current mode's own rule holds |
| NoteEditing.Contents | src/components/NoteEditor.jsx:267 | the block contents, one per block, in order |
| NoteEditing.OrNull | src/components/NoteEditor.jsx:255-256 | an empty category or tags string becomes null, anything else is kept |
| NoteEditing.Payload | src/components/NoteEditor.jsx:252-277 | trimmed title; per mode: code in both `codeContent` and `content`, blocks stored unchanged and joined by blank lines, rich text with its plain text, or trimmed text |
| NoteEditing.MapContents | src/components/NoteEditor.jsx:267 | the loop gives `Contents(blocks)` |
| NoteEditing.BuildNoteData | src/components/NoteEditor.jsx:252-277 | the successive field assignments give `Payload` |
| NoteEditing.LoadAfterSave | src/components/NoteEditor.jsx:55-78 | saving an accepted note through the notes service and loading it again: code and text notes come back in their mode with their content, trimmed title, status, category and tags; mixed and rich-text notes come back in text mode with their searchable text only |
| NoteEditing.Stored | src/services/notes.js:17-33 | the document written for a note keeps title, content and status, and category, tags, code and language with `\|\| null`; it has no blocks and no rich text |
| NoteEditing.StoredIntended | src/services/notes.js:17-33 | the corrected store also keeps the blocks and the rich text that were sent |
| NoteEditing.LoadAfterSaveIntended | src/components/NoteEditor.jsx:55-78 | with the corrected store, an accepted note reopens in its own mode with that mode's content |
| NoteEditing.MixedNoteReopensAsText | src/services/notes.js:22-31 | a saved note made of one code block `x = 1` reopens in the plain editor holding `x = 1` |
| NoteEditing.JoinedContents | src/components/NoteEditor.jsx:263-267 | joining with blank lines adds only whitespace to the blocks' text |
| NoteEditing.ProsePaste | src/components/NoteEditor.jsx:504-516 | a paste with no code line keeps plain mode with the paste, or changes nothing when blank |
| NoteEditing.CodePaste | src/components/NoteEditor.jsx:504-516 | a non-blank paste of code lines only opens mixed mode with one code block |
| NoteEditing.SavedMixedText | src/components/NoteEditor.jsx:263-267 | the saved searchable text of a mixed note holds the blocks' non-whitespace text |
| NoteEditing.MixedPasteKeepsText | src/components/NoteEditor.jsx:504-516 | a paste that opens mixed mode loses no non-whitespace character, neither in the blocks nor in the saved text |
| NoteEditing.PrintInPythonPaste | src/components/NoteEditor.jsx:504-516 | the three-line Python example opens mixed mode with `[code, text]` |
| CategoryService.OwnedBy | src/services/categoryService.js:43-44 | the filter never lengthens the list |
| CategoryService.OwnedByMembers | src/services/categoryService.js:43-44 | a record is returned exactly when it is stored and its `userId` matches |
| CategoryService.OwnedByAll | src/services/categoryService.js:43-44 | when every record matches, the filter returns the list unchanged |
| CategoryService.IndexOf | src/services/categoryService.js:69 | `findIndex`: -1 exactly when no record has the id, otherwise the first position that has it |
| CategoryService.NewRecord | src/services/categoryService.js:56-62 | the new record has the data's keys plus id and timestamps; an `id` in the data overrides the generated one; the timestamps are now |
| CategoryService.Overlay | src/services/categoryService.js:71-75 | the data's fields win over the old record, the old record's other fields are kept, and `$updatedAt` is now |
| CategoryService.DeleteUndoesCreate | src/services/categoryService.js:55-89 | deleting a freshly created record by its fresh id gives the old store back |
| CategoryService.UpdateKeepsPlace | src/services/categoryService.js:68-79 | an update that does not touch `id` keeps the record findable at its place and every other record as it was |
| CategoryService.DeletePermutes | src/services/categoryService.js:82-89 | a delete takes out exactly one record and keeps the others |
| CategoryService.SeedLookup | src/services/categoryService.js:5-39 | the seed record with id "2" ("Kerja") is at position 1 |
| CategoryService.Seeded | src/services/categoryService.js:5-39 | a seed record: its id, name, colour and description, owner `user1`, no parent, and its creation date in all three timestamps |
| CategoryService.CategoryStore.constructor | src/services/categoryService.js:5-39 | the store starts with the three seed records |
| CategoryService.CategoryStore.GetAllCategories | src/services/categoryService.js:42-47 | a truthy user id gives that user's records in stored order; a falsy one gives all records |
| CategoryService.CategoryStore.GetCategoryById | src/services/categoryService.js:50-52 | the first record with the id, or none exactly when no record has it |
| CategoryService.CategoryStore.CreateCategory | src/services/categoryService.js:55-65 | appends exactly the new record and returns it |
| CategoryService.CategoryStore.UpdateCategory | src/services/categoryService.js:68-79 | unknown id: null and no change; otherwise only the first match is overlaid and returned |
| CategoryService.CategoryStore.DeleteCategory | src/services/categoryService.js:82-89 | unknown id: null and no change; otherwise the first match is cut out and returned |
| Dashboard.Filter | src/components/Dashboard.jsx:56-59 | a filter never lengthens the list |
| Dashboard.InCategory | src/components/Dashboard.jsx:53-61 | `'all'` keeps every note, `'uncategorized'` the notes without a category, any other value the notes whose category equals it |
| Dashboard.MatchesQuery | src/components/Dashboard.jsx:64-72 | the lower-cased query occurs in the lower-cased title, content or tags, or in one trimmed tag |
| Dashboard.Shown | src/components/Dashboard.jsx:49-76 | a note is shown when it passes the category test and, for a non-empty query, the search test |
| Dashboard.Displayed | src/components/Dashboard.jsx:49-76 | the category filter unless `'all'` is selected, then the search filter when the query is not empty |
| Dashboard.Remove | src/components/Dashboard.jsx:82-83 | the notes whose id differs from the deleted one |
| Dashboard.FilterMembers | src/components/Dashboard.jsx:56-59 | an element is kept exactly when it is in the list and passes the test |
| Dashboard.FilterFilter | src/components/Dashboard.jsx:50-75 | two filters in a row are one filter by both tests |
| Dashboard.DisplayedIsOneFilter | src/components/Dashboard.jsx:49-76 | the shown list is the notes passing the category and the search test, in their original order |
| Dashboard.TagPiecesRedundant | src/components/Dashboard.jsx:64-73 | the per-tag test adds nothing to the test on the whole tags string |
| Dashboard.DeleteAgreesWithFilter | src/components/Dashboard.jsx:79-84 | a delete removes every note with that id and keeps the rest in order; the shown list after the delete is what the filters compute from the shortened list |
| Dashboard.SortByKeyDesc | src/components/Dashboard.jsx:363-364 | the sort returns a permutation in non-increasing key order, and it is stable: for each key value the elements with that key keep their input order |
| Dashboard.InsertStable | src/components/Dashboard.jsx:363-364 | inserting after every element of equal or higher key puts the element last among those of its key |
| Dashboard.InsertionPoint | src/components/Dashboard.jsx:364 | the insertion point follows every element ranking at least as high |
| Dashboard.TopOfSorted | src/components/Dashboard.jsx:365 | cutting a sorted list to its first n leaves out nothing that outranks a kept element |
| Dashboard.PermutedDistinct | src/components/Dashboard.jsx:363-364 | sorting distinct tags keeps them distinct |
| Dashboard.Trimmed | src/components/Dashboard.jsx:351 | the kept tags are non-empty and trimmed |
| Dashboard.TagList | src/components/Dashboard.jsx:351 | the tags of a note: the comma-separated pieces, trimmed, without the empty ones |
| Dashboard.AllTags | src/components/Dashboard.jsx:348-355 | every collected tag is non-empty and trimmed |
| Dashboard.TrimmedFrom | src/components/Dashboard.jsx:351 | every tag is the trim of one comma-separated piece |
| Dashboard.TrimmedHas | src/components/Dashboard.jsx:351 | every non-empty trimmed piece is a tag |
| Dashboard.TagClickShowsTagged | src/components/Dashboard.jsx:370-373 | clicking a tag shows every note that carries it |
| Dashboard.CollectTags | src/components/Dashboard.jsx:348-355 | the `forEach` loop gives `AllTags` |
| Dashboard.CountTags | src/components/Dashboard.jsx:357-363 | the counts are the occurrence counts; the entries are the distinct tags in order of first occurrence |
| Dashboard.PopularTags | src/components/Dashboard.jsx:346-366 | at most eight distinct collected tags in non-increasing count order; a tag left out means eight are shown, each used at least as often; among equally used tags the ones shown are the first to appear, in that order |
| Dashboard.RankedTags | src/components/Dashboard.jsx:363-366 | sorting the counted entries and cutting them to eight gives that ranking |
| Dashboard.RankedTies | src/components/Dashboard.jsx:363-366 | through the stable sort and the cut to eight, the shown tags of each count are a prefix of that count's tags in entry order |
| Dashboard.CountsMatchFilter | src/components/Dashboard.jsx:398-417 | "All", "None" and each category count equal the length of the list shown when that entry is selected |
| Dashboard.NoneCount | src/components/Dashboard.jsx:412 | the number of notes without a category |
| Dashboard.CategoryCount | src/components/Dashboard.jsx:417 | the number of notes filed under the category id |
| Dashboard.SumCountsSnoc | src/components/Dashboard.jsx:417 | one more note adds one to the count of its category only |
| Dashboard.CountsPartition | src/components/Dashboard.jsx:398-417 | when every note is uncategorised or under a listed category, "None" plus the category counts equals "All" |
| Dashboard.Stamp | src/components/Dashboard.jsx:322 | the time a note was last changed: `updatedAt` when present, else `createdAt` |
| Dashboard.FeaturedPosts | src/components/Dashboard.jsx:320-323 | at most three published notes, newest first; a published note left out means three are shown, none older than it; among notes with the same time the ones shown are the first published ones in `allNotes`, in that order |
| NoteViewing.LinesOf | src/components/NoteViewer.jsx:216-223 | a paragraph has at least one line and no line contains a newline |
| NoteViewing.Paragraphs | src/components/NoteViewer.jsx:214-215 | there is at least one paragraph |
| NoteViewing.RejoinParagraphs | src/components/NoteViewer.jsx:214-227 | rejoining lines with a newline and paragraphs with a blank line gives the content exactly |
| NoteViewing.BreaksBeforeLast | src/components/NoteViewer.jsx:223 | a break on every line but the last makes n - 1 breaks |
| NoteViewing.LineBreaks | src/components/NoteViewer.jsx:216-223 | a paragraph of n lines gets n - 1 breaks and none after the last line |
| NoteViewing.Render | src/components/NoteViewer.jsx:169-187 | one entry per stored block |
| NoteViewing.RenderKeepsBlocks | src/components/NoteViewer.jsx:169-187 | entries follow the stored order and type; code entries show the content and text entries rejoin to it |
| NoteViewing.BreakNewlines | src/components/NoteViewer.jsx:193 | no newline is left and nothing gets shorter |
| NoteViewing.BreakNewlinesNoOp | src/components/NoteViewer.jsx:193 | text without newlines is unchanged |
| NoteViewing.ViewOf | src/components/NoteViewer.jsx:162-229 | view priority as if-and-only-ifs: truthy code content, then an array of blocks, then truthy rich text, else paragraphs |
| NoteViewing.ViewAfterSave | src/components/NoteViewer.jsx:162-229 | a note saved through the notes service as written: a code note shows its code and a text note its paragraphs; a mixed or rich-text note shows the paragraphs of its searchable text |
| NoteViewing.ViewAfterSaveIntended | src/components/NoteViewer.jsx:162-229 | with the corrected store, an accepted note opens in the view of its editor mode and shows what was written |
| NoteViewing.LanguageAloneDiffers | src/components/NoteViewer.jsx:162-164 | a note with a language but no code opens in code mode in the editor, yet shows paragraphs in the viewer |
| NoteViewing.Badges | src/components/NoteViewer.jsx:148-155 | one badge per comma-separated piece, empty pieces included; none for empty tags |
| NoteViewing.BadgesAreTags | src/components/NoteViewer.jsx:148-155 | the non-empty badges are exactly the dashboard's tags of the note |
| CategoryForms.Key | src/components/CategoryForm.jsx:17-20 | each input's name is one of "name", "color", "description" |
| CategoryForms.Or | src/components/CategoryForm.jsx:8-11 | `value \|\| fallback` |
| CategoryForms.InitialForm | src/components/CategoryForm.jsx:7-12 | no category: `''`, `#4F46E5`, `''`, null; otherwise the category's truthy fields over those defaults |
| CategoryForms.EditUnchanged | src/components/CategoryForm.jsx:7-12 | editing a category with all fields set starts from exactly its fields |
| CategoryForms.WithField | src/components/CategoryForm.jsx:18-21 | setting a field leaves `parentId` alone |
| CategoryForms.SetThenGet | src/components/CategoryForm.jsx:18-21 | the set field reads back the value and the others are unchanged |
| CategoryForms.FormErrors | src/components/CategoryForm.jsx:33-46 | the error map has no keys but "name" and "description" |
| CategoryForms.FormErrorsExactly | src/components/CategoryForm.jsx:33-46 | a name error exactly when the name is blank or over 255, with the length message winning; a description error exactly when it is over 102 |
| CategoryForms.ValidExactly | src/components/CategoryForm.jsx:48-49 | valid exactly when the name is non-blank and at most 255 and the description at most 102 |
| CategoryForms.LimitsInclusive | src/components/CategoryForm.jsx:40-46 | 255 and 102 characters pass |
| CategoryForms.NameOverLimit | src/components/CategoryForm.jsx:40-42 | a 256-character name gives only the length error |
| CategoryForms.DescriptionOverLimit | src/components/CategoryForm.jsx:44-46 | a 103-character description gives only its error |
| CategoryForms.CategoryForm.constructor | src/components/CategoryForm.jsx:7-13 | initial form data and no errors |
| CategoryForms.CategoryForm.HandleChange | src/components/CategoryForm.jsx:16-31 | sets only the named field and removes only that field's error |
| CategoryForms.CategoryForm.ValidateForm | src/components/CategoryForm.jsx:33-50 | stores `FormErrors(form data)` and reports whether it is empty |
| CategoryForms.CategoryForm.HandleSubmit | src/components/CategoryForm.jsx:52-90 | an invalid form sends nothing and keeps its errors; a valid one sends its data, with only the `submit` error when the save fails |
| RichText.Run | src/components/EnhancedRichTextEditor.jsx:45 | the leading non-whitespace run, ended by whitespace or the end |
| RichText.Words | src/components/EnhancedRichTextEditor.jsx:45 | no word is empty |
| RichText.WordsKeepText | src/components/EnhancedRichTextEditor.jsx:45 | the words, concatenated, are the text without its whitespace |
| RichText.WordCount | src/components/EnhancedRichTextEditor.jsx:44-46 | the number of words of the trimmed text |
| RichText.WordCountZero | src/components/EnhancedRichTextEditor.jsx:44-46 | the count is zero exactly when the text is blank |
| RichText.ReadingTime | src/components/EnhancedRichTextEditor.jsx:48 | the least number of minutes in which 200 words a minute cover the words |
| RichText.ReadingTimeSteps | src/components/EnhancedRichTextEditor.jsx:48 | 0 words: 0; 1-200: 1; 201-400: 2 |
| RichText.InsertLink | src/components/EnhancedRichTextEditor.jsx:185-194 | a cancelled or empty prompt does nothing; an allowed URL creates the link; any other URL raises the alert |
| RichText.InsertImage | src/components/EnhancedRichTextEditor.jsx:196-205 | the same, with the image command and message |
| RichText.SameGate | src/components/EnhancedRichTextEditor.jsx:185-205 | links and images are accepted and refused on exactly the same URLs |
| RichText.AllowList | src/components/EnhancedRichTextEditor.jsx:175-183 | parse failures, `javascript:` and `ftp:` are refused; `https:` passes |
| RichText.IsValidUrl | src/components/EnhancedRichTextEditor.jsx:175-183 | a URL is valid exactly when it parses and its protocol is `http:`, `https:` or `mailto:` |
| RichText.MailtoImage | src/components/EnhancedRichTextEditor.jsx:196-205 | a `mailto:` image is accepted despite the HTTP/HTTPS-only message |
| RichText.ShortcutFor | src/components/EnhancedRichTextEditor.jsx:243-267 | a shortcut fires exactly with Ctrl or Meta and one of b, i, u, k |
| RichText.ShortcutKeys | src/components/EnhancedRichTextEditor.jsx:243-267 | each shortcut has exactly one key |
| RichText.AutoSaveWhen | src/components/EnhancedRichTextEditor.jsx:146-148 | an input auto-saves exactly when auto-save is on, the note id is set and the content has a non-whitespace character |
| RichText.ShouldAutoSave | src/components/EnhancedRichTextEditor.jsx:146 | auto-save is on, the note id is truthy and the trimmed content is not empty |

## Left out

- **Rendering.** React rendering, DOM access, `contentEditable`, `document.execCommand`, selection state and `innerHTML`/`textContent` are left out. The rich-text plain text is a parameter of `NoteEditing.Payload`.
- **Foreign libraries.** HTML sanitising (DOMPurify), syntax highlighting, `navigator.clipboard` and the backend SDK behind the notes and the Appwrite category service are outside the model.
- **Time and randomness.**
  - Timers, debouncing, the 10 ms paste delay, auto-save status changes and `localStorage` drafts are left out.
  - Clock readings are `int` parameters; `generateId` is an id parameter.
  - `Date` values and `new Date(updatedAt || createdAt)` are integer timestamps.
- **Notifications.** Notifications and `console` output are left out.
- **Unicode.** Whitespace and lower-casing are ASCII only; Unicode whitespace and case mapping are not modelled.
- `Classifier.DensityRule`, `CategoryForms.FormErrors` and `CategoryForms.CategoryForm.ValidateForm`: a string's length is its number of characters (`|s|`), whereas JavaScript's `.length` counts UTF-16 code units. A character outside the Basic Multilingual Plane, such as an emoji, counts once here and twice in the source. This affects the density ratio (src/components/ContentEditor.jsx:151-152), `name.length > 255` (src/components/CategoryForm.jsx:40) and `description.length > 102` (src/components/CategoryForm.jsx:44). A name of 130 emoji is refused by the source (length 260) and accepted by the model.
- **Falsy values.** Optional strings use `''` for every falsy value (`null`, `undefined`, `''`). A `mixedContent` that is not an array counts as absent.
- `NoteViewing.ViewOf`: a stored note without a `content` field is shown as empty paragraphs; the page itself would throw on it.
- `ContentEditing.ContentEditor.HandlePaste`: models `handlePaste` (src/components/ContentEditor.jsx:217-234) as written. No element of the component binds it: there is no `onPaste=` in its markup, and `NoteEditor.jsx` mounts the component without `onPaste`. So a paste into a block's textarea only edits that block's text through `UpdateContentBlock`, and the auto-detection promised by the tip at line 312 never runs. The live paste path is the note editor's textarea (`NoteEditing.AfterPaste`).
- `ContentEditing.ContentEditor.UpdateContentBlock`: requires an index inside the list. An index past the end, which grows a JavaScript array with holes, is not modelled.
- `ContentEditing.ContentEditor.MoveBlock`: requires both indices inside the list. Out-of-range splices are not modelled.
- `NoteEditing.Payload`: omits the `updatedAt` stamp added when an existing note is updated.
- `NoteEditing.Stored`: models the field list that `createNote` and `updateNote` send to the backend. The `owner` field, the generated id and the backend's own timestamps are left out; an update is modelled as a fresh write of those fields, since neither call ever writes blocks or rich text.
- `Dashboard.Stamp` and `Dashboard.FeaturedPosts`: a note is modelled with an integer `createdAt`, but no part of the program writes one. `createNote` (src/services/notes.js:22-31) sends no creation time, `updatedAt` is written only by `updateNote` (src/services/notes.js:53), and the backend's own creation field is `$createdAt`. So for a note that was never updated, `b.updatedAt || b.createdAt` (src/components/Dashboard.jsx:322) is missing, and `new Date(...)` of it is an invalid date or the epoch. An invalid date makes the comparator return NaN, which the sort takes as a tie, so the order is then up to the JavaScript engine. "Newest first" and the tie order are proved only for notes that carry a timestamp.
- `Dashboard.CountTags`: counts in a `map`, so every tag is an ordinary key. The source counts in a plain `{}`, which differs in two ways:
  - `Object.entries` lists integer-like keys (such as `"2024"`) first, in ascending order; the model keeps first-occurrence order for every key.
  - Tags named after `Object.prototype` members are not counted as the model counts them. `acc[tag] || 0` reads an inherited function for `constructor`, `toString`, `valueOf` and the like, so their count becomes a string. A `__proto__` tag is never stored and never listed.
- `Dashboard.PopularTags`: all of its properties assume tags that are neither integer-like nor `Object.prototype` member names.
  - For integer-like tags, only the tie order (the first tags to appear come first) can differ; the count order and the cut to eight do not depend on key order.
  - For a tag such as `constructor`, the string count makes `countB - countA` NaN, which the sort takes as a tie, so the ranking properties need not hold.
  - A `__proto__` tag is never shown.
- `CategoryService.CategoryStore.GetAllCategories`: returns the list value itself, so the model does not distinguish the JavaScript copy from the array.
- **Backend services.** The database calls behind the notes service and the Appwrite-backed category service are outside the model; only the fields the notes service writes are modelled (`NoteEditing.Stored`).

## Findings

| source | as written | input that shows it | evidently intended | confidence | as-written member | corrected member |
|---|---|---|---|---|---|---|
| src/components/ContentEditor.jsx:236-237 | `addContentBlock(type, content = '')` spreads its own `content` parameter, which hides the state list, so the new list is just the new block | any editor already holding a block, then "Add Text Block" | append the empty block after the existing ones | high (not executed) | ContentEditing.ContentEditor.AddContentBlock, ContentEditing.AddDiscardsBlocks | ContentEditing.ContentEditor.AppendContentBlock |
| src/services/notes.js:17-33 | `createNote` (and `updateNote` at lines 46-56) writes title, content, status, category, tags, owner, code and language only, so the blocks of a mixed note and the HTML of a rich-text note are never stored; the editor and viewer then open such a note as plain text | a mixed note made of one code block `x = 1`: it reopens in the plain editor holding `x = 1` | store `mixedContent` and `richTextContent` with the other fields, so a note reopens in the mode it was written in | high (not executed) | NoteEditing.LoadAfterSave, NoteEditing.MixedNoteReopensAsText, NoteViewing.ViewAfterSave | NoteEditing.StoredIntended, NoteEditing.LoadAfterSaveIntended, NoteViewing.ViewAfterSaveIntended |

=== FILE: blocks.dfy ===
/** The content blocks of a mixed note (`{type, content}` objects in
    src/components/ContentEditor.jsx) and the pure operations on one block. */
module Blocks {
  import opened Strings

  /** The block's `type` field: `'text'` or `'code'`. */
  datatype BlockType = Text | Code

  datatype Block = Block(kind: BlockType, content: string)

  /** The content handler: `{ ...item, content: value }`. */
  function WithContent(b: Block, value: string): (r: Block)
    ensures r.kind == b.kind && r.content == value
  {
    b.(content := value)
  }

  /** The type toggle: `'code'` becomes `'text'`, anything else `'code'`. */
  function Toggled(b: Block): (r: Block)
    ensures r.content == b.content && r.kind != b.kind
  {
    b.(kind := if b.kind == Code then Text else Code)
  }

  /** Toggling twice gives the block back. */
  lemma ToggleTwice(b: Block)
    ensures Toggled(Toggled(b)) == b
  {
  }

  /** The text area's `rows`: the number of lines of the content, clamped to
      the range 2..10. */
  function Rows(b: Block): (r: int)
    ensures 2 <= r <= 10
    ensures var n := |Split(b.content, "\n")|; 2 <= n <= 10 ==> r == n
    ensures |Split(b.content, "\n")| <= 2 ==> r == 2
    ensures |Split(b.content, "\n")| >= 10 ==> r == 10
  {
    var n := |Split(b.content, "\n")|;
    if n < 2 then 2 else if n > 10 then 10 else n
  }

  /** The contents of the blocks, concatenated in order. */
  function Concat(blocks: seq<Block>): string
  {
    if blocks == [] then "" else Concat(blocks[..|blocks| - 1]) + blocks[|blocks| - 1].content
  }

  lemma ConcatSnoc(blocks: seq<Block>, b: Block)
    ensures Concat(blocks + [b]) == Concat(blocks) + b.content
  {
    assert (blocks + [b])[..|blocks|] == blocks;
  }
}

=== FILE: category_form.dfy ===
/** The category form of src/components/CategoryForm.jsx: its initial
    fields, the change handler that sets one field and clears that field's
    error, the validation that builds the error map, and the submit path up
    to the call into the category service. */
module CategoryForms {
  import opened Wrappers
  import opened Strings

  /** The three inputs of the form; each input's `name` attribute is a key
      of both the form data and the error map. */
  datatype Field = Name | Color | Description

  function Key(f: Field): (r: string)
    ensures r in {"name", "color", "description"}
  {
    match f
    case Name => "name"
    case Color => "color"
    case Description => "description"
  }

  lemma KeyInjective(f: Field, g: Field)
    ensures Key(f) == Key(g) <==> f == g
  {
  }

  datatype FormData = FormData(name: string, color: string, description: string, parentId: Option<string>)

  /** The category being edited; a falsy field is `""` (or `None`). */
  datatype CategoryInput = CategoryInput(name: string, color: string, description: string, parentId: Option<string>)

  const DefaultColor := "#4F46E5"
  const NameRequired := "Nama kategori wajib diisi"
  const NameTooLong := "Nama kategori tidak boleh lebih dari 255 karakter"
  const DescriptionTooLong := "Deskripsi tidak boleh lebih dari 102 karakter"
  const SaveFailed := "Gagal menyimpan kategori. Silakan coba lagi."

  /** `value || fallback` for a string. */
  function Or(value: string, fallback: string): (r: string)
    ensures value != "" ==> r == value
    ensures value == "" ==> r == fallback
  {
    if value != "" then value else fallback
  }

  /** The initial `formData`: each truthy field of the category, otherwise
      the default (`''`, the indigo colour, `''`, `null`). */
  function InitialForm(category: Option<CategoryInput>): (r: FormData)
    ensures category.None? ==> r == FormData("", DefaultColor, "", None)
    ensures category.Some? ==>
      r.name == category.value.name && r.description == category.value.description &&
      r.color == Or(category.value.color, DefaultColor)
    ensures category.Some? && category.value.parentId.Some? && category.value.parentId.value != "" ==>
      r.parentId == category.value.parentId
    ensures category.Some? && (category.value.parentId.None? || category.value.parentId.value == "") ==>
      r.parentId == None
  {
    match category
    case None => FormData("", DefaultColor, "", None)
    case Some(c) =>
      FormData(Or(c.name, ""), Or(c.color, DefaultColor), Or(c.description, ""),
               if c.parentId.Some? && c.parentId.value != "" then c.parentId else None)
  }

  /** Opening the form on a category whose fields are all set and submitting
      it unchanged sends the category's own fields back. */
  lemma EditUnchanged(c: CategoryInput)
    requires c.color != "" && (c.parentId.None? || c.parentId.value != "")
    ensures var d := InitialForm(Some(c));
      d.name == c.name && d.color == c.color && d.description == c.description && d.parentId == c.parentId
  {
  }

  /** The value of one input. */
  function FieldOf(d: FormData, f: Field): string
  {
    match f
    case Name => d.name
    case Color => d.color
    case Description => d.description
  }

  /** `{...prev, [name]: value}`. */
  function WithField(d: FormData, f: Field, value: string): (r: FormData)
    ensures r.parentId == d.parentId
  {
    match f
    case Name => d.(name := value)
    case Color => d.(color := value)
    case Description => d.(description := value)
  }

  /** Setting a field changes that field and no other. */
  lemma SetThenGet(d: FormData, f: Field, value: string, g: Field)
    ensures FieldOf(WithField(d, f, value), g) == if g == f then value else FieldOf(d, g)
  {
  }

  /** The `newErrors` map of `validateForm`: the blank check sets the name
      error first and the length check overwrites it. */
  function FormErrors(d: FormData): (r: map<string, string>)
    ensures r.Keys <= {"name", "description"}
  {
    var byBlank := if Trim(d.name) == "" then map["name" := NameRequired] else map[];
    var byLength := if |d.name| > 255 then byBlank["name" := NameTooLong] else byBlank;
    if d.description != "" && |d.description| > 102 then byLength["description" := DescriptionTooLong] else byLength
  }

  /** A name error exactly when the name is blank or over 255 characters,
      with the length message winning; a description error exactly when the
      description is over 102 characters. */
  lemma FormErrorsExactly(d: FormData)
    ensures "name" in FormErrors(d) <==> Blank(d.name) || |d.name| > 255
    ensures "name" in FormErrors(d) ==> FormErrors(d)["name"] == if |d.name| > 255 then NameTooLong else NameRequired
    ensures "description" in FormErrors(d) <==> |d.description| > 102
    ensures "description" in FormErrors(d) ==> FormErrors(d)["description"] == DescriptionTooLong
  {
    TrimBlank(d.name);
  }

  /** The form is valid exactly when the name is not blank and at most 255
      characters long and the description is at most 102 characters long. */
  lemma ValidExactly(d: FormData)
    ensures FormErrors(d) == map[] <==> !Blank(d.name) && |d.name| <= 255 && |d.description| <= 102
  {
    FormErrorsExactly(d);
    if !(FormErrors(d) == map[]) {
      assert "name" in FormErrors(d) || "description" in FormErrors(d);
    }
  }

  /** The limits are inclusive: a non-blank name of 255 characters with a
      description of 102 passes. */
  lemma LimitsInclusive(d: FormData)
    requires !Blank(d.name) && |d.name| == 255 && |d.description| == 102
    ensures FormErrors(d) == map[]
  {
    ValidExactly(d);
  }

  /** One character more in the name leaves only the length error, whatever
      the description. */
  lemma NameOverLimit(d: FormData)
    requires |d.name| == 256 && |d.description| <= 102
    ensures FormErrors(d).Keys == {"name"} && FormErrors(d)["name"] == NameTooLong
  {
    FormErrorsExactly(d);
  }

  /** One character more in the description gives only its error. */
  lemma DescriptionOverLimit(d: FormData)
    requires !Blank(d.name) && |d.name| <= 255 && |d.description| == 103
    ensures FormErrors(d).Keys == {"description"} && FormErrors(d)["description"] == DescriptionTooLong
  {
    FormErrorsExactly(d);
  }

  class CategoryForm {
    var formData: FormData
    var errors: map<string, string>

    /** Every stored error message is non-empty, so `errors[name]` is truthy
        exactly when the key is present. */
    ghost predicate Valid()
      reads this
    {
      forall k :: k in errors ==> errors[k] != ""
    }

    constructor (category: Option<CategoryInput>)
      ensures Valid()
      ensures formData == InitialForm(category) && errors == map[]
    {
      formData := InitialForm(category);
      errors := map[];
    }

    /** `handleChange`: set the field, and remove its error if it has one. */
    method HandleChange(f: Field, value: string)
      requires Valid()
      modifies this
      ensures Valid()
      ensures formData == WithField(old(formData), f, value)
      ensures errors == old(errors) - {Key(f)}
    {
      formData := WithField(formData, f, value);
      var name := Key(f);
      if name in errors && errors[name] != "" {
        var newErrors := errors;
        newErrors := newErrors - {name};
        errors := newErrors;
      }
    }

    /** `validateForm`: build `newErrors` step by step, store it, and report
        whether it is empty. */
    method ValidateForm() returns (valid: bool)
      modifies this
      ensures Valid()
      ensures formData == old(formData)
      ensures errors == FormErrors(formData)
      ensures valid <==> errors == map[]
    {
      var newErrors: map<string, string> := map[];
      if Trim(formData.name) == "" {
        newErrors := newErrors["name" := NameRequired];
      }
      if |formData.name| > 255 {
        newErrors := newErrors["name" := NameTooLong];
      }
      if formData.description != "" && |formData.description| > 102 {
        newErrors := newErrors["description" := DescriptionTooLong];
      }
      errors := newErrors;
      valid := |newErrors.Keys| == 0;
      assert valid <==> newErrors == map[] by {
        if !valid { var k :| k in newErrors.Keys; }
      }
    }

    /** `handleSubmit` up to the service call: an invalid form sends nothing;
        a valid one sends its four fields, and a failed save leaves only the
        `submit` error. */
    method HandleSubmit(saveFails: bool) returns (request: Option<FormData>)
      modifies this
      ensures Valid()
      ensures formData == old(formData)
      ensures request.Some? <==> FormErrors(formData) == map[]
      ensures request.Some? ==> request.value == formData
      ensures request.None? ==> errors == FormErrors(formData)
      ensures request.Some? ==> errors == if saveFails then map["submit" := SaveFailed] else map[]
    {
      var valid := ValidateForm();
      if !valid {
        return None;
      }
      request := Some(formData);
      if saveFails {
        errors := map["submit" := SaveFailed];
      }
    }
  }
}

=== FILE: category_service.dfy ===
/** The in-memory category store of src/services/categoryService.js: a
    module-level array of category records, read by `filter` and `find`,
    grown by `push`, updated by index assignment and shrunk by `splice`.

    A record is a JavaScript object, modelled as a map from property names to
    values, so that object spread is map union (`+`, the right operand
    winning). `new Date()` is the parameter `now`, a millisecond timestamp,
    and `generateId()` is the parameter `generatedId`. */
module CategoryService {
  import opened Wrappers

  /** A property value: a string, `null`, or a date as milliseconds since
      the epoch. */
  datatype Value = Str(s: string) | Null | Date(millis: int)

  type Category = map<string, Value>

  /** `record[key] === value` for a string `value`; a missing property is
      `undefined` and equals no string. */
  predicate HasField(record: Category, key: string, value: string)
  {
    key in record && record[key] == Str(value)
  }

  predicate HasId(record: Category, id: string)
  {
    HasField(record, "id", id)
  }

  /** One of the three records the store starts with. */
  function Seeded(id: string, name: string, color: string, description: string, millis: int): Category
  {
    map["id" := Str(id), "name" := Str(name), "color" := Str(color), "userId" := Str("user1"),
        "description" := Str(description), "parentId" := Null, "createdAt" := Date(millis),
        "$createdAt" := Date(millis), "$updatedAt" := Date(millis)]
  }

  const Seed: seq<Category> := [
    Seeded("1", "Pribadi", "#FF6B6B", "Kategori untuk catatan pribadi", 1673740800000),
    Seeded("2", "Kerja", "#4ECDC4", "Kategori untuk catatan kerja", 1674172800000),
    Seeded("3", "Belajar", "#45B7D1", "Kategori untuk catatan belajar", 1675987200000)]

  /** `categories.filter(category => category.userId === userId)`. */
  function OwnedBy(cs: seq<Category>, userId: string): (r: seq<Category>)
    ensures |r| <= |cs|
  {
    if cs == [] then []
    else OwnedBy(cs[..|cs| - 1], userId) + (if HasField(cs[|cs| - 1], "userId", userId) then [cs[|cs| - 1]] else [])
  }

  /** The filter keeps exactly the records of that user. */
  lemma {:induction false} OwnedByMembers(cs: seq<Category>, userId: string)
    ensures forall c :: c in OwnedBy(cs, userId) <==> c in cs && HasField(c, "userId", userId)
  {
    if cs != [] {
      var init := cs[..|cs| - 1];
      OwnedByMembers(init, userId);
      assert cs == init + [cs[|cs| - 1]];
    }
  }

  /** When every stored record belongs to the user, the filter returns the
      store unchanged, in stored order. */
  lemma {:induction false} OwnedByAll(cs: seq<Category>, userId: string)
    requires forall i :: 0 <= i < |cs| ==> HasField(cs[i], "userId", userId)
    ensures OwnedBy(cs, userId) == cs
  {
    if cs != [] {
      OwnedByAll(cs[..|cs| - 1], userId);
      assert cs[..|cs| - 1] + [cs[|cs| - 1]] == cs;
    }
  }

  /** `findIndex(category => category.id === id)`: the first position holding
      that id, or -1. */
  function IndexOf(cs: seq<Category>, id: string): (r: int)
    ensures -1 <= r < |cs|
    ensures r >= 0 ==> HasId(cs[r], id)
    ensures forall j :: 0 <= j < |cs| && (r == -1 || j < r) ==> !HasId(cs[j], id)
  {
    if cs == [] then -1
    else if HasId(cs[0], id) then 0
    else
      var r := IndexOf(cs[1..], id);
      assert forall j :: 1 <= j < |cs| ==> cs[j] == cs[1..][j - 1];
      if r == -1 then -1 else r + 1
  }

  /** The record `createCategory` builds: the generated id, then the given
      properties (which may replace the id), then the three timestamps. */
  function NewRecord(data: Category, generatedId: string, now: int): (r: Category)
    ensures r.Keys == data.Keys + {"id", "createdAt", "$createdAt", "$updatedAt"}
    ensures r["id"] == if "id" in data then data["id"] else Str(generatedId)
    ensures r["createdAt"] == Date(now) && r["$createdAt"] == Date(now) && r["$updatedAt"] == Date(now)
    ensures forall k :: k in data && k !in {"createdAt", "$createdAt", "$updatedAt"} ==> r[k] == data[k]
  {
    (map["id" := Str(generatedId)] + data)["createdAt" := Date(now)]["$createdAt" := Date(now)]["$updatedAt" := Date(now)]
  }

  /** The record `updateCategory` stores: the old record, overlaid with the
      given properties, with a fresh `$updatedAt`. */
  function Overlay(old_: Category, data: Category, now: int): (r: Category)
    ensures r.Keys == old_.Keys + data.Keys + {"$updatedAt"}
    ensures r["$updatedAt"] == Date(now)
    ensures forall k :: k in data && k != "$updatedAt" ==> r[k] == data[k]
    ensures forall k :: k in old_ && k !in data && k != "$updatedAt" ==> r[k] == old_[k]
  {
    (old_ + data)["$updatedAt" := Date(now)]
  }

  /** A record created without an `id` of its own, under an id no stored
      record has, is the one a later delete by that id removes: the store is
      back to what it was. */
  lemma DeleteUndoesCreate(cs: seq<Category>, data: Category, generatedId: string, now: int)
    requires "id" !in data
    requires IndexOf(cs, generatedId) == -1
    ensures var s := cs + [NewRecord(data, generatedId, now)];
      IndexOf(s, generatedId) == |cs| && s[..|cs|] + s[|cs| + 1..] == cs
  {
    var s := cs + [NewRecord(data, generatedId, now)];
    assert HasId(s[|cs|], generatedId);
    assert forall j :: 0 <= j < |cs| ==> s[j] == cs[j];
  }

  /** An update that does not touch `id` leaves the record where a lookup by
      that id finds it, and every other record as it was. */
  lemma UpdateKeepsPlace(cs: seq<Category>, id: string, data: Category, now: int)
    requires IndexOf(cs, id) >= 0
    requires "id" !in data
    ensures var i := IndexOf(cs, id);
      var s := cs[i := Overlay(cs[i], data, now)];
      IndexOf(s, id) == i && |s| == |cs| && forall j :: 0 <= j < |cs| && j != i ==> s[j] == cs[j]
  {
    var i := IndexOf(cs, id);
    var s := cs[i := Overlay(cs[i], data, now)];
    assert HasId(s[i], id);
  }

  /** Deleting takes one record out and keeps the others. */
  lemma DeletePermutes(cs: seq<Category>, i: int)
    requires 0 <= i < |cs|
    ensures multiset(cs) == multiset(cs[..i] + cs[i + 1..]) + multiset{cs[i]}
  {
    assert cs == cs[..i] + [cs[i]] + cs[i + 1..];
  }

  /** Of the three starting records, the one with id "2" is found second. */
  lemma SeedLookup()
    ensures IndexOf(Seed, "2") == 1 && Seed[1]["name"] == Str("Kerja")
  {
    assert !HasId(Seed[0], "2");
    assert HasId(Seed[1], "2");
  }

  class CategoryStore {
    /** The module-level `categories` array. */
    var categories: seq<Category>

    constructor ()
      ensures categories == Seed
    {
      categories := Seed;
    }

    /** `getAllCategories(userId)`: the user's records in stored order, or a
        copy of all of them when `userId` is falsy (`''` here). */
    method GetAllCategories(userId: string) returns (result: seq<Category>)
      ensures result == if userId != "" then OwnedBy(categories, userId) else categories
    {
      if userId != "" {
        result := [];
        for i := 0 to |categories|
          invariant result == OwnedBy(categories[..i], userId)
        {
          assert categories[..i + 1][..i] == categories[..i];
          if HasField(categories[i], "userId", userId) {
            result := result + [categories[i]];
          }
        }
        assert categories[..|categories|] == categories;
        return;
      }
      result := categories;
    }

    /** `getCategoryById(id)`: the first record with that id, if any. */
    method GetCategoryById(id: string) returns (result: Option<Category>)
      ensures result.None? <==> forall j :: 0 <= j < |categories| ==> !HasId(categories[j], id)
      ensures result.Some? ==>
        exists j :: 0 <= j < |categories| && result.value == categories[j] && HasId(categories[j], id) &&
          forall k :: 0 <= k < j ==> !HasId(categories[k], id)
    {
      var index := IndexOf(categories, id);
      if index == -1 {
        result := None;
      } else {
        result := Some(categories[index]);
      }
    }

    /** `createCategory(categoryData)`: append the new record and return it. */
    method CreateCategory(categoryData: Category, generatedId: string, now: int) returns (newCategory: Category)
      modifies this
      ensures newCategory == NewRecord(categoryData, generatedId, now)
      ensures categories == old(categories) + [newCategory]
    {
      newCategory := NewRecord(categoryData, generatedId, now);
      categories := categories + [newCategory];
    }

    /** `updateCategory(id, categoryData)`: overlay the first record with that
        id and return it; `null` and no change when there is none. */
    method UpdateCategory(id: string, categoryData: Category, now: int) returns (result: Option<Category>)
      modifies this
      ensures IndexOf(old(categories), id) == -1 ==> result == None && categories == old(categories)
      ensures var i := IndexOf(old(categories), id);
        i >= 0 ==>
          categories == old(categories)[i := Overlay(old(categories)[i], categoryData, now)] &&
          result == Some(categories[i])
    {
      var index := IndexOf(categories, id);
      if index != -1 {
        categories := categories[index := Overlay(categories[index], categoryData, now)];
        return Some(categories[index]);
      }
      return None;
    }

    /** `deleteCategory(id)`: cut out the first record with that id and return
        it; `null` and no change when there is none. */
    method DeleteCategory(id: string) returns (result: Option<Category>)
      modifies this
      ensures IndexOf(old(categories), id) == -1 ==> result == None && categories == old(categories)
      ensures var i := IndexOf(old(categories), id);
        i >= 0 ==> result == Some(old(categories)[i]) && categories == old(categories)[..i] + old(categories)[i + 1..]
    {
      var index := IndexOf(categories, id);
      if index != -1 {
        var deletedCategory := categories[index];
        categories := categories[..index] + categories[index + 1..];
        return Some(deletedCategory);
      }
      return None;
    }
  }
}

=== FILE: classifier.dfy ===
/** The paste-time code detector `isCodeBlock` (src/components/ContentEditor.jsx
    and its copy in src/components/NoteEditor.jsx): twelve regular-expression
    "indicators" vote on the trimmed text, two supplementary rules follow.
    Each indicator is written out as the set of positions at which its
    regular expression can match; backtracking collapses into the existential
    quantifiers. */
module Classifier {
  import opened Strings

  /** Position `p` is where a multi-line `^` can match. */
  predicate AtLineStart(t: string, p: int)
    requires 0 <= p <= |t|
  {
    p == 0 || IsLineTerminator(t[p - 1])
  }

  /** `w` occurs in `t` at index `p`, compared character by character. */
  predicate WordAt(t: string, p: int, w: string)
    decreases |w|
  {
    0 <= p <= |t| && (|w| == 0 || (p < |t| && t[p] == w[0] && WordAt(t, p + 1, w[1..])))
  }

  lemma {:induction false} WordAtSlice(t: string, p: int, w: string)
    ensures WordAt(t, p, w) <==> 0 <= p && p + |w| <= |t| && t[p..p + |w|] == w
    decreases |w|
  {
    if 0 <= p <= |t| && |w| > 0 {
      WordAtSlice(t, p + 1, w[1..]);
      if p < |t| && p + |w| <= |t| {
        assert t[p..p + |w|] == [t[p]] + t[p + 1..p + |w|];
        assert w == [w[0]] + w[1..];
        if t[p..p + |w|] == w {
          assert t[p] == w[0];
          assert t[p + 1..p + |w|] == w[1..];
        }
      }
    }
  }

  /** `\b` at index `q`: exactly one side of `q` is a word character. */
  predicate WordBoundary(t: string, q: int)
    requires 0 <= q <= |t|
  {
    (q > 0 && IsWordChar(t[q - 1])) != (q < |t| && IsWordChar(t[q]))
  }

  /** Indicator 1, `/^(\s{2,}|\t)/gm`: some line starts with a tab or with two
      whitespace characters. */
  predicate IndentedLine(t: string)
  {
    exists p :: 0 <= p < |t| && AtLineStart(t, p) &&
      (t[p] == '\t' || (p + 1 < |t| && IsWs(t[p]) && IsWs(t[p + 1])))
  }

  /** Keyword `w` at `p`, followed by a word boundary. */
  predicate KeywordAt(t: string, p: int, w: string)
  {
    WordAt(t, p, w) && p + |w| <= |t| && WordBoundary(t, p + |w|)
  }

  /** One of the keywords of indicator 2 starts at `p`. */
  predicate AnyKeywordAt(t: string, p: int)
  {
    KeywordAt(t, p, "function") || KeywordAt(t, p, "def") || KeywordAt(t, p, "class") ||
    KeywordAt(t, p, "import") || KeywordAt(t, p, "from") || KeywordAt(t, p, "var") ||
    KeywordAt(t, p, "let") || KeywordAt(t, p, "const") || KeywordAt(t, p, "if") ||
    KeywordAt(t, p, "else") || KeywordAt(t, p, "for") || KeywordAt(t, p, "while") ||
    KeywordAt(t, p, "try") || KeywordAt(t, p, "catch") || KeywordAt(t, p, "finally") ||
    KeywordAt(t, p, "switch") || KeywordAt(t, p, "case") || KeywordAt(t, p, "break") ||
    KeywordAt(t, p, "continue") || KeywordAt(t, p, "return") || KeywordAt(t, p, "console.log") ||
    KeywordAt(t, p, "print") || KeywordAt(t, p, "puts") || KeywordAt(t, p, "System.out.println") ||
    KeywordAt(t, p, "main(") || KeywordAt(t, p, "struct") || KeywordAt(t, p, "enum") ||
    KeywordAt(t, p, "interface") || KeywordAt(t, p, "impl") || KeywordAt(t, p, "fn") ||
    KeywordAt(t, p, "func") || KeywordAt(t, p, "package") || KeywordAt(t, p, "module") ||
    KeywordAt(t, p, "use") || KeywordAt(t, p, "require")
  }

  /** Indicator 2, `/(?:^|\s)(?:function|def|…|require)\b/`: a keyword at the
      start of the text or right after a whitespace character. */
  predicate HasKeyword(t: string)
  {
    exists p :: 0 <= p < |t| && (p == 0 || IsWs(t[p - 1])) && AnyKeywordAt(t, p)
  }

  /** Indicator 3, `/^.*\{[\s\S]*\}[\s]*$/m`: an opening brace, a later closing
      brace, and after it only whitespace up to the end of the text or of a line. */
  predicate BraceBlock(t: string)
  {
    exists i, j, k :: 0 <= i < j < k <= |t| && t[i] == '{' && t[j] == '}' &&
      Blank(t[j + 1..k]) && (k == |t| || IsLineTerminator(t[k]))
  }

  /** Indicator 4, `/^.*;.*\n.*;/m`: a semicolon, a line feed later on the same
      line, and a semicolon on the next line. */
  predicate SemicolonLines(t: string)
  {
    exists i, n, j :: 0 <= i < n < j < |t| && t[i] == ';' && t[n] == '\n' && t[j] == ';' &&
      SingleLine(t[i + 1..n]) && SingleLine(t[n + 1..j])
  }

  /** The characters of `[\w./-]`. */
  predicate IsPathChar(c: char)
  {
    IsWordChar(c) || c == '.' || c == '/' || c == '-'
  }

  predicate IsQuote(c: char)
  {
    c == '\'' || c == '"'
  }

  /** One of `=>`, `===`, `!==`, `<=`, `>=`, `&&`, `||` starts at `p`. */
  predicate ComparisonAt(t: string, p: int)
  {
    WordAt(t, p, "=>") || WordAt(t, p, "===") || WordAt(t, p, "!==") || WordAt(t, p, "<=") ||
    WordAt(t, p, ">=") || WordAt(t, p, "&&") || WordAt(t, p, "||")
  }

  /** Indicator 5, `/=\s*['"]?[\w./-]+['"]?|=>|===|!==|<=|>=|&&|\|\|/`: an
      `=` followed, after optional whitespace and an optional quote, by a
      character of `[\w./-]`; or one of the comparison operators. */
  predicate Assignment(t: string)
  {
    (exists i, k :: 0 <= i < k < |t| && t[i] == '=' && Blank(t[i + 1..k]) &&
       (IsPathChar(t[k]) || (IsQuote(t[k]) && k + 1 < |t| && IsPathChar(t[k + 1]))))
    || (exists p :: 0 <= p < |t| && ComparisonAt(t, p))
  }

  /** Indicator 6, `/\w+\([^)]*\)/`: a word character, an opening parenthesis
      right after it, and a closing parenthesis somewhere later. */
  predicate CallShape(t: string)
  {
    exists i, j :: 0 <= i && i + 1 < j < |t| && IsWordChar(t[i]) && t[i + 1] == '(' && t[j] == ')'
  }

  /** Word `w` at `p`, then one or more whitespace characters, then a word
      character (no word boundary is required before `w`). */
  predicate DeclarationAt(t: string, p: int, w: string)
  {
    WordAt(t, p, w) &&
    exists k :: p + |w| < k < |t| && Blank(t[p + |w|..k]) && IsWordChar(t[k])
  }

  /** Indicator 7, `/(?:public|private|protected|static|final|const|var|let)\s+\w+/`. */
  predicate ModifierDeclaration(t: string)
  {
    exists p :: 0 <= p < |t| && (
      DeclarationAt(t, p, "public") || DeclarationAt(t, p, "private") ||
      DeclarationAt(t, p, "protected") || DeclarationAt(t, p, "static") ||
      DeclarationAt(t, p, "final") || DeclarationAt(t, p, "const") ||
      DeclarationAt(t, p, "var") || DeclarationAt(t, p, "let"))
  }

  /** Indicator 8, `/(?:int|float|double|string|bool|boolean|char|long)\s+\w+/`;
      without a word boundary, so "print in" matches through "int in". */
  predicate TypeDeclaration(t: string)
  {
    exists p :: 0 <= p < |t| && (
      DeclarationAt(t, p, "int") || DeclarationAt(t, p, "float") ||
      DeclarationAt(t, p, "double") || DeclarationAt(t, p, "string") ||
      DeclarationAt(t, p, "bool") || DeclarationAt(t, p, "boolean") ||
      DeclarationAt(t, p, "char") || DeclarationAt(t, p, "long"))
  }

  // Indicator 9, the regular-expression literal pattern `/\/[^/]+\/[gimuy]*/`:
  // a slash, a non-slash right after it, and a later slash.
  predicate RegexLiteral(t: string)
  {
    exists i, j :: 0 <= i && i + 1 < j < |t| && t[i] == '/' && t[i + 1] != '/' && t[j] == '/'
  }

  /** Indicator 10, `/[+\-*\/=!<>]=|[+\-*\/%^&|]+/`: any single arithmetic or
      bitwise operator character, or a comparison character followed by `=`. */
  predicate OperatorChar(t: string)
  {
    exists i :: 0 <= i < |t| &&
      (t[i] in "+-*/%^&|" || (t[i] in "+-*/=!<>" && i + 1 < |t| && t[i + 1] == '='))
  }

  /** Indicator 11, `/\/\*[\s\S]*?\*\//`. */
  predicate BlockComment(t: string)
  {
    exists i, j :: 0 <= i && i + 2 <= j && j + 2 <= |t| && WordAt(t, i, "/*") && WordAt(t, j, "*/")
  }

  /** Indicator 12, `/\/\/.*$/` (no multi-line flag): `//` followed by the rest
      of the text with no line terminator. */
  predicate LineComment(t: string)
  {
    exists i :: 0 <= i && i + 2 <= |t| && WordAt(t, i, "//") && SingleLine(t[i + 2..])
  }

  /** The indicators, in the order the source tests them. */
  predicate Indicator(n: nat, t: string)
    requires n < 12
  {
    match n
    case 0 => IndentedLine(t)
    case 1 => HasKeyword(t)
    case 2 => BraceBlock(t)
    case 3 => SemicolonLines(t)
    case 4 => Assignment(t)
    case 5 => CallShape(t)
    case 6 => ModifierDeclaration(t)
    case 7 => TypeDeclaration(t)
    case 8 => RegexLiteral(t)
    case 9 => OperatorChar(t)
    case 10 => BlockComment(t)
    case _ => LineComment(t)
  }

  /** How many of the first `n` indicators match `t`. */
  function Votes(t: string, n: nat): (v: nat)
    requires n <= 12
    ensures v <= n
    ensures n > 0 ==> Votes(t, n - 1) <= v <= Votes(t, n - 1) + 1
  {
    if n == 0 then 0 else Votes(t, n - 1) + (if Indicator(n - 1, t) then 1 else 0)
  }

  /** A line that begins with whitespace (`/^\s+/`). */
  predicate Indented(line: string)
  {
    |line| > 0 && IsWs(line[0])
  }

  function CountIndented(lines: seq<string>): (n: nat)
    ensures n <= |lines|
  {
    if lines == [] then 0
    else CountIndented(lines[..|lines| - 1]) + (if Indented(lines[|lines| - 1]) then 1 else 0)
  }

  /** The indentation-consistency rule on the trimmed text: more than one line,
      and at least `max(1, lines / 2)` of them indented, in integers. */
  predicate IndentRule(t: string)
  {
    var lines := Split(t, "\n");
    |lines| > 1 && 2 * CountIndented(lines) >= |lines|
  }

  /** The character class `[{}()[\];=,."'`~!@#$%^&*|\\/?<>+\-_]`. */
  predicate IsSpecial(c: char)
  {
    c == '{' || c == '}' || c == '(' || c == ')' || c == '[' || c == ']' || c == ';' ||
    c == '=' || c == ',' || c == '.' || c == '"' || c == '\'' || c == '`' || c == '~' ||
    c == '!' || c == '@' || c == '#' || c == '$' || c == '%' || c == '^' || c == '&' ||
    c == '*' || c == '|' || c == '\\' || c == '/' || c == '?' || c == '<' || c == '>' ||
    c == '+' || c == '-' || c == '_'
  }

  function CountSpecial(s: string): (k: nat)
    ensures k <= |s|
  {
    if s == [] then 0 else (if IsSpecial(s[0]) then 1 else 0) + CountSpecial(s[1..])
  }

  lemma {:induction false} CountSpecialAppend(a: string, b: string)
    ensures CountSpecial(a + b) == CountSpecial(a) + CountSpecial(b)
  {
    if a == [] {
      assert a + b == b;
    } else {
      assert (a + b)[1..] == a[1..] + b;
      CountSpecialAppend(a[1..], b);
    }
  }

  /** The density rule on the untrimmed text: more than ten characters and a
      share of special characters above 0.2, in integers (for the empty text the
      source's ratio is NaN and the rule is false). */
  predicate DensityRule(text: string)
  {
    |text| > 10 && 5 * CountSpecial(text) > |text|
  }

  /** What `isCodeBlock(text)` returns. */
  predicate IsCode(text: string)
  {
    var t := Trim(text);
    Votes(t, 12) >= 2 || IndentRule(t) || DensityRule(text)
  }

  /** `isCodeBlock`: count indicator matches, stopping as soon as two match,
      then try the indentation rule and the density rule. */
  method IsCodeBlock(text: string) returns (isCode: bool)
    ensures isCode == IsCode(text)
  {
    var t := Trim(text);
    var indicatorCount := 0;
    for n := 0 to 12
      invariant indicatorCount == Votes(t, n)
      invariant indicatorCount < 2
    {
      if Indicator(n, t) {
        indicatorCount := indicatorCount + 1;
        if indicatorCount >= 2 {
          VotesMonotone(t, n + 1, 12);
          return true;
        }
      }
    }
    if IndentRule(t) {
      return true;
    }
    if DensityRule(text) {
      return true;
    }
    return false;
  }

  lemma {:induction false} VotesMonotone(t: string, m: nat, n: nat)
    requires m <= n <= 12
    ensures Votes(t, m) <= Votes(t, n)
    decreases n - m
  {
    if m < n {
      VotesMonotone(t, m, n - 1);
      VoteStep(t, n);
    }
  }

  lemma VoteStep(t: string, n: nat)
    requires 0 < n <= 12
    ensures Votes(t, n - 1) <= Votes(t, n)
  {
  }

  /** Any two distinct indicators that match the trimmed text make it code,
      whatever the others do. */
  lemma TwoIndicatorsCode(text: string, i: nat, j: nat)
    requires i < j < 12
    requires Indicator(i, Trim(text)) && Indicator(j, Trim(text))
    ensures IsCode(text)
  {
    var t := Trim(text);
    VoteFor(t, i);
    VotesMonotone(t, i + 1, j);
    VoteFor(t, j);
    VotesMonotone(t, j + 1, 12);
  }

  lemma VoteFor(t: string, n: nat)
    requires n < 12 && Indicator(n, t)
    ensures Votes(t, n + 1) == Votes(t, n) + 1
  {
  }

  /** A text without line terminators never triggers indicator 1: the only
      line start of its trimmed text is position 0, which holds a non-blank
      character. */
  lemma SingleLineNeverIndented(text: string)
    ensures SingleLine(text) ==> !IndentedLine(Trim(text))
  {
    TrimEnds(text);
    TrimChars(text);
  }

  /** A text without line feeds never triggers the indentation rule: its
      trimmed text is a single line. */
  lemma OneLineNoIndentRule(text: string)
    ensures '\n' !in text ==> !IndentRule(Trim(text))
  {
    var t := Trim(text);
    if '\n' !in text {
      TrimChars(text);
      assert '\n' !in t;
      assert Split(t, "\n") == [t] by {
        JoinSplit([t], '\n');
      }
    }
  }

  lemma NoIndicatorForEmpty(k: nat)
    requires k < 12
    ensures !Indicator(k, "")
  {
    match k
    case 0 =>
    case 1 =>
    case 2 =>
    case 3 =>
    case 4 =>
    case 5 =>
    case 6 =>
    case 7 =>
    case 8 =>
    case 9 =>
    case 10 =>
    case _ =>
  }

  lemma {:induction false} NoVotesForEmpty(n: nat)
    requires n <= 12
    ensures Votes("", n) == 0
  {
    if n > 0 {
      NoVotesForEmpty(n - 1);
      NoIndicatorForEmpty(n - 1);
    }
  }

  lemma {:induction false} CountSpecialBlank(s: string)
    requires Blank(s)
    ensures CountSpecial(s) == 0
  {
    if s != [] {
      CountSpecialBlank(s[1..]);
    }
  }

  /** An empty or whitespace-only text is never code. */
  lemma BlankNeverCode(text: string)
    requires Blank(text)
    ensures !IsCode(text)
  {
    TrimBlank(text);
    var t := Trim(text);
    assert t == "";
    NoVotesForEmpty(12);
    assert Split(t, "\n") == [""];
    CountSpecialBlank(text);
  }
}

=== FILE: classifier_examples.dfy ===
/** Worked examples of `isCodeBlock`, one fact per lemma. */
module ClassifierExamples {
  import opened Strings
  import opened Classifier

  const Decl := "function foo() { return 1; }"
  const Assign := "x = 5"
  /** Four spaces of indentation. */
  const Indent := "    "

  lemma DeclTrimmed()
    ensures Trim(Decl) == Decl
  {
    assert TrimStart(Decl) == Decl;
  }

  lemma DeclKeyword()
    ensures HasKeyword(Decl)
  {
    assert Decl[0..8] == "function";
    WordAtSlice(Decl, 0, "function");
    assert WordBoundary(Decl, 8);
    assert KeywordAt(Decl, 0, "function");
    assert AnyKeywordAt(Decl, 0);
  }

  lemma DeclCall()
    ensures CallShape(Decl)
  {
    assert IsWordChar(Decl[11]) && Decl[12] == '(' && Decl[13] == ')';
  }

  lemma DeclVotes()
    ensures Votes(Decl, 12) >= 2
  {
    DeclKeyword();
    DeclCall();
    assert Votes(Decl, 2) >= 1;
    assert Votes(Decl, 6) >= 2 by { VotesMonotone(Decl, 2, 5); }
    VotesMonotone(Decl, 6, 12);
  }

  /** A function declaration is code: indicators 2 and 6 already agree. */
  lemma FunctionDeclarationIsCode()
    ensures IsCode(Decl)
  {
    DeclTrimmed();
    DeclVotes();
  }

  lemma AssignTrimmed()
    ensures Trim(Indent + Assign) == Assign
  {
    TrimBlankPrefix(Indent, Assign);
    TrimNoOp(Assign);
  }

  lemma AssignNoKeyword()
    ensures !HasKeyword(Assign)
  {
  }

  lemma AssignNoModifier()
    ensures !ModifierDeclaration(Assign)
  {
  }

  lemma AssignNoType()
    ensures !TypeDeclaration(Assign)
  {
  }

  lemma AssignNoBraces()
    ensures !BraceBlock(Assign) && !SemicolonLines(Assign) && !CallShape(Assign)
  {
  }

  lemma AssignNoOperator()
    ensures !RegexLiteral(Assign) && !OperatorChar(Assign)
  {
  }

  lemma AssignNoComment()
    ensures !BlockComment(Assign) && !LineComment(Assign)
  {
  }

  lemma AssignNotIndented()
    ensures !IndentedLine(Assign)
  {
  }

  lemma AssignOneLine()
    ensures !IndentRule(Assign)
  {
    assert Split(Assign, "\n") == [Assign] by { JoinSplit([Assign], '\n'); }
  }

  lemma AssignFirstVotes()
    ensures Votes(Assign, 4) == 0
  {
    AssignNotIndented();
    AssignNoKeyword();
    AssignNoBraces();
    assert Votes(Assign, 2) == 0;
  }

  lemma AssignLastVotes()
    ensures Votes(Assign, 12) <= Votes(Assign, 4) + 1
  {
    AssignNoBraces();
    AssignNoModifier();
    AssignNoType();
    AssignNoOperator();
    AssignNoComment();
    assert Votes(Assign, 5) <= Votes(Assign, 4) + 1;
    assert Votes(Assign, 8) <= Votes(Assign, 4) + 1;
    assert Votes(Assign, 10) <= Votes(Assign, 4) + 1;
  }

  /** An indented assignment is text: only indicator 5 can match, and at
      nine characters the text is too short for the density rule. */
  lemma IndentedAssignmentIsNotCode()
    ensures !IsCode(Indent + Assign)
  {
    AssignTrimmed();
    AssignOneLine();
    AssignFirstVotes();
    AssignLastVotes();
  }

  // The three lines of a pasted snippet: an English sentence that mentions
  // `print`, a Python call, and a closing sentence.
  const Intro := "Here is how you print in Python:"
  const Call := "print(\"hello world\")"
  const Outro := "That's the whole program."

  lemma IntroKeyword()
    ensures HasKeyword(Intro)
  {
    assert Intro[16..21] == "print";
    WordAtSlice(Intro, 16, "print");
    assert IsWs(Intro[15]) && WordBoundary(Intro, 21);
    assert AnyKeywordAt(Intro, 16);
  }

  lemma IntroType()
    ensures TypeDeclaration(Intro)
  {
    assert Intro[18..21] == "int";
    WordAtSlice(Intro, 18, "int");
    assert Blank(Intro[21..22]) && IsWordChar(Intro[22]);
    assert DeclarationAt(Intro, 18, "int");
  }

  /** "print in" counts twice: as the keyword `print` and, through "int in",
      as a typed declaration. */
  lemma IntroIsCode()
    ensures IsCode(Intro)
  {
    TrimNoOp(Intro);
    IntroKeyword();
    IntroType();
    assert Votes(Intro, 2) >= 1;
    assert Votes(Intro, 8) >= 2 by { VotesMonotone(Intro, 2, 7); }
    VotesMonotone(Intro, 8, 12);
  }

  lemma CallKeyword()
    ensures HasKeyword(Call)
  {
    assert Call[0..5] == "print";
    WordAtSlice(Call, 0, "print");
    assert WordBoundary(Call, 5);
    assert AnyKeywordAt(Call, 0);
  }

  lemma CallCall()
    ensures CallShape(Call)
  {
    assert IsWordChar(Call[4]) && Call[5] == '(' && Call[19] == ')';
  }

  lemma CallTrimmed()
    ensures Trim(Call) == Call
  {
    TrimNoOp(Call);
  }

  lemma CallIndicators()
    ensures Indicator(1, Call) && Indicator(5, Call)
  {
    CallKeyword();
    CallCall();
  }

  lemma CallIsCode()
    ensures IsCode(Call)
  {
    CallTrimmed();
    CallIndicators();
    TwoIndicatorsCode(Call, 1, 5);
  }

  lemma OutroSingleLine()
    ensures SingleLine(Outro)
  {
  }

  lemma OutroNotIndented()
    ensures !IndentedLine(Outro)
  {
    OutroSingleLine();
  }

  /** The words of the sentence start at 0, 7, 11 and 17. */
  lemma OutroWordStarts()
    ensures forall q :: 0 <= q < |Outro| && IsWs(Outro[q]) ==> q + 1 in {7, 11, 17}
  {
  }

  lemma OutroNoKeywordAt0()
    ensures !AnyKeywordAt(Outro, 0)
  {
  }

  /** No keyword starts with "th", with "who" or with "pro". */
  lemma NoKeywordAtTh(t: string, p: nat)
    requires p + 1 < |t| && t[p] == 't' && t[p + 1] == 'h'
    ensures !AnyKeywordAt(t, p)
  {
  }

  lemma NoKeywordAtWho(t: string, p: nat)
    requires p + 2 < |t| && t[p] == 'w' && t[p + 1] == 'h' && t[p + 2] == 'o'
    ensures !AnyKeywordAt(t, p)
  {
  }

  lemma NoKeywordAtPro(t: string, p: nat)
    requires p + 2 < |t| && t[p] == 'p' && t[p + 1] == 'r' && t[p + 2] == 'o'
    ensures !AnyKeywordAt(t, p)
  {
  }

  lemma OutroNoKeywordAt7()
    ensures !AnyKeywordAt(Outro, 7)
  {
    assert Outro[7] == 't' && Outro[8] == 'h';
    NoKeywordAtTh(Outro, 7);
  }

  lemma OutroNoKeywordAt11()
    ensures !AnyKeywordAt(Outro, 11)
  {
    assert Outro[11] == 'w' && Outro[12] == 'h' && Outro[13] == 'o';
    NoKeywordAtWho(Outro, 11);
  }

  lemma OutroNoKeywordAt17()
    ensures !AnyKeywordAt(Outro, 17)
  {
    assert Outro[17] == 'p' && Outro[18] == 'r' && Outro[19] == 'o';
    NoKeywordAtPro(Outro, 17);
  }

  lemma OutroNoKeyword()
    ensures !HasKeyword(Outro)
  {
    OutroWordStarts();
    OutroNoKeywordAt0();
    OutroNoKeywordAt7();
    OutroNoKeywordAt11();
    OutroNoKeywordAt17();
  }

  /** Only positions 5, 14 and 17 hold a letter that starts a modifier or a
      type name. */
  lemma OutroDeclarationStarts()
    ensures forall p :: 0 <= p < |Outro| && DeclarationStart(Outro[p]) ==> p == 5 || p == 14 || p == 17
  {
  }

  /** The first letters of the modifiers and type names. */
  predicate DeclarationStart(c: char)
  {
    c == 'p' || c == 's' || c == 'f' || c == 'c' || c == 'v' || c == 'l' ||
    c == 'i' || c == 'd' || c == 'b'
  }

  lemma WordAtFirst(t: string, p: int, w: string)
    requires |w| > 0 && WordAt(t, p, w)
    ensures 0 <= p < |t| && t[p] == w[0]
  {
  }

  predicate ModifierAt(t: string, p: int)
  {
    DeclarationAt(t, p, "public") || DeclarationAt(t, p, "private") ||
    DeclarationAt(t, p, "protected") || DeclarationAt(t, p, "static") ||
    DeclarationAt(t, p, "final") || DeclarationAt(t, p, "const") ||
    DeclarationAt(t, p, "var") || DeclarationAt(t, p, "let")
  }

  /** Neither a modifier nor a type name starts with "s ", with "le " or
      with "prog". */
  lemma NoDeclarationAtS(t: string, p: nat)
    requires p + 1 < |t| && t[p] == 's' && t[p + 1] == ' '
    ensures !ModifierAt(t, p) && !TypeAt(t, p)
  {
  }

  lemma NoDeclarationAtLe(t: string, p: nat)
    requires p + 2 < |t| && t[p] == 'l' && t[p + 1] == 'e' && t[p + 2] == ' '
    ensures !ModifierAt(t, p) && !TypeAt(t, p)
  {
  }

  lemma NoDeclarationAtProg(t: string, p: nat)
    requires p + 3 < |t| && t[p] == 'p' && t[p + 1] == 'r' && t[p + 2] == 'o' && t[p + 3] == 'g'
    ensures !ModifierAt(t, p) && !TypeAt(t, p)
  {
  }

  lemma OutroNoDeclarationAt5()
    ensures !ModifierAt(Outro, 5) && !TypeAt(Outro, 5)
  {
    assert Outro[5] == 's' && Outro[6] == ' ';
    NoDeclarationAtS(Outro, 5);
  }

  lemma OutroNoDeclarationAt14()
    ensures !ModifierAt(Outro, 14) && !TypeAt(Outro, 14)
  {
    assert Outro[14] == 'l' && Outro[15] == 'e' && Outro[16] == ' ';
    NoDeclarationAtLe(Outro, 14);
  }

  lemma OutroNoDeclarationAt17()
    ensures !ModifierAt(Outro, 17) && !TypeAt(Outro, 17)
  {
    assert Outro[17] == 'p' && Outro[18] == 'r' && Outro[19] == 'o' && Outro[20] == 'g';
    NoDeclarationAtProg(Outro, 17);
  }

  /** Every modifier starts with one of the letters `p s f c v l`. */
  lemma ModifierFirst(t: string, p: int)
    ensures ModifierAt(t, p) ==> 0 <= p < |t| && DeclarationStart(t[p])
  {
  }

  /** A text with no modifier at any position has no modifier declaration. */
  lemma NoModifierAnywhere(t: string)
    requires forall p :: 0 <= p < |t| ==> !ModifierAt(t, p)
    ensures !ModifierDeclaration(t)
  {
    forall p | 0 <= p < |t|
      ensures !(DeclarationAt(t, p, "public") || DeclarationAt(t, p, "private") ||
        DeclarationAt(t, p, "protected") || DeclarationAt(t, p, "static") ||
        DeclarationAt(t, p, "final") || DeclarationAt(t, p, "const") ||
        DeclarationAt(t, p, "var") || DeclarationAt(t, p, "let"))
    {
      assert !ModifierAt(t, p);
    }
  }

  lemma OutroNoModifierAt(p: int)
    ensures !ModifierAt(Outro, p)
  {
    OutroDeclarationStarts();
    ModifierFirst(Outro, p);
    if p == 5 {
      OutroNoDeclarationAt5();
    } else if p == 14 {
      OutroNoDeclarationAt14();
    } else if p == 17 {
      OutroNoDeclarationAt17();
    }
  }

  lemma OutroNoModifier()
    ensures !ModifierDeclaration(Outro)
  {
    forall p | 0 <= p < |Outro|
      ensures !ModifierAt(Outro, p)
    {
      OutroNoModifierAt(p);
    }
    NoModifierAnywhere(Outro);
  }

  predicate TypeAt(t: string, p: int)
  {
    DeclarationAt(t, p, "int") || DeclarationAt(t, p, "float") ||
    DeclarationAt(t, p, "double") || DeclarationAt(t, p, "string") ||
    DeclarationAt(t, p, "bool") || DeclarationAt(t, p, "boolean") ||
    DeclarationAt(t, p, "char") || DeclarationAt(t, p, "long")
  }

  lemma OutroNoType()
    ensures !TypeDeclaration(Outro)
  {
    OutroDeclarationStarts();
    OutroNoDeclarationAt5();
    OutroNoDeclarationAt14();
    OutroNoDeclarationAt17();
  }

  lemma OutroNoBrace()
    ensures !BraceBlock(Outro)
  {
  }

  lemma OutroNoSemicolon()
    ensures !SemicolonLines(Outro)
  {
  }

  lemma OutroNoCall()
    ensures !CallShape(Outro)
  {
  }

  /** No operator character occurs in the sentence. */
  lemma OutroNoOperatorChars()
    ensures forall i :: 0 <= i < |Outro| ==> Outro[i] !in "=!<>&|+-*/%^"
  {
  }

  lemma OutroNoAssignment()
    ensures !Assignment(Outro)
  {
    OutroNoOperatorChars();
  }

  lemma OutroNoOperator()
    ensures !RegexLiteral(Outro) && !OperatorChar(Outro)
  {
    OutroNoOperatorChars();
  }

  lemma OutroNoSlash()
    ensures forall i :: 0 <= i < |Outro| ==> Outro[i] != '/'
  {
  }

  lemma OutroNoComment()
    ensures !BlockComment(Outro) && !LineComment(Outro)
  {
    OutroNoSlash();
  }

  lemma OutroOneLine()
    ensures !IndentRule(Outro)
  {
    assert Split(Outro, "\n") == [Outro] by { JoinSplit([Outro], '\n'); }
  }

  lemma OutroWordThat()
    ensures CountSpecial("That's") == 1
  {
  }

  lemma OutroWordThe()
    ensures CountSpecial(" the ") == 0
  {
  }

  lemma OutroWordWhole()
    ensures CountSpecial("whole ") == 0
  {
  }

  lemma OutroWordProg()
    ensures CountSpecial("prog") == 0
  {
  }

  lemma OutroTail()
    ensures CountSpecial("ram.") == 1
  {
  }

  /** Two of the 25 characters are special: the apostrophe and the full stop. */
  lemma OutroSparse()
    ensures !DensityRule(Outro)
  {
    var a, b, c, d, e := "That's", " the ", "whole ", "prog", "ram.";
    assert Outro == a + b + c + d + e;
    CountSpecialAppend(a, b);
    CountSpecialAppend(a + b, c);
    CountSpecialAppend(a + b + c, d);
    CountSpecialAppend(a + b + c + d, e);
    OutroWordThat();
    OutroWordThe();
    OutroWordWhole();
    OutroWordProg();
    OutroTail();
  }

  lemma OutroFirstVotes()
    ensures Votes(Outro, 6) == 0
  {
    OutroNotIndented();
    OutroNoKeyword();
    OutroNoBrace();
    OutroNoSemicolon();
    OutroNoCall();
    OutroNoAssignment();
    assert Votes(Outro, 2) == 0;
    assert Votes(Outro, 4) == 0;
  }

  lemma OutroLastVotes()
    ensures Votes(Outro, 12) == Votes(Outro, 6)
  {
    OutroNoModifier();
    OutroNoType();
    OutroNoOperator();
    OutroNoComment();
    assert Votes(Outro, 8) == Votes(Outro, 6);
    assert Votes(Outro, 10) == Votes(Outro, 6);
  }

  /** A plain sentence is text: no indicator matches and only two of its
      25 characters are special. */
  lemma OutroIsText()
    ensures !IsCode(Outro)
  {
    assert Outro[0] == 'T' && Outro[|Outro| - 1] == '.';
    TrimNoOp(Outro);
    OutroFirstVotes();
    OutroLastVotes();
    OutroOneLine();
    OutroSparse();
  }
}

=== FILE: content_editor.dfy ===
/** The block-list editor of src/components/ContentEditor.jsx: the state list
    `content` and the handlers that replace it (add, update, remove, move,
    paste). Each handler builds a new list and stores it; the `onChange`
    notification carries the same list and is not modelled. */
module ContentEditing {
  import opened Blocks
  import opened Segmenter
  import Classifier

  /** `content.filter((_, i) => i !== index)`: keep every block whose position
      differs from `index`. */
  function Without(s: seq<Block>, index: int): (r: seq<Block>)
    ensures |r| <= |s|
  {
    if s == [] then []
    else Without(s[..|s| - 1], index) + (if |s| - 1 == index then [] else [s[|s| - 1]])
  }

  /** Removing position `index` deletes exactly that block, and an index
      outside the list leaves an identical copy. */
  lemma {:induction false} WithoutIsDeletion(s: seq<Block>, index: int)
    ensures 0 <= index < |s| ==> Without(s, index) == s[..index] + s[index + 1..]
    ensures !(0 <= index < |s|) ==> Without(s, index) == s
  {
    if s != [] {
      var init := s[..|s| - 1];
      WithoutIsDeletion(init, index);
      if index == |s| - 1 {
        assert init == s[..index] + s[index + 1..];
      } else if 0 <= index < |s| - 1 {
        assert init[..index] == s[..index];
        assert init[index + 1..] + [s[|s| - 1]] == s[index + 1..];
      } else {
        assert init + [s[|s| - 1]] == s;
      }
    }
  }

  /** The list after `splice(from, 1)` and then `splice(to, 0, moved)`. */
  function Moved(s: seq<Block>, from: nat, to: nat): (r: seq<Block>)
    requires from < |s| && to < |s|
    ensures |r| == |s|
    ensures r[to] == s[from]
  {
    var rest := s[..from] + s[from + 1..];
    rest[..to] + [s[from]] + rest[to..]
  }

  /** Moving keeps every block, with its multiplicity. */
  lemma MovedPermutes(s: seq<Block>, from: nat, to: nat)
    requires from < |s| && to < |s|
    ensures multiset(Moved(s, from, to)) == multiset(s)
  {
    var rest := s[..from] + s[from + 1..];
    assert s == s[..from] + [s[from]] + s[from + 1..];
    assert multiset(s) == multiset(rest) + multiset{s[from]};
    assert rest == rest[..to] + rest[to..];
    assert multiset(Moved(s, from, to)) == multiset(rest[..to]) + multiset{s[from]} + multiset(rest[to..]);
  }

  /** Moving a block one place down swaps it with its neighbour; the other
      blocks stay where they are. */
  lemma MoveDownSwaps(s: seq<Block>, i: nat)
    requires i + 1 < |s|
    ensures Moved(s, i, i + 1) == s[i := s[i + 1]][i + 1 := s[i]]
  {
  }

  /** Moving a block one place up swaps it with its neighbour. */
  lemma MoveUpSwaps(s: seq<Block>, i: nat)
    requires 0 < i < |s|
    ensures Moved(s, i, i - 1) == s[i - 1 := s[i]][i := s[i - 1]]
  {
  }

  /** Moving back undoes a move. */
  lemma MoveBack(s: seq<Block>, from: nat, to: nat)
    requires from < |s| && to < |s|
    ensures Moved(Moved(s, from, to), to, from) == s
  {
    var m := Moved(s, from, to);
    var rest := s[..from] + s[from + 1..];
    assert m[..to] + m[to + 1..] == rest;
    assert s == rest[..from] + [s[from]] + rest[from..];
  }

  class ContentEditor {
    /** The block list shown by the editor. */
    var content: seq<Block>

    /** `useState(value)`. */
    constructor (value: seq<Block>)
      ensures content == value
    {
      content := value;
    }

    /** `addContentBlock(type)`: the list becomes `[...content, {type, content}]`
        where `content` is the parameter, which defaults to `''` and hides the
        state list; spreading the empty string gives no elements. */
    method AddContentBlock(kind: BlockType)
      modifies this
      ensures content == [Block(kind, "")]
    {
      var parameter: seq<Block> := [];
      content := parameter + [Block(kind, "")];
    }

    /** `addContentBlock` as evidently intended: the new empty block goes
        after the existing ones. */
    method AppendContentBlock(kind: BlockType)
      modifies this
      ensures content == old(content) + [Block(kind, "")]
      ensures |content| == |old(content)| + 1 && content[..|old(content)|] == old(content)
    {
      content := content + [Block(kind, "")];
    }

    /** `updateContentBlock(index, newContent)`: copy the list and assign one
        position. */
    method UpdateContentBlock(index: nat, newContent: Block)
      requires index < |content|
      modifies this
      ensures content == old(content)[index := newContent]
    {
      var updatedContent := content;
      updatedContent := updatedContent[index := newContent];
      content := updatedContent;
    }

    /** `removeContentBlock(index)`. */
    method RemoveContentBlock(index: int)
      modifies this
      ensures content == Without(old(content), index)
    {
      content := Without(content, index);
    }

    /** `moveBlock(fromIndex, toIndex)`: copy, cut one block out, insert it. */
    method MoveBlock(fromIndex: nat, toIndex: nat)
      requires fromIndex < |content| && toIndex < |content|
      modifies this
      ensures content == Moved(old(content), fromIndex, toIndex)
    {
      var updatedContent := content;
      var movedItem := updatedContent[fromIndex];
      updatedContent := updatedContent[..fromIndex] + updatedContent[fromIndex + 1..];
      updatedContent := updatedContent[..toIndex] + [movedItem] + updatedContent[toIndex..];
      content := updatedContent;
    }

    /** The paste handler. When the parent passed an `onPaste` handler
        (`parentHandlesPaste`), the paste goes to it and the list stays as it
        is; otherwise segment the pasted text, and replace the list only when
        at least one block came out. The component defines this handler but
        binds it to no element, so in the running app a paste never reaches it. */
    method HandlePaste(parentHandlesPaste: bool, pastedContent: string)
      modifies this
      ensures var blocks := Segment(Classifier.IsCode, pastedContent);
        content == if !parentHandlesPaste && |blocks| > 0 then blocks else old(content)
    {
      if parentHandlesPaste {
        return;
      }
      var processedContent := ProcessPastedContent(pastedContent);
      if |processedContent| > 0 {
        content := processedContent;
      }
    }
  }

  /** Updating a block changes that position only and keeps the length; with
      the content handler the type stays, with the toggle the content stays. */
  lemma UpdateFrame(s: seq<Block>, index: nat, value: string)
    requires index < |s|
    ensures var r := s[index := WithContent(s[index], value)];
      |r| == |s| && r[index].kind == s[index].kind && r[index].content == value &&
      forall j :: 0 <= j < |s| && j != index ==> r[j] == s[j]
    ensures var r := s[index := Toggled(s[index])];
      |r| == |s| && r[index].content == s[index].content && r[index].kind != s[index].kind &&
      forall j :: 0 <= j < |s| && j != index ==> r[j] == s[j]
  {
  }

  /** Adding to a list that already has blocks loses them: the list stored
      by `AddContentBlock` differs from the appended one exactly when the
      list was not empty, so the two agree only on an empty editor. */
  lemma AddDiscardsBlocks(content: seq<Block>, kind: BlockType)
    ensures [Block(kind, "")] == content + [Block(kind, "")] <==> content == []
  {
    if content != [] {
      assert |content + [Block(kind, "")]| > 1;
    }
  }
}

=== FILE: dashboard.dfy ===
/** The list logic of src/components/Dashboard.jsx: which notes are shown
    for the selected category and search query, what a delete does to the
    two note lists, the popular-tag ranking, the sidebar counts and the
    featured posts. */
module Dashboard {
  import opened Wrappers
  import opened Strings

  /** The fields of a note the dashboard looks at. `category` and `tags` are
      `''` for every falsy value; `updatedAt` is missing or a timestamp. */
  datatype Note = Note(
    id: string,
    title: string,
    content: string,
    tags: string,
    category: string,
    status: string,
    createdAt: int,
    updatedAt: Option<int>)

  /** `array.filter(keep)`. */
  function Filter<T>(s: seq<T>, keep: T -> bool): (r: seq<T>)
    ensures |r| <= |s|
  {
    if s == [] then [] else Filter(s[..|s| - 1], keep) + (if keep(s[|s| - 1]) then [s[|s| - 1]] else [])
  }

  lemma {:induction false} FilterMembers<T>(s: seq<T>, keep: T -> bool)
    ensures forall x :: x in Filter(s, keep) <==> x in s && keep(x)
  {
    if s != [] {
      FilterMembers(s[..|s| - 1], keep);
      assert s == s[..|s| - 1] + [s[|s| - 1]];
    }
  }

  /** Filtering twice is filtering once by both tests: the second filter
      keeps the order the first one kept. */
  lemma {:induction false} FilterFilter<T>(s: seq<T>, p: T -> bool, q: T -> bool, both: T -> bool)
    requires forall x :: x in s ==> both(x) == (p(x) && q(x))
    ensures Filter(Filter(s, p), q) == Filter(s, both)
  {
    if s != [] {
      var init := s[..|s| - 1];
      var x := s[|s| - 1];
      FilterFilter(init, p, q, both);
      var f := Filter(init, p);
      if p(x) {
        var g := f + [x];
        assert Filter(s, p) == g;
        assert g[..|g| - 1] == f && g[|g| - 1] == x;
        assert Filter(g, q) == Filter(f, q) + (if q(x) then [x] else []);
      } else {
        assert Filter(s, p) == f + [] == f;
      }
    }
  }

  /** Filtering a list filters its two parts on either side of `k`. */
  lemma {:induction false} FilterSplit<T>(s: seq<T>, k: nat, keep: T -> bool)
    requires k <= |s|
    ensures Filter(s, keep) == Filter(s[..k], keep) + Filter(s[k..], keep)
  {
    if k == |s| {
      assert s[..k] == s;
      assert s[k..] == [];
    } else {
      var init, last := s[..|s| - 1], s[|s| - 1];
      FilterSplit(init, k, keep);
      assert init[..k] == s[..k];
      var back := s[k..];
      assert back[..|back| - 1] == init[k..];
      assert back[|back| - 1] == last;
    }
  }

  /** Filtering a concatenation filters each part. */
  lemma {:induction false} FilterAppend<T>(a: seq<T>, b: seq<T>, keep: T -> bool)
    ensures Filter(a + b, keep) == Filter(a, keep) + Filter(b, keep)
    decreases |b|
  {
    if b == [] {
      assert a + b == a;
    } else {
      var init, last := b[..|b| - 1], b[|b| - 1];
      FilterAppend(a, init, keep);
      assert (a + b)[..|a + b| - 1] == a + init;
      assert (a + b)[|a + b| - 1] == last;
    }
  }

  /** A filter that rejects every element gives the empty list. */
  lemma {:induction false} FilterNone<T>(s: seq<T>, keep: T -> bool)
    requires forall i :: 0 <= i < |s| ==> !keep(s[i])
    ensures Filter(s, keep) == []
  {
    if s != [] {
      FilterNone(s[..|s| - 1], keep);
    }
  }

  /** Filtering a prefix gives a prefix of the filtered list. */
  lemma FilterPrefix<T>(s: seq<T>, k: nat, keep: T -> bool)
    requires k <= |s|
    ensures Filter(s[..k], keep) <= Filter(s, keep)
  {
    FilterSplit(s, k, keep);
  }

  /** Filters by tests that agree on every element give the same list. */
  lemma {:induction false} FilterSame<T>(s: seq<T>, p: T -> bool, q: T -> bool)
    requires forall x :: x in s ==> p(x) == q(x)
    ensures Filter(s, p) == Filter(s, q)
  {
    if s != [] {
      FilterSame(s[..|s| - 1], p, q);
    }
  }

  // ---- The category and search filters (lines 49-76) ----

  /** The category filter: `'all'` keeps every note, `'uncategorized'` the
      notes without a category, anything else the notes of that category. */
  predicate InCategory(n: Note, selectedCategory: string)
  {
    selectedCategory == "all" ||
    (selectedCategory == "uncategorized" && n.category == "") ||
    (selectedCategory != "uncategorized" && n.category == selectedCategory)
  }

  /** The search test for a non-empty query: title, content, the whole tags
      string, or one of the comma-separated tags, compared lower-cased. */
  predicate MatchesQuery(n: Note, searchQuery: string)
  {
    var query := Lower(searchQuery);
    Includes(Lower(n.title), query) ||
    Includes(Lower(n.content), query) ||
    (n.tags != "" && Includes(Lower(n.tags), query)) ||
    (n.tags != "" && TagIncludes(n.tags, query))
  }

  /** `tags.split(',').map(tag => tag.trim()).some(tag => tag.toLowerCase().includes(query))`. */
  predicate TagIncludes(tags: string, query: string)
  {
    exists k :: 0 <= k < |Split(tags, ",")| && Includes(Lower(Trim(Split(tags, ",")[k])), query)
  }

  predicate Shown(n: Note, selectedCategory: string, searchQuery: string)
  {
    InCategory(n, selectedCategory) && (searchQuery == "" || MatchesQuery(n, searchQuery))
  }

  /** The effect's `filteredNotes`: the category filter, then the search. */
  function Displayed(allNotes: seq<Note>, selectedCategory: string, searchQuery: string): seq<Note>
  {
    var byCategory := if selectedCategory != "all" then Filter(allNotes, (n: Note) => InCategory(n, selectedCategory)) else allNotes;
    if searchQuery != "" then Filter(byCategory, (n: Note) => MatchesQuery(n, searchQuery)) else byCategory
  }

  /** The two filters in a row are one filter of `allNotes`: the notes shown
      are exactly those passing both tests, in their original order. */
  lemma DisplayedIsOneFilter(allNotes: seq<Note>, selectedCategory: string, searchQuery: string)
    ensures Displayed(allNotes, selectedCategory, searchQuery) ==
      Filter(allNotes, (n: Note) => Shown(n, selectedCategory, searchQuery))
    ensures forall n :: n in Displayed(allNotes, selectedCategory, searchQuery) <==>
      n in allNotes && Shown(n, selectedCategory, searchQuery)
  {
    if selectedCategory != "all" {
      if searchQuery != "" {
        BothFilters(allNotes, selectedCategory, searchQuery);
      } else {
        CategoryOnly(allNotes, selectedCategory);
      }
    } else if searchQuery != "" {
      SearchOnly(allNotes, searchQuery);
    } else {
      FilterAll(allNotes, (n: Note) => Shown(n, selectedCategory, searchQuery));
    }
    FilterMembers(allNotes, (n: Note) => Shown(n, selectedCategory, searchQuery));
  }

  lemma BothFilters(allNotes: seq<Note>, selectedCategory: string, searchQuery: string)
    requires selectedCategory != "all" && searchQuery != ""
    ensures Displayed(allNotes, selectedCategory, searchQuery) ==
      Filter(allNotes, (n: Note) => Shown(n, selectedCategory, searchQuery))
  {
    FilterFilter(allNotes, (n: Note) => InCategory(n, selectedCategory), (n: Note) => MatchesQuery(n, searchQuery),
      (n: Note) => Shown(n, selectedCategory, searchQuery));
  }

  lemma CategoryOnly(allNotes: seq<Note>, selectedCategory: string)
    requires selectedCategory != "all"
    ensures Displayed(allNotes, selectedCategory, "") ==
      Filter(allNotes, (n: Note) => Shown(n, selectedCategory, ""))
  {
    FilterSame(allNotes, (n: Note) => InCategory(n, selectedCategory), (n: Note) => Shown(n, selectedCategory, ""));
  }

  lemma SearchOnly(allNotes: seq<Note>, searchQuery: string)
    requires searchQuery != ""
    ensures Displayed(allNotes, "all", searchQuery) ==
      Filter(allNotes, (n: Note) => Shown(n, "all", searchQuery))
  {
    FilterSame(allNotes, (n: Note) => MatchesQuery(n, searchQuery), (n: Note) => Shown(n, "all", searchQuery));
  }

  lemma {:induction false} FilterAll<T>(s: seq<T>, keep: T -> bool)
    requires forall x :: x in s ==> keep(x)
    ensures Filter(s, keep) == s
  {
    if s != [] {
      var init, last := s[..|s| - 1], s[|s| - 1];
      assert forall x :: x in init ==> x in s;
      FilterAll(init, keep);
      assert last in s;
      assert init + [last] == s;
    }
  }

  /** The test against a single tag adds nothing: a trimmed piece of the tags
      string is a slice of it, so whatever the piece contains the whole
      string contains too. */
  lemma TagPiecesRedundant(n: Note, searchQuery: string)
    ensures var query := Lower(searchQuery);
      MatchesQuery(n, searchQuery) <==>
        Includes(Lower(n.title), query) || Includes(Lower(n.content), query) ||
        (n.tags != "" && Includes(Lower(n.tags), query))
  {
    var query := Lower(searchQuery);
    if TagIncludes(n.tags, query) {
      TagIncludesTags(n.tags, query);
    }
  }

  lemma TagIncludesTags(tags: string, query: string)
    requires TagIncludes(tags, query)
    ensures Includes(Lower(tags), query)
  {
    var k :| 0 <= k < |Split(tags, ",")| && Includes(Lower(Trim(Split(tags, ",")[k])), query);
    TrimmedPieceSlice(tags, k);
    var c :| SliceAt(tags, c, Trim(Split(tags, ",")[k]));
    SliceIncludes(tags, c, Trim(Split(tags, ",")[k]), query);
  }

  /** A trimmed piece of `split` is a slice of the input. */
  lemma TrimmedPieceSlice(tags: string, k: int)
    requires 0 <= k < |Split(tags, ",")|
    ensures exists c :: SliceAt(tags, c, Trim(Split(tags, ",")[k]))
  {
    var piece := Split(tags, ",")[k];
    SplitPiece(tags, ",", k);
    var a :| SliceAt(tags, a, piece);
    TrimmedSlice(tags, a, piece);
  }

  /** What a slice contains, lower-cased, the whole string contains. */
  lemma SliceIncludes(s: string, c: int, t: string, query: string)
    requires SliceAt(s, c, t) && Includes(Lower(t), query)
    ensures Includes(Lower(s), query)
  {
    LowerSlice(s, c, c + |t|);
    IncludesSlice(Lower(s), c, c + |t|, query);
  }

  // ---- Deleting a note (lines 82-83) ----

  function Remove(notes: seq<Note>, noteId: string): seq<Note>
  {
    Filter(notes, (n: Note) => n.id != noteId)
  }

  /** After a delete no note with that id is left and the others keep their
      order; taking it out of the shown list gives what the filter effect
      computes again from the shortened `allNotes`. */
  lemma DeleteAgreesWithFilter(allNotes: seq<Note>, selectedCategory: string, searchQuery: string, noteId: string)
    ensures forall n :: n in Remove(allNotes, noteId) <==> n in allNotes && n.id != noteId
    ensures Remove(Displayed(allNotes, selectedCategory, searchQuery), noteId) ==
      Displayed(Remove(allNotes, noteId), selectedCategory, searchQuery)
  {
    var shown := (n: Note) => Shown(n, selectedCategory, searchQuery);
    var keep := (n: Note) => n.id != noteId;
    FilterMembers(allNotes, keep);
    DisplayedIsOneFilter(allNotes, selectedCategory, searchQuery);
    DisplayedIsOneFilter(Remove(allNotes, noteId), selectedCategory, searchQuery);
    var both := (n: Note) => Shown(n, selectedCategory, searchQuery) && n.id != noteId;
    FilterFilter(allNotes, shown, keep, both);
    FilterFilter(allNotes, keep, shown, both);
  }

  // ---- Ranking: a stable sort by a key, highest first ----

  predicate SortedDesc<T>(s: seq<T>, key: T -> int)
  {
    forall i, j :: 0 <= i < j < |s| ==> key(s[i]) >= key(s[j])
  }

  ghost predicate Distinct<T>(s: seq<T>)
  {
    forall i, j :: 0 <= i < j < |s| ==> s[i] != s[j]
  }

  /** The test "the key of this element is `v`". */
  function KeyIs<T>(key: T -> int, v: int): T -> bool
  {
    (x: T) => key(x) == v
  }

  /** `array.sort((a, b) => key(b) - key(a))` by insertion: each element goes
      after every element whose key is at least its own. The sort of
      JavaScript is stable, and so is this one: for every key value, the
      elements with that key come out in the order they went in. */
  method SortByKeyDesc<T(==)>(s: seq<T>, key: T -> int) returns (r: seq<T>)
    ensures SortedDesc(r, key)
    ensures multiset(r) == multiset(s)
    ensures forall v :: Filter(r, KeyIs(key, v)) == Filter(s, KeyIs(key, v))
  {
    r := [];
    for i := 0 to |s|
      invariant SortedDesc(r, key)
      invariant multiset(r) == multiset(s[..i])
      invariant forall v :: Filter(r, KeyIs(key, v)) == Filter(s[..i], KeyIs(key, v))
    {
      var k := InsertionPoint(r, s[i], key);
      InsertSorted(r, k, s[i], key);
      InsertStable(r, k, s[i], key);
      SnocStable(s, i, key);
      assert s[..i + 1] == s[..i] + [s[i]];
      r := r[..k] + [s[i]] + r[k..];
    }
    assert s[..|s|] == s;
  }

  /** Inserting `x` after every element of key at least its own puts it
      last among the elements of its key. */
  lemma InsertStable<T>(r: seq<T>, k: int, x: T, key: T -> int)
    requires SortedDesc(r, key) && 0 <= k <= |r|
    requires k < |r| ==> key(r[k]) < key(x)
    ensures forall v ::
      Filter(r[..k] + [x] + r[k..], KeyIs(key, v)) == Filter(r, KeyIs(key, v)) + (if key(x) == v then [x] else [])
  {
    forall v ensures Filter(r[..k] + [x] + r[k..], KeyIs(key, v)) ==
      Filter(r, KeyIs(key, v)) + (if key(x) == v then [x] else [])
    {
      InsertStableAt(r, k, x, key, v);
    }
  }

  lemma InsertStableAt<T>(r: seq<T>, k: int, x: T, key: T -> int, v: int)
    requires SortedDesc(r, key) && 0 <= k <= |r|
    requires k < |r| ==> key(r[k]) < key(x)
    ensures Filter(r[..k] + [x] + r[k..], KeyIs(key, v)) == Filter(r, KeyIs(key, v)) + (if key(x) == v then [x] else [])
  {
    var keep := KeyIs(key, v);
    FilterInsert(r, k, x, keep);
    FilterSplit(r, k, keep);
    var a, xs, b := Filter(r[..k], keep), (if keep(x) then [x] else []), Filter(r[k..], keep);
    assert keep(x) == (key(x) == v);
    if key(x) == v {
      var back := r[k..];
      forall i | 0 <= i < |back| ensures !keep(back[i]) {
        assert key(r[k + i]) <= key(r[k]);
      }
      FilterNone(back, keep);
    }
    Regroup(a, xs, b);
  }

  /** Filtering a list with `x` inserted at `k`. */
  lemma FilterInsert<T>(r: seq<T>, k: int, x: T, keep: T -> bool)
    requires 0 <= k <= |r|
    ensures Filter(r[..k] + [x] + r[k..], keep) ==
      Filter(r[..k], keep) + (if keep(x) then [x] else []) + Filter(r[k..], keep)
  {
    FilterAppend(r[..k] + [x], r[k..], keep);
    FilterAppend(r[..k], [x], keep);
    assert [x][..0] == [];
  }

  lemma Regroup<T>(a: seq<T>, xs: seq<T>, b: seq<T>)
    requires xs == [] || b == []
    ensures a + xs + b == a + b + xs
  {
  }

  /** Taking one more element of `s` adds it at the end of its key's list. */
  lemma SnocStable<T>(s: seq<T>, i: int, key: T -> int)
    requires 0 <= i < |s|
    ensures forall v ::
      Filter(s[..i + 1], KeyIs(key, v)) == Filter(s[..i], KeyIs(key, v)) + (if key(s[i]) == v then [s[i]] else [])
  {
    assert s[..i + 1][..i] == s[..i];
  }

  /** The first position whose key is below that of `x`. */
  method InsertionPoint<T>(r: seq<T>, x: T, key: T -> int) returns (k: int)
    requires SortedDesc(r, key)
    ensures 0 <= k <= |r|
    ensures forall j :: 0 <= j < k ==> key(r[j]) >= key(x)
    ensures k < |r| ==> key(r[k]) < key(x)
  {
    k := 0;
    while k < |r| && key(r[k]) >= key(x)
      invariant 0 <= k <= |r|
      invariant forall j :: 0 <= j < k ==> key(r[j]) >= key(x)
    {
      k := k + 1;
    }
  }

  lemma InsertSorted<T>(r: seq<T>, k: int, x: T, key: T -> int)
    requires SortedDesc(r, key) && 0 <= k <= |r|
    requires forall j :: 0 <= j < k ==> key(r[j]) >= key(x)
    requires k < |r| ==> key(r[k]) < key(x)
    ensures SortedDesc(r[..k] + [x] + r[k..], key)
    ensures multiset(r[..k] + [x] + r[k..]) == multiset(r) + multiset{x}
  {
    InsertKeepsOrder(r, k, x, key);
    InsertAdds(r, k, x);
  }

  lemma InsertKeepsOrder<T>(r: seq<T>, k: int, x: T, key: T -> int)
    requires SortedDesc(r, key) && 0 <= k <= |r|
    requires forall j :: 0 <= j < k ==> key(r[j]) >= key(x)
    requires k < |r| ==> key(r[k]) < key(x)
    ensures SortedDesc(r[..k] + [x] + r[k..], key)
  {
    var t := r[..k] + [x] + r[k..];
    forall i, j | 0 <= i < j < |t| ensures key(t[i]) >= key(t[j]) {
      if j == k {
        assert t[i] == r[i];
      } else if i == k {
        assert t[j] == r[j - 1];
      } else {
        var i' := if i < k then i else i - 1;
        var j' := if j < k then j else j - 1;
        assert t[i] == r[i'] && t[j] == r[j'];
      }
    }
  }

  lemma InsertAdds<T>(r: seq<T>, k: int, x: T)
    requires 0 <= k <= |r|
    ensures multiset(r[..k] + [x] + r[k..]) == multiset(r) + multiset{x}
  {
    assert r == r[..k] + r[k..];
  }

  /** Cutting a list sorted by key down to its first `n` elements leaves out
      no element that outranks one kept. */
  lemma TopOfSorted<T>(sorted: seq<T>, n: nat, key: T -> int)
    requires SortedDesc(sorted, key)
    ensures var top := if |sorted| > n then sorted[..n] else sorted;
      forall x :: x in sorted && x !in top ==> |top| == n && forall j :: 0 <= j < |top| ==> key(x) <= key(top[j])
  {
    var top := if |sorted| > n then sorted[..n] else sorted;
    forall x | x in sorted && x !in top ensures |top| == n && forall j :: 0 <= j < |top| ==> key(x) <= key(top[j]) {
      var i :| 0 <= i < |sorted| && sorted[i] == x;
      assert i >= n;
    }
  }

  lemma {:induction false} DistinctCount<T>(s: seq<T>)
    requires Distinct(s)
    ensures forall x :: multiset(s)[x] <= 1
  {
    if s != [] {
      var init := s[..|s| - 1];
      DistinctCount(init);
      assert s == init + [s[|s| - 1]];
      assert s[|s| - 1] !in init;
    }
  }

  /** A permutation of a list without repeats has no repeats. */
  lemma PermutedDistinct<T>(s: seq<T>, r: seq<T>)
    requires Distinct(s) && multiset(r) == multiset(s)
    ensures Distinct(r)
  {
    DistinctCount(s);
    forall i, j | 0 <= i < j < |r| ensures r[i] != r[j] {
      var x := r[j];
      assert r == r[..j] + [x] + r[j + 1..];
      assert multiset(r)[x] == multiset(r[..j])[x] + 1 + multiset(r[j + 1..])[x];
      assert multiset(r[..j])[x] == 0;
      assert r[..j][i] == r[i];
    }
  }

  // ---- Popular tags (lines 346-380) ----

  /** The trimmed, non-empty pieces, in order. */
  function Trimmed(pieces: seq<string>): (r: seq<string>)
    ensures forall i :: 0 <= i < |r| ==> r[i] != "" && Trim(r[i]) == r[i]
  {
    if pieces == [] then []
    else
      var last := Trim(pieces[|pieces| - 1]);
      TrimIdempotent(pieces[|pieces| - 1]);
      var a := Trimmed(pieces[..|pieces| - 1]);
      var b := if last != "" then [last] else [];
      TrimmedConcat(a, b);
      a + b
  }

  /** Two lists of non-empty trimmed tags concatenate to another. */
  lemma TrimmedConcat(a: seq<string>, b: seq<string>)
    requires forall i :: 0 <= i < |a| ==> a[i] != "" && Trim(a[i]) == a[i]
    requires forall i :: 0 <= i < |b| ==> b[i] != "" && Trim(b[i]) == b[i]
    ensures forall i :: 0 <= i < |a + b| ==> (a + b)[i] != "" && Trim((a + b)[i]) == (a + b)[i]
  {
    forall i | 0 <= i < |a + b|
      ensures (a + b)[i] != "" && Trim((a + b)[i]) == (a + b)[i]
    {
      if i < |a| {
        assert (a + b)[i] == a[i];
      } else {
        assert (a + b)[i] == b[i - |a|];
      }
    }
  }

  /** `note.tags.split(',').map(tag => tag.trim()).filter(tag => tag)`. */
  function TagList(tags: string): seq<string>
  {
    Trimmed(Split(tags, ","))
  }

  /** `allTags`: the tags of every note with tags, in note order. */
  function AllTags(notes: seq<Note>): (r: seq<string>)
    ensures forall i :: 0 <= i < |r| ==> r[i] != "" && Trim(r[i]) == r[i]
  {
    if notes == [] then []
    else
      var last := notes[|notes| - 1];
      var a := AllTags(notes[..|notes| - 1]);
      var b := if last.tags != "" then TagList(last.tags) else [];
      TrimmedConcat(a, b);
      a + b
  }

  /** Every tag of the list is the trimmed form of one comma-separated piece. */
  lemma {:induction false} TrimmedFrom(pieces: seq<string>, t: string)
    requires t in Trimmed(pieces)
    ensures exists k :: 0 <= k < |pieces| && Trim(pieces[k]) == t
  {
    var init := pieces[..|pieces| - 1];
    if t in Trimmed(init) {
      TrimmedFrom(init, t);
      var k :| 0 <= k < |init| && Trim(init[k]) == t;
      assert pieces[k] == init[k];
    } else {
      assert Trim(pieces[|pieces| - 1]) == t;
    }
  }

  /** Every non-empty trimmed piece is in the tag list. */
  lemma {:induction false} TrimmedHas(pieces: seq<string>, k: int)
    requires 0 <= k < |pieces| && Trim(pieces[k]) != ""
    ensures Trim(pieces[k]) in Trimmed(pieces)
  {
    var init := pieces[..|pieces| - 1];
    if k < |pieces| - 1 {
      assert init[k] == pieces[k];
      TrimmedHas(init, k);
    }
  }

  /** Clicking a popular tag sets the search to it and the category to
      `'all'`: every note carrying that tag is then shown. */
  lemma TagClickShowsTagged(allNotes: seq<Note>, n: Note, tag: string)
    requires n in allNotes && n.tags != "" && tag in TagList(n.tags)
    ensures n in Displayed(allNotes, "all", tag)
  {
    TagMatches(n, tag);
    assert tag != "";
    assert Shown(n, "all", tag);
    DisplayedIsOneFilter(allNotes, "all", tag);
  }

  lemma TagMatches(n: Note, tag: string)
    requires n.tags != "" && tag in TagList(n.tags)
    ensures TagIncludes(n.tags, Lower(tag))
  {
    var pieces := Split(n.tags, ",");
    TrimmedFrom(pieces, tag);
    var k :| 0 <= k < |pieces| && Trim(pieces[k]) == tag;
    IncludesSelf(Lower(tag));
    assert Includes(Lower(Trim(pieces[k])), Lower(tag));
  }

  /** How many times `tag` occurs among the notes' tags. */
  function Uses(notes: seq<Note>, tag: string): nat
  {
    multiset(AllTags(notes))[tag]
  }

  /** The first loop of the ranking: gather every note's tags. */
  method CollectTags(allNotes: seq<Note>) returns (allTags: seq<string>)
    ensures allTags == AllTags(allNotes)
  {
    allTags := [];
    for i := 0 to |allNotes|
      invariant allTags == AllTags(allNotes[..i])
    {
      assert allNotes[..i + 1][..i] == allNotes[..i];
      if allNotes[i].tags != "" {
        var tags := TagList(allNotes[i].tags);
        allTags := allTags + tags;
      }
    }
    assert allNotes[..|allNotes|] == allNotes;
  }

  /** The distinct elements of `s`, in the order they first occur. */
  function FirstOccurrences<T(==)>(s: seq<T>): seq<T>
  {
    if s == [] then []
    else FirstOccurrences(s[..|s| - 1]) + (if s[|s| - 1] in s[..|s| - 1] then [] else [s[|s| - 1]])
  }

  /** Appending one element adds it to the first occurrences unless it was
      already there. */
  lemma FirstOccurrencesSnoc<T>(s: seq<T>, x: T)
    ensures FirstOccurrences(s + [x]) == FirstOccurrences(s) + (if x in s then [] else [x])
  {
    assert (s + [x])[..|s|] == s;
  }

  /** The first occurrences are distinct and hold every element of `s`. */
  lemma {:induction false} FirstOccurrencesDistinct<T>(s: seq<T>)
    ensures forall t :: t in FirstOccurrences(s) <==> t in s
    ensures Distinct(FirstOccurrences(s))
  {
    if s != [] {
      var init, last := s[..|s| - 1], s[|s| - 1];
      FirstOccurrencesDistinct(init);
      assert s == init + [last];
    }
  }

  /** How often each tag is used, as a key function for the ranking. */
  function UsesOf(notes: seq<Note>): string -> int
  {
    (t: string) => Uses(notes, t)
  }

  /** The `reduce` into `tagCount`, and `Object.entries` of it: the keys in
      order of first insertion. Tags are ordinary map keys here; the
      source's plain object treats integer-like tags and `Object.prototype`
      member names differently. */
  method CountTags(allTags: seq<string>) returns (tagCount: map<string, int>, entries: seq<string>)
    ensures forall t :: t in entries <==> t in allTags
    ensures forall t :: t in entries ==> t in tagCount && tagCount[t] == multiset(allTags)[t]
    ensures Distinct(entries)
    ensures entries == FirstOccurrences(allTags)
  {
    tagCount := map[];
    entries := [];
    for i := 0 to |allTags|
      invariant forall t :: t in tagCount <==> t in allTags[..i]
      invariant forall t :: t in tagCount ==> tagCount[t] == multiset(allTags[..i])[t]
      invariant entries == FirstOccurrences(allTags[..i])
    {
      var tag := allTags[i];
      assert allTags[..i + 1] == allTags[..i] + [tag];
      FirstOccurrencesSnoc(allTags[..i], tag);
      var previous := if tag in tagCount then tagCount[tag] else 0;
      if tag !in tagCount {
        entries := entries + [tag];
      }
      tagCount := tagCount[tag := previous + 1];
    }
    assert allTags[..|allTags|] == allTags;
    FirstOccurrencesDistinct(allTags);
  }

  /** The "Popular Tags" list: at most eight distinct tags, most used first,
      and no tag left out is used more often than one shown. Among equally
      used tags, those shown are the first to appear, in that order. */
  method PopularTags(allNotes: seq<Note>) returns (popular: seq<string>)
    ensures |popular| <= 8 && Distinct(popular)
    ensures forall t :: t in popular ==> t in AllTags(allNotes)
    ensures forall i, j :: 0 <= i < j < |popular| ==> Uses(allNotes, popular[i]) >= Uses(allNotes, popular[j])
    ensures forall t :: t in AllTags(allNotes) && t !in popular ==>
      |popular| == 8 && forall j :: 0 <= j < 8 ==> Uses(allNotes, t) <= Uses(allNotes, popular[j])
    ensures forall v ::
      Filter(popular, KeyIs(UsesOf(allNotes), v)) <= Filter(FirstOccurrences(AllTags(allNotes)), KeyIs(UsesOf(allNotes), v))
  {
    var allTags := CollectTags(allNotes);
    var tagCount, entries := CountTags(allTags);
    var count := (t: string) => if t in tagCount then tagCount[t] else 0;
    var sorted := SortByKeyDesc(entries, count);
    popular := if |sorted| > 8 then sorted[..8] else sorted;
    RankedTags(allNotes, entries, sorted, popular, count);
    RankedTies(allNotes, entries, sorted, popular, count);
  }

  /** Equally used tags keep their order of first appearance through the
      stable sort, so the ones shown are the first to appear. */
  lemma RankedTies(allNotes: seq<Note>, entries: seq<string>, sorted: seq<string>, popular: seq<string>, count: string -> int)
    requires forall t :: t in entries ==> count(t) == Uses(allNotes, t)
    requires multiset(sorted) == multiset(entries)
    requires forall v :: Filter(sorted, KeyIs(count, v)) == Filter(entries, KeyIs(count, v))
    requires popular == if |sorted| > 8 then sorted[..8] else sorted
    ensures forall v :: Filter(popular, KeyIs(UsesOf(allNotes), v)) <= Filter(entries, KeyIs(UsesOf(allNotes), v))
  {
    SameMembers(entries, sorted);
    forall v ensures Filter(popular, KeyIs(UsesOf(allNotes), v)) <= Filter(entries, KeyIs(UsesOf(allNotes), v)) {
      var uses, counted := KeyIs(UsesOf(allNotes), v), KeyIs(count, v);
      FilterSame(sorted, counted, uses);
      FilterSame(entries, counted, uses);
      FilterPrefix(sorted, |popular|, uses);
      assert sorted[..|popular|] == popular;
    }
  }

  lemma RankedTags(allNotes: seq<Note>, entries: seq<string>, sorted: seq<string>, popular: seq<string>, count: string -> int)
    requires forall t :: t in entries <==> t in AllTags(allNotes)
    requires forall t :: t in entries ==> count(t) == Uses(allNotes, t)
    requires Distinct(entries)
    requires SortedDesc(sorted, count) && multiset(sorted) == multiset(entries)
    requires popular == if |sorted| > 8 then sorted[..8] else sorted
    ensures |popular| <= 8 && Distinct(popular)
    ensures forall t :: t in popular ==> t in AllTags(allNotes)
    ensures forall i, j :: 0 <= i < j < |popular| ==> Uses(allNotes, popular[i]) >= Uses(allNotes, popular[j])
    ensures forall t :: t in AllTags(allNotes) && t !in popular ==>
      |popular| == 8 && forall j :: 0 <= j < 8 ==> Uses(allNotes, t) <= Uses(allNotes, popular[j])
  {
    PermutedDistinct(entries, sorted);
    SameMembers(entries, sorted);
    assert forall i :: 0 <= i < |popular| ==> popular[i] == sorted[i];
    RankedOrder(allNotes, sorted, popular, count);
    RankedOmitted(allNotes, sorted, popular, count);
  }

  /** Two lists with the same multiset have the same members. */
  lemma SameMembers<T>(s: seq<T>, r: seq<T>)
    requires multiset(r) == multiset(s)
    ensures forall t :: t in r <==> t in s
  {
    forall t ensures t in r <==> t in s {
      assert t in r <==> t in multiset(r);
      assert t in s <==> t in multiset(s);
    }
  }

  lemma RankedOrder(allNotes: seq<Note>, sorted: seq<string>, popular: seq<string>, count: string -> int)
    requires forall t :: t in sorted ==> count(t) == Uses(allNotes, t)
    requires SortedDesc(sorted, count) && |popular| <= |sorted|
    requires forall i :: 0 <= i < |popular| ==> popular[i] == sorted[i]
    ensures forall i, j :: 0 <= i < j < |popular| ==> Uses(allNotes, popular[i]) >= Uses(allNotes, popular[j])
  {
    forall i, j | 0 <= i < j < |popular|
      ensures Uses(allNotes, popular[i]) >= Uses(allNotes, popular[j])
    {
      var x, y := sorted[i], sorted[j];
      assert popular[i] == x && popular[j] == y;
      assert count(x) >= count(y);
      assert x in sorted && y in sorted;
      assert count(x) == Uses(allNotes, x) && count(y) == Uses(allNotes, y);
    }
  }

  lemma RankedOmitted(allNotes: seq<Note>, sorted: seq<string>, popular: seq<string>, count: string -> int)
    requires forall t :: t in sorted <==> t in AllTags(allNotes)
    requires forall t :: t in sorted ==> count(t) == Uses(allNotes, t)
    requires SortedDesc(sorted, count)
    requires popular == if |sorted| > 8 then sorted[..8] else sorted
    ensures forall t :: t in AllTags(allNotes) && t !in popular ==>
      |popular| == 8 && forall j :: 0 <= j < 8 ==> Uses(allNotes, t) <= Uses(allNotes, popular[j])
  {
    TopOfSorted(sorted, 8, count);
    forall t | t in AllTags(allNotes) && t !in popular
      ensures |popular| == 8 && forall j :: 0 <= j < 8 ==> Uses(allNotes, t) <= Uses(allNotes, popular[j])
    {
      assert t in sorted;
      forall j | 0 <= j < 8 ensures Uses(allNotes, t) <= Uses(allNotes, popular[j]) {
        assert popular[j] in sorted;
      }
    }
  }

  // ---- Sidebar counts (lines 396-417) ----

  /** The count beside "None": the notes without a category. */
  function NoneCount(allNotes: seq<Note>): nat
  {
    |Filter(allNotes, (n: Note) => n.category == "")|
  }

  /** The count beside a category: the notes filed under its id. */
  function CategoryCount(allNotes: seq<Note>, categoryId: string): nat
  {
    |Filter(allNotes, (n: Note) => n.category == categoryId)|
  }

  /** Each count is the length of the list shown when that entry is clicked
      (for an id other than the two reserved words). */
  lemma CountsMatchFilter(allNotes: seq<Note>, categoryId: string)
    requires categoryId != "all" && categoryId != "uncategorized"
    ensures |allNotes| == |Displayed(allNotes, "all", "")|
    ensures NoneCount(allNotes) == |Displayed(allNotes, "uncategorized", "")|
    ensures CategoryCount(allNotes, categoryId) == |Displayed(allNotes, categoryId, "")|
  {
    FilterSame(allNotes, (n: Note) => n.category == "", (n: Note) => InCategory(n, "uncategorized"));
    FilterSame(allNotes, (n: Note) => n.category == categoryId, (n: Note) => InCategory(n, categoryId));
  }

  /** The sum of the per-category counts. */
  function SumCounts(allNotes: seq<Note>, ids: seq<string>): nat
  {
    if ids == [] then 0 else CategoryCount(allNotes, ids[0]) + SumCounts(allNotes, ids[1..])
  }

  lemma {:induction false} SumCountsSnoc(allNotes: seq<Note>, n: Note, ids: seq<string>)
    requires Distinct(ids)
    ensures SumCounts(allNotes + [n], ids) == SumCounts(allNotes, ids) + (if n.category in ids then 1 else 0)
  {
    if ids != [] {
      assert Distinct(ids[1..]) by {
        forall i, j | 0 <= i < j < |ids[1..]| ensures ids[1..][i] != ids[1..][j] {
          assert ids[1..][i] == ids[i + 1] && ids[1..][j] == ids[j + 1];
        }
      }
      SumCountsSnoc(allNotes, n, ids[1..]);
      var s := allNotes + [n];
      assert s[..|s| - 1] == allNotes;
      assert n.category in ids <==> n.category == ids[0] || n.category in ids[1..];
      assert n.category == ids[0] ==> n.category !in ids[1..];
    }
  }

  /** When every note is uncategorised or filed under one of the listed
      (distinct, non-empty) category ids, "None" and the category counts add
      up to "All". */
  lemma {:induction false} CountsPartition(allNotes: seq<Note>, ids: seq<string>)
    requires Distinct(ids) && "" !in ids
    requires forall n :: n in allNotes ==> n.category == "" || n.category in ids
    ensures |allNotes| == NoneCount(allNotes) + SumCounts(allNotes, ids)
  {
    if allNotes == [] {
      assert SumCounts([], ids) == 0 by { ZeroCounts(ids); }
    } else {
      var init := allNotes[..|allNotes| - 1];
      var n := allNotes[|allNotes| - 1];
      assert allNotes == init + [n];
      CountsPartition(init, ids);
      SumCountsSnoc(init, n, ids);
    }
  }

  lemma {:induction false} ZeroCounts(ids: seq<string>)
    ensures SumCounts([], ids) == 0
  {
    if ids != [] {
      ZeroCounts(ids[1..]);
    }
  }

  // ---- Featured posts (lines 320-323) ----

  /** `new Date(note.updatedAt || note.createdAt)`, as a timestamp. The model
      gives every note a `createdAt`; the notes service never writes one. */
  function Stamp(n: Note): int
  {
    match n.updatedAt
    case Some(t) => t
    case None => n.createdAt
  }

  predicate IsPublished(n: Note)
  {
    n.status == "published"
  }

  /** The "Featured Posts" list: at most three published notes, most recently
      changed first, and no published note left out is more recent than one
      shown. Among notes changed at the same time, those shown are the first
      in `allNotes`, in that order, since the sort is stable. */
  method FeaturedPosts(allNotes: seq<Note>) returns (featured: seq<Note>)
    ensures |featured| <= 3
    ensures forall n :: n in featured ==> n in allNotes && n.status == "published"
    ensures forall i, j :: 0 <= i < j < |featured| ==> Stamp(featured[i]) >= Stamp(featured[j])
    ensures forall n :: n in allNotes && n.status == "published" && n !in featured ==>
      |featured| == 3 && forall j :: 0 <= j < 3 ==> Stamp(n) <= Stamp(featured[j])
    ensures forall v :: Filter(featured, KeyIs(Stamp, v)) <= Filter(Filter(allNotes, IsPublished), KeyIs(Stamp, v))
  {
    var published := Filter(allNotes, IsPublished);
    var sorted := SortByKeyDesc(published, Stamp);
    featured := if |sorted| > 3 then sorted[..3] else sorted;
    FeaturedRanked(allNotes, published, sorted, featured);
    FeaturedTies(published, sorted, featured);
  }

  lemma FeaturedRanked(allNotes: seq<Note>, published: seq<Note>, sorted: seq<Note>, featured: seq<Note>)
    requires published == Filter(allNotes, IsPublished)
    requires SortedDesc(sorted, Stamp) && multiset(sorted) == multiset(published)
    requires featured == if |sorted| > 3 then sorted[..3] else sorted
    ensures |featured| <= 3
    ensures forall n :: n in featured ==> n in allNotes && n.status == "published"
    ensures forall i, j :: 0 <= i < j < |featured| ==> Stamp(featured[i]) >= Stamp(featured[j])
    ensures forall n :: n in allNotes && n.status == "published" && n !in featured ==>
      |featured| == 3 && forall j :: 0 <= j < 3 ==> Stamp(n) <= Stamp(featured[j])
  {
    FilterMembers(allNotes, IsPublished);
    SameMembers(published, sorted);
    TopOfSorted(sorted, 3, Stamp);
    forall n | n in featured ensures n in allNotes && n.status == "published" {
      assert n in sorted;
      assert n in published && IsPublished(n);
    }
    forall n | n in allNotes && n.status == "published" && n !in featured
      ensures |featured| == 3 && forall j :: 0 <= j < 3 ==> Stamp(n) <= Stamp(featured[j])
    {
      assert IsPublished(n) && n in published;
      assert n in sorted;
    }
  }

  lemma FeaturedTies(published: seq<Note>, sorted: seq<Note>, featured: seq<Note>)
    requires forall v :: Filter(sorted, KeyIs(Stamp, v)) == Filter(published, KeyIs(Stamp, v))
    requires featured == if |sorted| > 3 then sorted[..3] else sorted
    ensures forall v :: Filter(featured, KeyIs(Stamp, v)) <= Filter(published, KeyIs(Stamp, v))
  {
    forall v ensures Filter(featured, KeyIs(Stamp, v)) <= Filter(published, KeyIs(Stamp, v)) {
      FilterPrefix(sorted, |featured|, KeyIs(Stamp, v));
      assert sorted[..|featured|] == featured;
    }
  }
}

=== FILE: note_editor.dfy ===
/** The decision logic of the note editor (src/components/NoteEditor.jsx):
    which editor mode a stored note opens in, what a paste does to the
    editor, whether a submit is accepted and which record it saves.

    The component keeps its state in separate `useState` hooks; here they are
    the fields of one `Editor` value, and every handler maps the state before
    to the state after. A string state that JavaScript may also hold as `null`
    is a `string` where `''` stands for every falsy value, since the code only
    ever tests it for truthiness or trims it. */
module NoteEditing {
  import opened Wrappers
  import opened Strings
  import opened Blocks
  import opened Segmenter
  import Classifier
  import ClassifierExamples
  import SegmenterExamples

  /** `editorMode`: `'text'`, `'code'`, `'mixed'` or `'richtext'`. */
  datatype EditorMode = TextMode | CodeMode | MixedMode | RichTextMode

  datatype Editor = Editor(
    title: string,
    content: string,
    status: string,
    category: string,
    tags: string,
    mode: EditorMode,
    codeContent: string,
    codeLanguage: string,
    mixedContent: seq<Block>,
    richTextContent: string)

  /** The state hooks' initial values. */
  const Initial := Editor("", "", "draft", "", "", TextMode, "", "javascript", [], "")

  /** A note as the store hands it back. A field the record does not hold is
      `None`; `mixedContent` is `None` also when it holds something other than
      an array, since the editor then ignores it. */
  datatype StoredNote = StoredNote(
    title: string,
    content: Option<string>,
    status: string,
    category: Option<string>,
    tags: Option<string>,
    codeContent: Option<string>,
    language: Option<string>,
    mixedContent: Option<seq<Block>>,
    richTextContent: Option<string>)

  /** JavaScript truthiness of an optional string. */
  predicate Truthy(o: Option<string>)
  {
    o.Some? && o.value != ""
  }

  /** `o || fallback`. */
  function OrElse(o: Option<string>, fallback: string): (r: string)
    ensures r == if Truthy(o) then o.value else fallback
  {
    if o.Some? && o.value != "" then o.value else fallback
  }

  /** `loadNote` once the note is found: the title, then the mode and the
      fields of that mode, then status, category and tags. The fields the
      chosen branch does not set keep their values from `e`. */
  function Load(e: Editor, note: StoredNote): (r: Editor)
    ensures r.title == note.title && r.status == note.status
    ensures r.category == OrElse(note.category, "") && r.tags == OrElse(note.tags, "")
    ensures r.mode == CodeMode <==> Truthy(note.codeContent) || Truthy(note.language)
    ensures r.mode == MixedMode <==> r.mode != CodeMode && note.mixedContent.Some?
    ensures r.mode == RichTextMode <==>
      r.mode != CodeMode && r.mode != MixedMode && Truthy(note.richTextContent)
    ensures r.mode == CodeMode ==>
      r.codeContent == OrElse(note.codeContent, "") && r.codeLanguage == OrElse(note.language, "javascript")
    ensures r.mode == MixedMode ==> r.mixedContent == note.mixedContent.value
    ensures r.mode == RichTextMode ==> r.richTextContent == note.richTextContent.value
    ensures r.mode == TextMode ==> r.content == OrElse(note.content, "")
  {
    var titled := e.(title := note.title);
    var loaded :=
      if Truthy(note.codeContent) || Truthy(note.language) then
        titled.(mode := CodeMode, codeContent := OrElse(note.codeContent, ""),
                codeLanguage := OrElse(note.language, "javascript"))
      else if note.mixedContent.Some? then
        titled.(mode := MixedMode, mixedContent := note.mixedContent.value)
      else if Truthy(note.richTextContent) then
        titled.(mode := RichTextMode, richTextContent := note.richTextContent.value)
      else
        titled.(mode := TextMode, content := OrElse(note.content, ""));
    loaded.(status := note.status, category := OrElse(note.category, ""), tags := OrElse(note.tags, ""))
  }

  /** The paste handler of the plain-text area, once `processed` (the blocks
      of the pasted text) is known. */
  function AfterPaste(e: Editor, pastedContent: string, processed: seq<Block>): (r: Editor)
    ensures processed == [] ==> r == e
    ensures var mixed := |processed| > 1 || (|processed| == 1 && processed[0].kind == Code);
      (mixed ==> r == e.(mode := MixedMode, mixedContent := processed, content := "")) &&
      (|processed| == 1 && processed[0].kind == Text ==> r == e.(content := pastedContent))
  {
    if |processed| > 0 then
      if |processed| > 1 || processed[0].kind == Code then
        e.(mixedContent := processed, mode := MixedMode, content := "")
      else
        e.(content := pastedContent)
    else
      e
  }

  /** The text a submit is refused with, checked in order: the title first,
      then the rule of the current mode only. */
  function SubmitError(e: Editor): (r: Option<string>)
    ensures Blank(e.title) ==> r == Some("Title is required")
    ensures !Blank(e.title) && r != None ==>
      r == if e.mode == CodeMode then Some("Code content is required") else Some("Content is required")
  {
    TrimBlank(e.title);
    if Trim(e.title) == "" then Some("Title is required")
    else if e.mode == CodeMode && Trim(e.codeContent) == "" then Some("Code content is required")
    else if e.mode == TextMode && Trim(e.content) == "" then Some("Content is required")
    else if e.mode == RichTextMode && Trim(e.richTextContent) == "" then Some("Content is required")
    else if e.mode == MixedMode && |e.mixedContent| == 0 then Some("Content is required")
    else None
  }

  /** What the current mode requires before a note can be saved; the blocks
      of a mixed note are not looked at, only their number. */
  predicate ModeReady(e: Editor)
  {
    match e.mode
    case CodeMode => !Blank(e.codeContent)
    case TextMode => !Blank(e.content)
    case RichTextMode => !Blank(e.richTextContent)
    case MixedMode => |e.mixedContent| > 0
  }

  /** A submit goes through exactly when the title is not blank and the
      current mode's rule holds; the other modes' fields play no part. */
  lemma SubmitAccepted(e: Editor)
    ensures SubmitError(e) == None <==> !Blank(e.title) && ModeReady(e)
  {
    TrimBlank(e.title);
    match e.mode
    case CodeMode => TrimBlank(e.codeContent);
    case TextMode => TrimBlank(e.content);
    case RichTextMode => TrimBlank(e.richTextContent);
    case MixedMode =>
  }

  /** The record `handleSubmit` saves. A field the code never sets is `None`. */
  datatype NoteData = NoteData(
    title: string,
    status: string,
    category: Option<string>,
    tags: Option<string>,
    content: string,
    codeContent: Option<string>,
    language: Option<string>,
    mixedContent: Option<seq<Block>>,
    richTextContent: Option<string>)

  /** `mixedContent.map(item => item.content)`. */
  function Contents(blocks: seq<Block>): (r: seq<string>)
    ensures |r| == |blocks| && forall i :: 0 <= i < |blocks| ==> r[i] == blocks[i].content
  {
    seq(|blocks|, i requires 0 <= i < |blocks| => blocks[i].content)
  }

  /** `value || null`. */
  function OrNull(value: string): (r: Option<string>)
    ensures r.None? <==> value == ""
    ensures r.Some? ==> r.value == value
  {
    if value == "" then None else Some(value)
  }

  /** The record saved for the editor state `e`; `plainText` is the text of
      the rich-text HTML, which the browser computes. */
  function Payload(e: Editor, plainText: string): (r: NoteData)
    ensures r.title == Trim(e.title) && r.status == e.status
    ensures r.category == OrNull(e.category) && r.tags == OrNull(e.tags)
    ensures r.codeContent.Some? <==> e.mode == CodeMode
    ensures r.language.Some? <==> e.mode == CodeMode
    ensures r.mixedContent.Some? <==> e.mode == MixedMode
    ensures r.richTextContent.Some? <==> e.mode == RichTextMode
    ensures e.mode == CodeMode ==>
      r.codeContent == Some(Trim(e.codeContent)) && r.content == Trim(e.codeContent) &&
      r.language == Some(e.codeLanguage)
    ensures e.mode == MixedMode ==>
      r.mixedContent == Some(e.mixedContent) && r.content == Join(Contents(e.mixedContent), "\n\n")
    ensures e.mode == RichTextMode ==>
      r.richTextContent == Some(e.richTextContent) && r.content == plainText
    ensures e.mode == TextMode ==> r.content == Trim(e.content)
  {
    var base := NoteData(Trim(e.title), e.status, OrNull(e.category), OrNull(e.tags), "", None, None, None, None);
    match e.mode
    case CodeMode =>
      base.(codeContent := Some(Trim(e.codeContent)), language := Some(e.codeLanguage),
            content := Trim(e.codeContent))
    case MixedMode =>
      base.(mixedContent := Some(e.mixedContent), content := Join(Contents(e.mixedContent), "\n\n"))
    case RichTextMode =>
      base.(richTextContent := Some(e.richTextContent), content := plainText)
    case TextMode =>
      base.(content := Trim(e.content))
  }

  /** The loop behind `mixedContent.map(item => item.content)`. */
  method MapContents(blocks: seq<Block>) returns (contents: seq<string>)
    ensures contents == Contents(blocks)
  {
    contents := [];
    for i := 0 to |blocks|
      invariant contents == Contents(blocks[..i])
    {
      assert Contents(blocks[..i + 1]) == Contents(blocks[..i]) + [blocks[i].content];
      contents := contents + [blocks[i].content];
    }
    assert blocks[..|blocks|] == blocks;
  }

  /** `noteData` as `handleSubmit` builds it: the common fields, then one
      assignment per field of the current mode. */
  method BuildNoteData(e: Editor, plainText: string) returns (noteData: NoteData)
    ensures noteData == Payload(e, plainText)
  {
    noteData := NoteData(Trim(e.title), e.status, None, None, "", None, None, None, None);
    if e.category != "" {
      noteData := noteData.(category := Some(e.category));
    }
    if e.tags != "" {
      noteData := noteData.(tags := Some(e.tags));
    }
    if e.mode == CodeMode {
      noteData := noteData.(codeContent := Some(Trim(e.codeContent)));
      noteData := noteData.(language := Some(e.codeLanguage));
      noteData := noteData.(content := Trim(e.codeContent));
    } else if e.mode == MixedMode {
      noteData := noteData.(mixedContent := Some(e.mixedContent));
      var contents := MapContents(e.mixedContent);
      noteData := noteData.(content := Join(contents, "\n\n"));
    } else if e.mode == RichTextMode {
      noteData := noteData.(richTextContent := Some(e.richTextContent));
      noteData := noteData.(content := plainText);
    } else {
      noteData := noteData.(content := Trim(e.content));
    }
  }

  /** `value || null` on a field that may already be missing. */
  function NullIfFalsy(o: Option<string>): (r: Option<string>)
    ensures Truthy(r) <==> Truthy(o)
    ensures r.Some? ==> r == o
  {
    if Truthy(o) then o else None
  }

  /** The note the notes service stores for `noteData`, by `createNote` or
      `updateNote` (src/services/notes.js): the title, content and status
      as sent, category, tags, code and language with `|| null`. The
      document it writes has no `mixedContent` and no `richTextContent`
      field, so both are gone when the note is read back. */
  function Stored(d: NoteData): (r: StoredNote)
    ensures r.title == d.title && r.content == Some(d.content) && r.status == d.status
    ensures Truthy(r.codeContent) <==> Truthy(d.codeContent)
    ensures Truthy(r.language) <==> Truthy(d.language)
    ensures r.mixedContent.None? && r.richTextContent.None?
  {
    StoredNote(d.title, Some(d.content), d.status, NullIfFalsy(d.category), NullIfFalsy(d.tags),
               NullIfFalsy(d.codeContent), NullIfFalsy(d.language), None, None)
  }

  /** The store the editor evidently expects: the notes service also writes
      the blocks of a mixed note and the HTML of a rich-text note. */
  function StoredIntended(d: NoteData): (r: StoredNote)
    ensures r.mixedContent == d.mixedContent && r.richTextContent == d.richTextContent
  {
    Stored(d).(mixedContent := d.mixedContent, richTextContent := d.richTextContent)
  }

  /** Saving a note that passes validation and opening it again, through the
      notes service as written: a code note and a text note come back in
      their mode with their content, but a mixed note and a rich-text note
      come back in text mode holding only the searchable text. */
  lemma LoadAfterSave(e: Editor, plainText: string)
    requires SubmitError(e) == None
    ensures var r := Load(Initial, Stored(Payload(e, plainText)));
      r.mode == (if e.mode == CodeMode then CodeMode else TextMode) &&
      r.title == Trim(e.title) && r.status == e.status &&
      r.category == e.category && r.tags == e.tags &&
      (e.mode == CodeMode ==> r.codeContent == Trim(e.codeContent)) &&
      (e.mode == CodeMode ==> r.codeLanguage == if e.codeLanguage == "" then "javascript" else e.codeLanguage) &&
      (e.mode == TextMode ==> r.content == Trim(e.content)) &&
      (e.mode == MixedMode ==> r.content == Join(Contents(e.mixedContent), "\n\n") && r.mixedContent == []) &&
      (e.mode == RichTextMode ==> r.content == plainText && r.richTextContent == "")
  {
    SubmitAccepted(e);
    if e.mode == CodeMode {
      TrimBlank(e.codeContent);
    }
  }

  /** A saved note of one code block reopens in the plain editor with the
      code as its text. */
  lemma MixedNoteReopensAsText()
    ensures var e := Initial.(title := "t", mode := MixedMode, mixedContent := [Block(Code, "x = 1")]);
      SubmitError(e) == None &&
      Load(Initial, Stored(Payload(e, ""))) == Initial.(title := "t", content := "x = 1")
  {
    var e := Initial.(title := "t", mode := MixedMode, mixedContent := [Block(Code, "x = 1")]);
    assert Trim("t") == "t" by { TrimNoOp("t"); }
    assert Contents(e.mixedContent) == ["x = 1"];
    assert Join(["x = 1"], "\n\n") == "x = 1";
  }

  /** With the intended store, every accepted note opens again in its mode
      with that mode's content. */
  lemma LoadAfterSaveIntended(e: Editor, plainText: string)
    requires SubmitError(e) == None
    ensures var r := Load(Initial, StoredIntended(Payload(e, plainText)));
      r.mode == e.mode && r.title == Trim(e.title) && r.status == e.status &&
      r.category == e.category && r.tags == e.tags &&
      (e.mode == CodeMode ==> r.codeContent == Trim(e.codeContent)) &&
      (e.mode == CodeMode ==> r.codeLanguage == if e.codeLanguage == "" then "javascript" else e.codeLanguage) &&
      (e.mode == MixedMode ==> r.mixedContent == e.mixedContent) &&
      (e.mode == RichTextMode ==> r.richTextContent == e.richTextContent) &&
      (e.mode == TextMode ==> r.content == Trim(e.content))
  {
    SubmitAccepted(e);
    if e.mode == CodeMode {
      TrimBlank(e.codeContent);
    }
  }

  /** Joining block contents with blank lines adds only whitespace: the
      searchable text of a mixed note holds the blocks' non-whitespace
      characters in block order. */
  lemma {:induction false} JoinedContents(blocks: seq<Block>)
    ensures NonWs(Join(Contents(blocks), "\n\n")) == NonWs(Concat(blocks))
  {
    if |blocks| > 1 {
      var init := blocks[..|blocks| - 1];
      var b := blocks[|blocks| - 1];
      JoinedContents(init);
      assert Contents(blocks) == Contents(init) + [b.content];
      JoinSnoc(Contents(init), b.content, "\n\n");
      var j := Join(Contents(init), "\n\n");
      NonWsAppend(j + "\n\n", b.content);
      NonWsAppend(j, "\n\n");
      assert NonWs("\n\n") == [];
      NonWsAppend(Concat(init), b.content);
    } else if |blocks| == 1 {
      assert blocks[..0] == [];
      assert Concat(blocks) == "" + blocks[0].content;
      assert "" + blocks[0].content == blocks[0].content;
      assert Join(Contents(blocks), "\n\n") == blocks[0].content;
    }
  }

  /** A paste none of whose lines is code keeps the plain editor and puts the
      pasted text in it; a blank one changes nothing. */
  lemma ProsePaste(f: string -> bool, e: Editor, pasted: string)
    requires forall k :: 0 <= k < |Split(pasted, "\n")| ==> !f(Split(pasted, "\n")[k])
    ensures AfterPaste(e, pasted, Segment(f, pasted)) == if Blank(pasted) then e else e.(content := pasted)
  {
    SegmentProse(f, pasted);
  }

  /** A paste all of whose lines are code switches to mixed mode with a
      single code block. */
  lemma CodePaste(f: string -> bool, e: Editor, pasted: string)
    requires forall k :: 0 <= k < |Split(pasted, "\n")| ==> f(Split(pasted, "\n")[k])
    requires !Blank(pasted)
    ensures AfterPaste(e, pasted, Segment(f, pasted)) ==
      e.(mode := MixedMode, mixedContent := [Block(Code, Trim(pasted))], content := "")
  {
    SegmentAllCode(f, pasted);
  }

  /** Whatever mixed note is saved, its searchable text holds the blocks'
      non-whitespace characters in order. */
  lemma SavedMixedText(r: Editor, plainText: string)
    requires r.mode == MixedMode
    ensures NonWs(Payload(r, plainText).content) == NonWs(Concat(r.mixedContent))
  {
    JoinedContents(r.mixedContent);
  }

  /** When a paste switches to mixed mode, nothing of it is lost: the blocks,
      and the searchable text saved for them, hold exactly the non-whitespace
      characters of the pasted text, in order. */
  lemma MixedPasteKeepsText(f: string -> bool, e: Editor, pasted: string, plainText: string)
    ensures var blocks := Segment(f, pasted);
      |blocks| > 1 || (|blocks| == 1 && blocks[0].kind == Code) ==>
        var r := AfterPaste(e, pasted, blocks);
        r.mode == MixedMode &&
        NonWs(Concat(r.mixedContent)) == NonWs(pasted) &&
        NonWs(Payload(r, plainText).content) == NonWs(pasted)
  {
    var blocks := Segment(f, pasted);
    if |blocks| > 1 || (|blocks| == 1 && blocks[0].kind == Code) {
      var r := AfterPaste(e, pasted, blocks);
      assert r.mode == MixedMode && r.mixedContent == blocks;
      SegmentPreservesContent(f, pasted);
      SavedMixedText(r, plainText);
    }
  }

  /** The example of a sentence, a line of Python and a closing sentence:
      the paste opens mixed mode with the first two lines as one code block. */
  lemma PrintInPythonPaste(e: Editor)
    ensures var pasted := ClassifierExamples.Intro + "\n" + ClassifierExamples.Call + "\n" + ClassifierExamples.Outro;
      AfterPaste(e, pasted, Segment(Classifier.IsCode, pasted)) ==
        e.(mode := MixedMode, content := "", mixedContent := [
          Block(Code, ClassifierExamples.Intro + "\n" + ClassifierExamples.Call),
          Block(Text, ClassifierExamples.Outro)])
  {
    SegmenterExamples.PrintInPython();
  }
}

=== FILE: note_viewer.dfy ===
/** What src/components/NoteViewer.jsx renders for a note: the choice of
    view, the split of plain text into paragraphs and lines, the mixed blocks
    in stored order, the rich-text newlines, and the tag badges. HTML
    sanitising and syntax highlighting belong to libraries and are not
    modelled. */
module NoteViewing {
  import opened Wrappers
  import opened Strings
  import opened Blocks
  import NoteEditing
  import Dashboard

  /** One rendered line: its text, and whether a `<br />` follows it. */
  datatype Line = Line(text: string, br: bool)

  /** One entry of the mixed view. */
  datatype Item = CodeItem(code: string, language: string) | TextItem(paragraphs: seq<seq<Line>>)

  datatype View =
    | CodeView(code: string, language: string)
    | BlocksView(items: seq<Item>)
    | HtmlView(html: string)
    | ParagraphsView(paragraphs: seq<seq<Line>>)

  /** `paragraph.split('\n')`, each line followed by a break except the last. */
  function LinesOf(paragraph: string): (r: seq<Line>)
    ensures |r| >= 1
    ensures forall i :: 0 <= i < |r| ==> '\n' !in r[i].text
  {
    var pieces := Split(paragraph, "\n");
    assert forall i :: 0 <= i < |pieces| ==> '\n' !in pieces[i] by {
      forall i, j | 0 <= i < |pieces| && 0 <= j < |pieces[i]| ensures pieces[i][j] != '\n' {
        assert !OccursAt(pieces[i], j, "\n");
        assert pieces[i][j..j + 1] == [pieces[i][j]];
      }
    }
    seq(|pieces|, i requires 0 <= i < |pieces| => Line(pieces[i], i < |pieces| - 1))
  }

  /** `content.split('\n\n')`, each paragraph split into lines. */
  function Paragraphs(content: string): (r: seq<seq<Line>>)
    ensures |r| >= 1
  {
    var pieces := Split(content, "\n\n");
    seq(|pieces|, i requires 0 <= i < |pieces| => LinesOf(pieces[i]))
  }

  function Texts(lines: seq<Line>): seq<string>
  {
    seq(|lines|, i requires 0 <= i < |lines| => lines[i].text)
  }

  /** The text of the rendered paragraphs, lines joined by a newline and
      paragraphs by a blank line. */
  function Rejoin(paragraphs: seq<seq<Line>>): string
  {
    Join(seq(|paragraphs|, i requires 0 <= i < |paragraphs| => Join(Texts(paragraphs[i]), "\n")), "\n\n")
  }

  /** Nothing of the text is lost or moved: rejoining the paragraphs gives
      the content back exactly. */
  lemma RejoinParagraphs(content: string)
    ensures Rejoin(Paragraphs(content)) == content
  {
    var pieces := Split(content, "\n\n");
    var ps := Paragraphs(content);
    var joined := seq(|ps|, i requires 0 <= i < |ps| => Join(Texts(ps[i]), "\n"));
    forall i | 0 <= i < |pieces| ensures joined[i] == pieces[i] {
      assert Texts(LinesOf(pieces[i])) == Split(pieces[i], "\n");
      SplitJoin(pieces[i], "\n");
    }
    assert joined == pieces;
    SplitJoin(content, "\n\n");
  }

  /** The number of `<br />` elements among the lines. */
  function Breaks(lines: seq<Line>): nat
  {
    if lines == [] then 0 else Breaks(lines[..|lines| - 1]) + (if lines[|lines| - 1].br then 1 else 0)
  }

  lemma {:induction false} BreaksBeforeLast(lines: seq<Line>)
    requires |lines| >= 1
    requires forall i :: 0 <= i < |lines| ==> (lines[i].br <==> i < |lines| - 1)
    ensures Breaks(lines) == |lines| - 1
  {
    if |lines| > 1 {
      var init := lines[..|lines| - 1];
      BreaksBeforeLast1(init);
    }
  }

  /** Every line of a prefix that ends before the last has its break. */
  lemma {:induction false} BreaksBeforeLast1(lines: seq<Line>)
    requires forall i :: 0 <= i < |lines| ==> lines[i].br
    ensures Breaks(lines) == |lines|
  {
    if lines != [] {
      BreaksBeforeLast1(lines[..|lines| - 1]);
    }
  }

  /** A paragraph of n lines gets n - 1 line breaks, none after its last
      line. */
  lemma LineBreaks(paragraph: string)
    ensures Breaks(LinesOf(paragraph)) == |LinesOf(paragraph)| - 1
    ensures !LinesOf(paragraph)[|LinesOf(paragraph)| - 1].br
  {
    BreaksBeforeLast(LinesOf(paragraph));
  }

  /** The mixed view: one entry per stored block, code in a code block with
      `note.language || 'javascript'`, text as paragraphs. */
  function Render(blocks: seq<Block>, language: Option<string>): (r: seq<Item>)
    ensures |r| == |blocks|
  {
    seq(|blocks|, i requires 0 <= i < |blocks| =>
      if blocks[i].kind == Code then CodeItem(blocks[i].content, NoteEditing.OrElse(language, "javascript"))
      else TextItem(Paragraphs(blocks[i].content)))
  }

  /** The mixed view keeps the stored order and every block's text: a code
      entry shows the block's content, a text entry rejoins to it. */
  lemma RenderKeepsBlocks(blocks: seq<Block>, language: Option<string>)
    ensures forall i :: 0 <= i < |blocks| ==>
      (blocks[i].kind == Code <==> Render(blocks, language)[i].CodeItem?)
    ensures forall i :: 0 <= i < |blocks| && blocks[i].kind == Code ==>
      Render(blocks, language)[i].code == blocks[i].content
    ensures forall i :: 0 <= i < |blocks| && blocks[i].kind == Text ==>
      Rejoin(Render(blocks, language)[i].paragraphs) == blocks[i].content
  {
    forall i | 0 <= i < |blocks| && blocks[i].kind == Text
      ensures Rejoin(Render(blocks, language)[i].paragraphs) == blocks[i].content
    {
      RejoinParagraphs(blocks[i].content);
    }
  }

  /** `richTextContent.replace(/\n/g, '<br />')`. */
  function BreakNewlines(s: string): (r: string)
    ensures '\n' !in r
    ensures |r| >= |s|
  {
    if s == [] then []
    else (if s[0] == '\n' then "<br />" else [s[0]]) + BreakNewlines(s[1..])
  }

  /** Text without newlines passes through unchanged. */
  lemma {:induction false} BreakNewlinesNoOp(s: string)
    requires '\n' !in s
    ensures BreakNewlines(s) == s
  {
    if s != [] {
      assert s == [s[0]] + s[1..];
      BreakNewlinesNoOp(s[1..]);
    }
  }

  /** The view chosen for a note: code content first, then an array of
      blocks, then rich text, then the plain content. */
  function ViewOf(note: NoteEditing.StoredNote): (r: View)
    ensures r.CodeView? <==> NoteEditing.Truthy(note.codeContent)
    ensures r.BlocksView? <==> !NoteEditing.Truthy(note.codeContent) && note.mixedContent.Some?
    ensures r.HtmlView? <==>
      !NoteEditing.Truthy(note.codeContent) && note.mixedContent.None? && NoteEditing.Truthy(note.richTextContent)
  {
    if NoteEditing.Truthy(note.codeContent) then
      CodeView(note.codeContent.value, NoteEditing.OrElse(note.language, "javascript"))
    else if note.mixedContent.Some? then
      BlocksView(Render(note.mixedContent.value, note.language))
    else if NoteEditing.Truthy(note.richTextContent) then
      HtmlView(BreakNewlines(note.richTextContent.value))
    else
      ParagraphsView(Paragraphs(NoteEditing.OrElse(note.content, "")))
  }

  /** A note the editor accepted and saved through the notes service as
      written: a code note shows its code and a text note its paragraphs,
      but a mixed note and a rich-text note are shown as the paragraphs of
      their searchable text. */
  lemma ViewAfterSave(e: NoteEditing.Editor, plainText: string)
    requires NoteEditing.SubmitError(e) == None
    ensures var v := ViewOf(NoteEditing.Stored(NoteEditing.Payload(e, plainText)));
      (e.mode == NoteEditing.CodeMode ==>
        v == CodeView(Trim(e.codeContent), if e.codeLanguage == "" then "javascript" else e.codeLanguage)) &&
      (e.mode == NoteEditing.MixedMode ==>
        v == ParagraphsView(Paragraphs(Join(NoteEditing.Contents(e.mixedContent), "\n\n")))) &&
      (e.mode == NoteEditing.RichTextMode ==> v == ParagraphsView(Paragraphs(plainText))) &&
      (e.mode == NoteEditing.TextMode ==> v == ParagraphsView(Paragraphs(Trim(e.content))))
  {
    NoteEditing.SubmitAccepted(e);
    if e.mode == NoteEditing.CodeMode {
      CodeSaved(e, plainText);
    }
  }

  lemma CodeSaved(e: NoteEditing.Editor, plainText: string)
    requires e.mode == NoteEditing.CodeMode && !Blank(e.codeContent)
    ensures ViewOf(NoteEditing.Stored(NoteEditing.Payload(e, plainText))) ==
      CodeView(Trim(e.codeContent), if e.codeLanguage == "" then "javascript" else e.codeLanguage)
    ensures ViewOf(NoteEditing.StoredIntended(NoteEditing.Payload(e, plainText))) ==
      CodeView(Trim(e.codeContent), if e.codeLanguage == "" then "javascript" else e.codeLanguage)
  {
    TrimBlank(e.codeContent);
  }

  /** With the intended store, an accepted note opens in the view of the
      mode it was written in, showing what was written. */
  lemma ViewAfterSaveIntended(e: NoteEditing.Editor, plainText: string)
    requires NoteEditing.SubmitError(e) == None
    ensures var v := ViewOf(NoteEditing.StoredIntended(NoteEditing.Payload(e, plainText)));
      (e.mode == NoteEditing.CodeMode ==>
        v == CodeView(Trim(e.codeContent), if e.codeLanguage == "" then "javascript" else e.codeLanguage)) &&
      (e.mode == NoteEditing.MixedMode ==> v == BlocksView(Render(e.mixedContent, None))) &&
      (e.mode == NoteEditing.RichTextMode ==> v == HtmlView(BreakNewlines(e.richTextContent))) &&
      (e.mode == NoteEditing.TextMode ==> v == ParagraphsView(Paragraphs(Trim(e.content))))
  {
    NoteEditing.SubmitAccepted(e);
    match e.mode
    case CodeMode => CodeSaved(e, plainText);
    case MixedMode => OtherSaved(e, plainText);
    case RichTextMode => OtherSaved(e, plainText);
    case TextMode => OtherSaved(e, plainText);
  }

  lemma OtherSaved(e: NoteEditing.Editor, plainText: string)
    requires e.mode != NoteEditing.CodeMode
    requires e.mode == NoteEditing.RichTextMode ==> !Blank(e.richTextContent)
    ensures var v := ViewOf(NoteEditing.StoredIntended(NoteEditing.Payload(e, plainText)));
      (e.mode == NoteEditing.MixedMode ==> v == BlocksView(Render(e.mixedContent, None))) &&
      (e.mode == NoteEditing.RichTextMode ==> v == HtmlView(BreakNewlines(e.richTextContent))) &&
      (e.mode == NoteEditing.TextMode ==> v == ParagraphsView(Paragraphs(Trim(e.content))))
  {
    if e.mode == NoteEditing.RichTextMode {
      assert e.richTextContent != "";
    }
  }

  /** Unlike the editor, the viewer ignores a language without code: such a
      note opens in the editor's code mode but shows its plain content. */
  lemma LanguageAloneDiffers()
    ensures var note := NoteEditing.StoredNote("t", Some("body"), "draft", None, None, None, Some("python"), None, None);
      ViewOf(note) == ParagraphsView(Paragraphs("body")) &&
      NoteEditing.Load(NoteEditing.Initial, note).mode == NoteEditing.CodeMode
  {
  }

  /** `note.tags.split(',')`, one badge per piece with its trimmed text; no
      badges when the tags are empty. */
  function Badges(tags: string): (r: seq<string>)
    ensures tags == "" ==> r == []
    ensures tags != "" ==> |r| == |Split(tags, ",")|
  {
    if tags == "" then []
    else
      var pieces := Split(tags, ",");
      seq(|pieces|, i requires 0 <= i < |pieces| => Trim(pieces[i]))
  }

  /** The non-empty badges are exactly the tags the dashboard counts. */
  lemma BadgesAreTags(tags: string, t: string)
    requires tags != ""
    ensures t in Dashboard.TagList(tags) <==> t in Badges(tags) && t != ""
  {
    if t in Dashboard.TagList(tags) {
      TagHasBadge(tags, t);
    }
    if t in Badges(tags) && t != "" {
      BadgeIsTag(tags, t);
    }
  }

  lemma TagHasBadge(tags: string, t: string)
    requires tags != "" && t in Dashboard.TagList(tags)
    ensures t in Badges(tags) && t != ""
  {
    var pieces := Split(tags, ",");
    Dashboard.TrimmedFrom(pieces, t);
    var k :| 0 <= k < |pieces| && Trim(pieces[k]) == t;
    assert Badges(tags)[k] == t;
  }

  lemma BadgeIsTag(tags: string, t: string)
    requires tags != "" && t in Badges(tags) && t != ""
    ensures t in Dashboard.TagList(tags)
  {
    var pieces := Split(tags, ",");
    var k :| 0 <= k < |pieces| && Badges(tags)[k] == t;
    Dashboard.TrimmedHas(pieces, k);
  }
}

=== FILE: rich_text.dfy ===
/** The rules of src/components/EnhancedRichTextEditor.jsx that do not touch
    the DOM: the word count and reading time, the URL protocol allow-list
    and the link and image prompts it gates, the keyboard shortcuts, and when
    an input triggers an auto-save. The parsed URL protocol is an input here:
    the `URL` constructor belongs to the browser. */
module RichText {
  import opened Wrappers
  import opened Strings

  // ---- Word count and reading time (lines 44-48) ----

  /** The leading run of non-whitespace characters. */
  function Run(s: string): (r: string)
    ensures |r| <= |s| && r == s[..|r|]
    ensures forall i :: 0 <= i < |r| ==> !IsWs(r[i])
    ensures |r| < |s| ==> IsWs(s[|r|])
  {
    if s == [] || IsWs(s[0]) then [] else [s[0]] + Run(s[1..])
  }

  /** `text.split(/\s+/).filter(Boolean)`: the maximal runs of
      non-whitespace characters, in order. */
  function Words(s: string): (r: seq<string>)
    ensures forall i :: 0 <= i < |r| ==> r[i] != []
    decreases |s|
  {
    if s == [] then []
    else if IsWs(s[0]) then Words(s[1..])
    else
      var w := Run(s);
      [w] + Words(s[|w|..])
  }

  function Flatten(words: seq<string>): string
  {
    if words == [] then [] else words[0] + Flatten(words[1..])
  }

  lemma {:induction false} NonWsOfWord(w: string)
    requires forall i :: 0 <= i < |w| ==> !IsWs(w[i])
    ensures NonWs(w) == w
  {
    if w != [] {
      NonWsOfWord(w[1..]);
    }
  }

  /** Splitting into words drops the whitespace and nothing else. */
  lemma {:induction false} WordsKeepText(s: string)
    ensures Flatten(Words(s)) == NonWs(s)
    decreases |s|
  {
    if s != [] {
      if IsWs(s[0]) {
        WordsKeepText(s[1..]);
      } else {
        var w := Run(s);
        var rest := s[|w|..];
        WordsKeepText(rest);
        assert s == w + rest;
        NonWsAppend(w, rest);
        NonWsOfWord(w);
        assert ([w] + Words(rest))[1..] == Words(rest);
      }
    }
  }

  lemma {:induction false} FlattenEmpty(words: seq<string>)
    requires forall i :: 0 <= i < |words| ==> words[i] != []
    ensures Flatten(words) == [] <==> words == []
  {
  }

  /** The counter's value: the words of the trimmed text. */
  function WordCount(text: string): nat
  {
    |Words(Trim(text))|
  }

  /** No words exactly when the text is blank. */
  lemma WordCountZero(text: string)
    ensures WordCount(text) == 0 <==> Blank(text)
  {
    var t := Trim(text);
    WordsKeepText(t);
    FlattenEmpty(Words(t));
    TrimNonWs(text);
    BlankIffNoNonWs(text);
  }

  /** `Math.ceil(words / 200)`: the least number of whole minutes in which
      200 words a minute cover the words. */
  function ReadingTime(words: nat): (r: nat)
    ensures 200 * r >= words
    ensures r > 0 ==> 200 * (r - 1) < words
  {
    (words + 199) / 200
  }

  /** Zero words take no time, 1 to 200 words one minute, 201 to 400 two. */
  lemma ReadingTimeSteps(words: nat)
    ensures words == 0 ==> ReadingTime(words) == 0
    ensures 1 <= words <= 200 ==> ReadingTime(words) == 1
    ensures 201 <= words <= 400 ==> ReadingTime(words) == 2
  {
  }

  // ---- URL allow-list and the link and image prompts (lines 175-205) ----

  /** `isValidUrl`, given what `new URL(urlString)` yields: the protocol, or
      `None` when the constructor throws. */
  predicate IsValidUrl(protocol: Option<string>)
  {
    protocol.Some? && protocol.value in ["http:", "https:", "mailto:"]
  }

  /** What a prompt leads to: nothing (cancelled or empty), the editing
      command with the URL, or an alert. */
  datatype Outcome = Nothing | Format(command: string, url: string) | Alert(message: string)

  const LinkRejected := "Invalid URL. Only HTTP, HTTPS, and mailto links are allowed."
  const ImageRejected := "Invalid URL. Only HTTP and HTTPS image links are allowed."

  /** `insertLink`: `answer` is the prompt's result (`None` when cancelled). */
  function InsertLink(answer: Option<string>, protocol: Option<string>): (r: Outcome)
    ensures answer.None? || answer.value == "" ==> r == Nothing
    ensures answer.Some? && answer.value != "" ==>
      r == if IsValidUrl(protocol) then Format("createLink", answer.value) else Alert(LinkRejected)
  {
    if answer.Some? && answer.value != "" then
      if IsValidUrl(protocol) then Format("createLink", answer.value) else Alert(LinkRejected)
    else Nothing
  }

  /** `insertImage`: the same check, another command and message. */
  function InsertImage(answer: Option<string>, protocol: Option<string>): (r: Outcome)
    ensures answer.None? || answer.value == "" ==> r == Nothing
    ensures answer.Some? && answer.value != "" ==>
      r == if IsValidUrl(protocol) then Format("insertImage", answer.value) else Alert(ImageRejected)
  {
    if answer.Some? && answer.value != "" then
      if IsValidUrl(protocol) then Format("insertImage", answer.value) else Alert(ImageRejected)
    else Nothing
  }

  /** Links and images pass the same gate: one is inserted exactly when the
      other would be, for every URL. */
  lemma SameGate(answer: Option<string>, protocol: Option<string>)
    ensures InsertLink(answer, protocol).Format? <==> InsertImage(answer, protocol).Format?
    ensures InsertLink(answer, protocol).Alert? <==> InsertImage(answer, protocol).Alert?
    ensures InsertImage(answer, protocol).Format? ==> InsertImage(answer, protocol).url == answer.value
  {
  }

  /** Only http, https and mailto are let through; a URL that fails to parse
      never is. */
  lemma AllowList(answer: string, protocol: Option<string>)
    requires answer != ""
    ensures protocol.None? ==> InsertLink(Some(answer), protocol) == Alert(LinkRejected)
    ensures protocol == Some("javascript:") ==> InsertLink(Some(answer), protocol) == Alert(LinkRejected)
    ensures protocol == Some("ftp:") ==> InsertLink(Some(answer), protocol) == Alert(LinkRejected)
    ensures protocol == Some("https:") ==> InsertLink(Some(answer), protocol) == Format("createLink", answer)
  {
  }

  /** A `mailto:` address is accepted as an image, although the message for
      rejected images names HTTP and HTTPS only. */
  lemma MailtoImage()
    ensures InsertImage(Some("mailto:a@b.c"), Some("mailto:")) == Format("insertImage", "mailto:a@b.c")
  {
  }

  // ---- Keyboard shortcuts (lines 243-267) ----

  datatype Shortcut = Bold | Italic | Underline | LinkPrompt

  /** `handleKeyDown`: with Ctrl or Meta held, `b`, `i`, `u` and `k` act;
      every other key, and every key without a modifier, does nothing. */
  function ShortcutFor(ctrlKey: bool, metaKey: bool, key: string): (r: Option<Shortcut>)
    ensures r.Some? <==> (ctrlKey || metaKey) && key in ["b", "i", "u", "k"]
  {
    if ctrlKey || metaKey then
      if key == "b" then Some(Bold)
      else if key == "i" then Some(Italic)
      else if key == "u" then Some(Underline)
      else if key == "k" then Some(LinkPrompt)
      else None
    else None
  }

  /** The key bound to each shortcut. */
  function KeyOf(s: Shortcut): string
  {
    match s
    case Bold => "b"
    case Italic => "i"
    case Underline => "u"
    case LinkPrompt => "k"
  }

  /** Each shortcut has exactly one key: pressing it with either modifier
      gives that shortcut, and a key that gives a shortcut is that
      shortcut's key. */
  lemma ShortcutKeys(s: Shortcut, ctrlKey: bool, metaKey: bool, key: string)
    ensures ctrlKey || metaKey ==> ShortcutFor(ctrlKey, metaKey, KeyOf(s)) == Some(s)
    ensures ShortcutFor(ctrlKey, metaKey, key) == Some(s) ==> key == KeyOf(s)
  {
  }

  // ---- Auto-save trigger (lines 146-148) ----

  /** `autoSave && noteId && content.trim() !== ''`. */
  predicate ShouldAutoSave(autoSave: bool, noteId: Option<string>, content: string)
  {
    autoSave && noteId.Some? && noteId.value != "" && Trim(content) != ""
  }

  /** An input is saved exactly when auto-save is on, the note has an id and
      the content has a non-whitespace character. */
  lemma AutoSaveWhen(autoSave: bool, noteId: Option<string>, content: string)
    ensures ShouldAutoSave(autoSave, noteId, content) <==>
      autoSave && noteId.Some? && noteId.value != "" && NonWs(content) != []
  {
    TrimBlank(content);
    BlankIffNoNonWs(content);
  }
}

=== FILE: segmenter.dfy ===
/** `processPastedContent` (src/components/ContentEditor.jsx and its copy in
    src/components/NoteEditor.jsx): the pasted text is split into lines, each
    line is classified, and runs of lines become trimmed text and code blocks.

    The specification is a left fold of `Step` over the lines, followed by
    `Finish`; it takes the line classifier as a parameter, so that the
    properties proved here hold for any classifier. `ProcessPastedContent`
    is the loop itself, with the concrete classifier. */
module Segmenter {
  import opened Strings
  import opened Blocks
  import opened Classifier

  /** The loop's state: blocks pushed so far (`processedContent`), the text
      being gathered (`currentTextBlock`), whether a code run is open
      (`inCodeBlock`) and the code being gathered (`codeAccumulator`). */
  datatype Acc = Acc(out: seq<Block>, cur: string, inCode: bool, code: string)

  const Start := Acc([], "", false, "")

  /** One iteration of the loop, for a line classified as `isCode`. */
  function Step(a: Acc, line: string, isCode: bool): Acc
  {
    if isCode then
      var flush := Trim(a.cur) != "";
      Acc(if flush then a.out + [Block(Text, Trim(a.cur))] else a.out,
          if flush then "" else a.cur,
          true,
          if a.inCode then a.code + "\n" + line else line)
    else
      Acc(if a.inCode then a.out + [Block(Code, Trim(a.code))] else a.out,
          if a.cur != "" then a.cur + "\n" + line else line,
          false,
          if a.inCode then "" else a.code)
  }

  /** The state after the loop has visited `lines`. */
  function Run(f: string -> bool, lines: seq<string>): Acc
  {
    if lines == [] then Start
    else Step(Run(f, lines[..|lines| - 1]), lines[|lines| - 1], f(lines[|lines| - 1]))
  }

  /** After the loop: the remaining text, then the remaining code, each only
      when it is not blank. */
  function Finish(a: Acc): seq<Block>
  {
    a.out + PendingText(a) + PendingCode(a)
  }

  function PendingText(a: Acc): seq<Block>
  {
    if Trim(a.cur) != "" then [Block(Text, Trim(a.cur))] else []
  }

  function PendingCode(a: Acc): seq<Block>
  {
    if Trim(a.code) != "" then [Block(Code, Trim(a.code))] else []
  }

  /** What `processPastedContent(text)` returns, for the line classifier `f`. */
  function Segment(f: string -> bool, text: string): seq<Block>
  {
    Finish(Run(f, Split(text, "\n")))
  }

  /** `processPastedContent`: walk the lines with three accumulators. */
  method ProcessPastedContent(pastedText: string) returns (processedContent: seq<Block>)
    ensures processedContent == Segment(IsCode, pastedText)
  {
    var lines := Split(pastedText, "\n");
    processedContent := [];
    var currentTextBlock := "";
    var inCodeBlock := false;
    var codeAccumulator := "";
    for i := 0 to |lines|
      invariant processedContent == Run(IsCode, lines[..i]).out
      invariant currentTextBlock == Run(IsCode, lines[..i]).cur
      invariant inCodeBlock == Run(IsCode, lines[..i]).inCode
      invariant codeAccumulator == Run(IsCode, lines[..i]).code
    {
      var line := lines[i];
      ghost var next := Step(Run(IsCode, lines[..i]), line, IsCode(line));
      RunPrefix(IsCode, lines, i);
      var isCode := IsCodeBlock(line);
      if isCode {
        if Trim(currentTextBlock) != "" {
          processedContent := processedContent + [Block(Text, Trim(currentTextBlock))];
          currentTextBlock := "";
        }
        if !inCodeBlock {
          inCodeBlock := true;
          codeAccumulator := line;
        } else {
          codeAccumulator := codeAccumulator + "\n" + line;
        }
      } else {
        if inCodeBlock {
          processedContent := processedContent + [Block(Code, Trim(codeAccumulator))];
          codeAccumulator := "";
          inCodeBlock := false;
        }
        if currentTextBlock != "" {
          currentTextBlock := currentTextBlock + "\n" + line;
        } else {
          currentTextBlock := line;
        }
      }
      assert processedContent == next.out && currentTextBlock == next.cur;
      assert inCodeBlock == next.inCode && codeAccumulator == next.code;
    }
    assert lines[..|lines|] == lines;
    ghost var last := Run(IsCode, lines);
    if Trim(currentTextBlock) != "" {
      processedContent := processedContent + [Block(Text, Trim(currentTextBlock))];
    }
    assert processedContent == last.out + PendingText(last);
    if Trim(codeAccumulator) != "" {
      processedContent := processedContent + [Block(Code, Trim(codeAccumulator))];
    }
  }

  /** One more line of the loop is one more `Step`. */
  lemma RunPrefix(f: string -> bool, lines: seq<string>, i: nat)
    requires i < |lines|
    ensures Run(f, lines[..i + 1]) == Step(Run(f, lines[..i]), lines[i], f(lines[i]))
  {
    assert lines[..i + 1][..i] == lines[..i];
  }

  /** A block as the segmenter emits it: equal to its own trim and, when it
      is text, not blank. */
  predicate Tidy(b: Block)
  {
    Trim(b.content) == b.content && (b.kind == Text ==> !Blank(b.content))
  }

  predicate AllTidy(blocks: seq<Block>)
  {
    forall i :: 0 <= i < |blocks| ==> Tidy(blocks[i])
  }

  /** No two neighbouring blocks are both text. */
  predicate NoAdjacentText(blocks: seq<Block>)
  {
    forall i :: 0 <= i && i + 1 < |blocks| ==> blocks[i].kind == Code || blocks[i + 1].kind == Code
  }

  predicate EndsWithText(blocks: seq<Block>)
  {
    |blocks| > 0 && blocks[|blocks| - 1].kind == Text
  }

  /** At most one accumulator is in use: no code outside a code run, and only
      whitespace pending as text inside one. */
  predicate Accumulating(a: Acc)
  {
    (!a.inCode ==> a.code == "") && (a.inCode ==> Blank(a.cur))
  }

  /** The invariant the loop keeps, for any classifier. */
  predicate Inv(a: Acc)
  {
    Accumulating(a) &&
    (EndsWithText(a.out) ==> a.inCode) &&
    AllTidy(a.out) && NoAdjacentText(a.out)
  }

  /** The trim of a string, as a block, is tidy unless it is empty. */
  lemma TrimmedTidy(k: BlockType, s: string)
    requires Trim(s) != ""
    ensures Tidy(Block(k, Trim(s)))
  {
    TrimIdempotent(s);
    TrimBlank(Trim(s));
  }

  lemma PushTidy(blocks: seq<Block>, b: Block)
    requires AllTidy(blocks) && NoAdjacentText(blocks)
    requires Tidy(b)
    requires EndsWithText(blocks) ==> b.kind == Code
    ensures AllTidy(blocks + [b]) && NoAdjacentText(blocks + [b])
  {
    var r := blocks + [b];
    forall i | 0 <= i < |r| ensures Tidy(r[i]) {
      if i < |blocks| { assert r[i] == blocks[i]; }
    }
    forall i | 0 <= i && i + 1 < |r| ensures r[i].kind == Code || r[i + 1].kind == Code {
      if i + 1 < |blocks| { assert r[i] == blocks[i] && r[i + 1] == blocks[i + 1]; }
    }
  }

  lemma StepCodeInv(a: Acc, line: string)
    requires Inv(a)
    ensures Inv(Step(a, line, true))
  {
    TrimBlank(a.cur);
    if Trim(a.cur) != "" {
      TrimmedTidy(Text, a.cur);
      PushTidy(a.out, Block(Text, Trim(a.cur)));
    }
  }

  lemma StepTextInv(a: Acc, line: string)
    requires Inv(a)
    ensures Inv(Step(a, line, false))
  {
    var r := Step(a, line, false);
    if a.inCode {
      var b := Block(Code, Trim(a.code));
      if Trim(a.code) != "" {
        TrimmedTidy(Code, a.code);
      } else {
        EmptyTrim();
      }
      PushTidy(a.out, b);
      assert r.out == a.out + [b] && r.out[|r.out| - 1] == b;
    } else {
      assert r.out == a.out && r.code == a.code;
    }
  }

  lemma StepInv(a: Acc, line: string, isCode: bool)
    requires Inv(a)
    ensures Inv(Step(a, line, isCode))
  {
    if isCode { StepCodeInv(a, line); } else { StepTextInv(a, line); }
  }

  lemma {:induction false} RunInv(f: string -> bool, lines: seq<string>)
    ensures Inv(Run(f, lines))
  {
    if lines != [] {
      RunInv(f, lines[..|lines| - 1]);
      StepInv(Run(f, lines[..|lines| - 1]), lines[|lines| - 1], f(lines[|lines| - 1]));
    }
  }

  lemma FinishText(a: Acc)
    requires Inv(a)
    ensures AllTidy(a.out + PendingText(a)) && NoAdjacentText(a.out + PendingText(a))
  {
    if Trim(a.cur) != "" {
      TrimBlank(a.cur);
      TrimmedTidy(Text, a.cur);
      PushTidy(a.out, Block(Text, Trim(a.cur)));
    } else {
      assert a.out + PendingText(a) == a.out;
    }
  }

  lemma FinishShape(a: Acc)
    requires Inv(a)
    ensures AllTidy(Finish(a)) && NoAdjacentText(Finish(a))
  {
    FinishText(a);
    var o := a.out + PendingText(a);
    assert Finish(a) == o + PendingCode(a);
    if Trim(a.code) != "" {
      TrimmedTidy(Code, a.code);
      PushTidy(o, Block(Code, Trim(a.code)));
    } else {
      assert o + PendingCode(a) == o;
    }
  }

  /** Every emitted block equals its own trim, no text block is blank, and no
      two text blocks are neighbours; for any line classifier. */
  lemma SegmentShape(f: string -> bool, text: string)
    ensures AllTidy(Segment(f, text)) && NoAdjacentText(Segment(f, text))
  {
    RunInv(f, Split(text, "\n"));
    FinishShape(Run(f, Split(text, "\n")));
  }

  predicate NoBlankCode(blocks: seq<Block>)
  {
    forall i :: 0 <= i < |blocks| && blocks[i].kind == Code ==> !Blank(blocks[i].content)
  }

  /** While a code run is open its accumulator is not blank, when the
      classifier never calls a blank line code. */
  predicate CodeInv(a: Acc)
  {
    (a.inCode ==> !Blank(a.code)) && NoBlankCode(a.out)
  }

  lemma BlankAppend(x: string, y: string)
    ensures Blank(x + y) <==> Blank(x) && Blank(y)
  {
    if Blank(x) && Blank(y) {
      forall i | 0 <= i < |x + y| ensures IsWs((x + y)[i]) {
        if i >= |x| { assert (x + y)[i] == y[i - |x|]; }
      }
    }
    if Blank(x + y) {
      forall i | 0 <= i < |x| ensures IsWs(x[i]) {
        assert x[i] == (x + y)[i];
      }
      forall i | 0 <= i < |y| ensures IsWs(y[i]) {
        assert y[i] == (x + y)[|x| + i];
      }
    }
  }

  /** The trim of a non-blank string is not blank. */
  lemma TrimNonBlank(s: string)
    requires !Blank(s)
    ensures !Blank(Trim(s))
  {
    TrimBlank(s);
    TrimIdempotent(s);
    TrimBlank(Trim(s));
  }

  lemma PushNoBlankCode(blocks: seq<Block>, b: Block)
    requires NoBlankCode(blocks)
    requires b.kind == Code ==> !Blank(b.content)
    ensures NoBlankCode(blocks + [b])
  {
    var r := blocks + [b];
    forall i | 0 <= i < |r| && r[i].kind == Code ensures !Blank(r[i].content) {
      if i < |blocks| { assert r[i] == blocks[i]; }
    }
  }

  lemma StepKeepsCode(a: Acc, line: string, isCode: bool)
    requires Inv(a) && CodeInv(a)
    requires isCode ==> !Blank(line)
    ensures CodeInv(Step(a, line, isCode))
  {
    if isCode {
      if a.inCode {
        BlankAppend(a.code + "\n", line);
      }
      if Trim(a.cur) != "" {
        PushNoBlankCode(a.out, Block(Text, Trim(a.cur)));
      }
    } else if a.inCode {
      TrimNonBlank(a.code);
      PushNoBlankCode(a.out, Block(Code, Trim(a.code)));
    }
  }

  lemma {:induction false} RunCodeInv(f: string -> bool, lines: seq<string>)
    requires forall s :: f(s) ==> !Blank(s)
    ensures CodeInv(Run(f, lines))
  {
    if lines != [] {
      var init := lines[..|lines| - 1];
      var line := lines[|lines| - 1];
      RunCodeInv(f, init);
      RunInv(f, init);
      StepKeepsCode(Run(f, init), line, f(line));
    }
  }

  /** Flushing the pending text and code adds no blank code block. */
  lemma FinishNoBlankCode(a: Acc)
    requires NoBlankCode(a.out)
    ensures NoBlankCode(Finish(a))
  {
    var o := a.out + PendingText(a);
    if Trim(a.cur) != "" {
      PushNoBlankCode(a.out, Block(Text, Trim(a.cur)));
    } else {
      assert o == a.out;
    }
    if Trim(a.code) != "" {
      TrimBlank(a.code);
      TrimNonBlank(a.code);
      PushNoBlankCode(o, Block(Code, Trim(a.code)));
    } else {
      assert o + PendingCode(a) == o;
    }
  }

  /** A code block is never blank when the classifier never calls a blank
      line code. */
  lemma SegmentNoBlankCode(f: string -> bool, text: string)
    requires forall s :: f(s) ==> !Blank(s)
    ensures NoBlankCode(Segment(f, text))
  {
    RunCodeInv(f, Split(text, "\n"));
    FinishNoBlankCode(Run(f, Split(text, "\n")));
  }

  /** With the concrete classifier no emitted block is blank. */
  lemma PastedBlocksNonBlank(text: string)
    ensures forall i :: 0 <= i < |Segment(IsCode, text)| ==> !Blank(Segment(IsCode, text)[i].content)
  {
    forall s | IsCode(s) ensures !Blank(s) {
      if Blank(s) { BlankNeverCode(s); }
    }
    SegmentShape(IsCode, text);
    SegmentNoBlankCode(IsCode, text);
  }

  /** The non-whitespace characters held by the state. */
  function Held(a: Acc): string
  {
    NonWs(Concat(a.out)) + NonWs(a.cur) + NonWs(a.code)
  }

  lemma NonWsJoinLine(x: string, line: string)
    ensures NonWs(x + "\n" + line) == NonWs(x) + NonWs(line)
  {
    NonWsAppend(x + "\n", line);
    NonWsAppend(x, "\n");
  }

  /** Pushing a block holding the trim of `s` moves the non-whitespace
      characters of `s` into the output. */
  lemma PushHeld(out: seq<Block>, k: BlockType, s: string)
    ensures NonWs(Concat(out + [Block(k, Trim(s))])) == NonWs(Concat(out)) + NonWs(s)
  {
    ConcatSnoc(out, Block(k, Trim(s)));
    NonWsAppend(Concat(out), Trim(s));
    TrimNonWs(s);
  }

  /** A code line after non-blank pending text: the text becomes a block. */
  lemma FlushTextHeld(a: Acc, line: string)
    requires Accumulating(a) && Trim(a.cur) != ""
    ensures Held(Step(a, line, true)) == Held(a) + NonWs(line)
  {
    var b := Step(a, line, true);
    TrimBlank(a.cur);
    PushHeld(a.out, Text, a.cur);
    assert b.cur == "" && b.code == line && a.code == "";
    HeldWithoutCode(a);
    HeldWithoutText(b);
  }

  /** A code line with only whitespace pending: the line joins the code. */
  lemma ExtendCodeHeld(a: Acc, line: string)
    requires Accumulating(a) && Trim(a.cur) == ""
    ensures Held(Step(a, line, true)) == Held(a) + NonWs(line)
  {
    var b := Step(a, line, true);
    TrimBlank(a.cur);
    BlankIffNoNonWs(a.cur);
    if a.inCode {
      NonWsJoinLine(a.code, line);
    } else {
      assert NonWs(a.code) == [];
    }
    assert b.out == a.out && b.cur == a.cur;
    assert NonWs(b.code) == NonWs(a.code) + NonWs(line);
    HeldWithoutText(a);
    HeldWithoutText(b);
    AppendAssoc(NonWs(Concat(a.out)), NonWs(a.code), NonWs(line));
  }

  lemma CloseCodeOut(a: Acc, line: string)
    requires Accumulating(a) && a.inCode
    ensures NonWs(Concat(Step(a, line, false).out)) == NonWs(Concat(a.out)) + NonWs(a.code)
  {
    PushHeld(a.out, Code, a.code);
  }

  lemma CloseCodeCur(a: Acc, line: string)
    requires Accumulating(a) && a.inCode
    ensures NonWs(Step(a, line, false).cur) == NonWs(line)
  {
    NonWsJoinLine(a.cur, line);
    BlankIffNoNonWs(a.cur);
  }

  /** A text line ending a code run: the code becomes a block. */
  lemma CloseCodeHeld(a: Acc, line: string)
    requires Accumulating(a) && a.inCode
    ensures Held(Step(a, line, false)) == Held(a) + NonWs(line)
  {
    CloseCodeOut(a, line);
    CloseCodeCur(a, line);
    BlankIffNoNonWs(a.cur);
    var b := Step(a, line, false);
    assert b.code == "";
    HeldWithoutCode(b);
    HeldWithoutText(a);
  }

  lemma ExtendTextCur(a: Acc, line: string)
    requires !a.inCode
    ensures NonWs(Step(a, line, false).cur) == NonWs(a.cur) + NonWs(line)
  {
    if a.cur != "" {
      NonWsJoinLine(a.cur, line);
    } else {
      assert NonWs(a.cur) == [];
    }
  }

  /** A text line outside a code run: the line joins the pending text. */
  lemma ExtendTextHeld(a: Acc, line: string)
    requires Accumulating(a) && !a.inCode
    ensures Held(Step(a, line, false)) == Held(a) + NonWs(line)
  {
    ExtendTextCur(a, line);
    var b := Step(a, line, false);
    assert b.out == a.out && b.code == "";
    HeldWithoutCode(a);
    HeldWithoutCode(b);
    AppendAssoc(NonWs(Concat(a.out)), NonWs(a.cur), NonWs(line));
  }

  lemma HeldWithoutCode(a: Acc)
    requires a.code == ""
    ensures Held(a) == NonWs(Concat(a.out)) + NonWs(a.cur)
  {
    assert NonWs(a.code) == [];
  }

  lemma HeldWithoutText(a: Acc)
    requires NonWs(a.cur) == []
    ensures Held(a) == NonWs(Concat(a.out)) + NonWs(a.code)
  {
  }

  lemma AppendAssoc<T>(x: seq<T>, y: seq<T>, z: seq<T>)
    ensures x + (y + z) == (x + y) + z
  {
  }

  lemma StepHeld(a: Acc, line: string, isCode: bool)
    requires Accumulating(a)
    ensures Held(Step(a, line, isCode)) == Held(a) + NonWs(line)
  {
    if isCode {
      if Trim(a.cur) != "" { FlushTextHeld(a, line); } else { ExtendCodeHeld(a, line); }
    } else {
      if a.inCode { CloseCodeHeld(a, line); } else { ExtendTextHeld(a, line); }
    }
  }

  /** `Join(lines, "\n")` grows by one line's non-whitespace characters. */
  lemma NonWsJoinSnoc(init: seq<string>, line: string)
    ensures NonWs(Join(init + [line], "\n")) == NonWs(Join(init, "\n")) + NonWs(line)
  {
    if init == [] {
      assert init + [line] == [line];
    } else {
      JoinSnoc(init, line, "\n");
      NonWsJoinLine(Join(init, "\n"), line);
    }
  }

  /** The state never loses or reorders a non-whitespace character. */
  lemma {:induction false} RunHeld(f: string -> bool, lines: seq<string>)
    ensures Held(Run(f, lines)) == NonWs(Join(lines, "\n"))
  {
    if lines != [] {
      var init := lines[..|lines| - 1];
      var line := lines[|lines| - 1];
      RunLast(f, lines);
      RunHeld(f, init);
      RunInv(f, init);
      StepHeld(Run(f, init), line, f(line));
      SnocLast(lines);
      NonWsJoinSnoc(init, line);
    }
  }

  /** Pushing the trim of `s` when it is not blank adds the non-whitespace
      characters of `s`. */
  lemma PushPendingHeld(out: seq<Block>, k: BlockType, s: string)
    ensures NonWs(Concat(out + if Trim(s) != "" then [Block(k, Trim(s))] else [])) == NonWs(Concat(out)) + NonWs(s)
  {
    if Trim(s) != "" {
      PushHeld(out, k, s);
    } else {
      TrimBlank(s);
      BlankIffNoNonWs(s);
      assert out + [] == out;
    }
  }

  lemma FinishHeld(a: Acc)
    ensures NonWs(Concat(Finish(a))) == Held(a)
  {
    PushPendingHeld(a.out, Text, a.cur);
    PushPendingHeld(a.out + PendingText(a), Code, a.code);
  }

  /** No content is lost or reordered: the non-whitespace characters of the
      block contents, in output order, are those of the pasted text; for any
      line classifier. */
  lemma SegmentPreservesContent(f: string -> bool, text: string)
    ensures NonWs(Concat(Segment(f, text))) == NonWs(text)
  {
    var lines := Split(text, "\n");
    RunHeld(f, lines);
    FinishHeld(Run(f, lines));
    SplitJoin(text, "\n");
  }

  /** Three lines without line feeds split back into those three lines. */
  lemma SplitThree(a: string, b: string, c: string)
    requires '\n' !in a && '\n' !in b && '\n' !in c
    ensures Split(a + "\n" + b + "\n" + c, "\n") == [a, b, c]
  {
    var parts := [a, b, c];
    assert Join(parts, "\n") == a + "\n" + b + "\n" + c by {
      assert parts[1..] == [b, c];
      assert [b, c][1..] == [c];
      assert Join([b, c], "\n") == b + "\n" + c;
      assert Join(parts, "\n") == a + "\n" + (b + "\n" + c);
    }
    assert forall k :: 0 <= k < |parts| ==> '\n' !in parts[k];
    JoinSplit(parts, '\n');
  }

  lemma RunThree(f: string -> bool, a: string, b: string, c: string)
    ensures Run(f, [a, b, c]) == Step(Step(Step(Start, a, f(a)), b, f(b)), c, f(c))
  {
    assert [a][..0] == [];
    assert Run(f, [a]) == Step(Start, a, f(a));
    assert [a, b][..1] == [a];
    assert Run(f, [a, b]) == Step(Run(f, [a]), b, f(b));
    assert [a, b, c][..2] == [a, b];
  }

  /** A code line with no text pending opens or extends the code run. */
  lemma StepCodeQuiet(s: Acc, line: string)
    requires Trim(s.cur) == ""
    ensures var r := Step(s, line, true);
      r.out == s.out && r.cur == s.cur && r.inCode &&
      r.code == if s.inCode then s.code + "\n" + line else line
  {
  }

  /** A text line inside a code run closes it. */
  lemma StepClose(s: Acc, line: string)
    requires s.inCode
    ensures var r := Step(s, line, false);
      r.out == s.out + [Block(Code, Trim(s.code))] && !r.inCode && r.code == "" &&
      r.cur == if s.cur != "" then s.cur + "\n" + line else line
  {
  }

  /** A text line outside a code run joins the pending text. */
  lemma StepText(s: Acc, line: string)
    requires !s.inCode
    ensures var r := Step(s, line, false);
      r.out == s.out && !r.inCode && r.code == s.code &&
      r.cur == if s.cur != "" then s.cur + "\n" + line else line
  {
  }

  lemma EmptyTrim()
    ensures Trim("") == ""
  {
  }

  /** A blank line between two code lines ends the first code run: the result
      is two neighbouring code blocks. */
  lemma RunCodeBlankCode(f: string -> bool, a: string, b: string, c: string)
    requires f(a) && !f(b) && f(c) && Trim(b) == ""
    ensures var r := Run(f, [a, b, c]);
      r.out == [Block(Code, Trim(a))] && r.cur == b && r.code == c
  {
    RunThree(f, a, b, c);
    EmptyTrim();
    var first := Block(Code, Trim(a));
    var s1 := Step(Start, a, true);
    StepCodeQuiet(Start, a);
    var s2 := Step(s1, b, false);
    StepClose(s1, b);
    assert s2.out == [first] by { assert [] + [first] == [first]; }
    StepCodeQuiet(s2, c);
  }

  lemma FinishCodeBlankCode(f: string -> bool, a: string, b: string, c: string)
    requires f(a) && !f(b) && f(c)
    requires Trim(b) == "" && Trim(c) != ""
    ensures Finish(Run(f, [a, b, c])) == [Block(Code, Trim(a)), Block(Code, Trim(c))]
  {
    RunCodeBlankCode(f, a, b, c);
    var r := Run(f, [a, b, c]);
    var first, second := Block(Code, Trim(a)), Block(Code, Trim(c));
    assert PendingText(r) == [] && PendingCode(r) == [second];
    assert [first] + [] + [second] == [first, second];
  }

  lemma CodeBlankCode(f: string -> bool, a: string, b: string, c: string)
    requires '\n' !in a && '\n' !in b && '\n' !in c
    requires f(a) && !f(b) && f(c)
    requires Blank(b) && !Blank(c)
    ensures Segment(f, a + "\n" + b + "\n" + c) == [Block(Code, Trim(a)), Block(Code, Trim(c))]
  {
    SplitThree(a, b, c);
    TrimBlank(b);
    TrimBlank(c);
    FinishCodeBlankCode(f, a, b, c);
  }

  /** A whitespace-only line is not reset by a following code line: it stays
      pending and is prefixed to the next text line. */
  lemma BlankTextSurvivesCode(f: string -> bool, w: string, c: string, t: string)
    requires !f(w) && f(c) && !f(t)
    requires Blank(w) && w != ""
    ensures Run(f, [w, c, t]).cur == w + "\n" + t
    ensures Run(f, [w, c, t]).out == [Block(Code, Trim(c))]
  {
    TrimBlank(w);
    RunThree(f, w, c, t);
    var s1 := Step(Start, w, false);
    StepText(Start, w);
    var s2 := Step(s1, c, true);
    StepCodeQuiet(s1, c);
    var s3 := Step(s2, t, false);
    StepClose(s2, t);
    assert [] + [Block(Code, Trim(c))] == [Block(Code, Trim(c))];
  }

  lemma RunCodeCodeText(f: string -> bool, a: string, b: string, c: string)
    requires f(a) && f(b) && !f(c)
    ensures var r := Run(f, [a, b, c]);
      r.out == [Block(Code, Trim(a + "\n" + b))] && r.cur == c && r.code == ""
  {
    RunThree(f, a, b, c);
    EmptyTrim();
    var code := Block(Code, Trim(a + "\n" + b));
    var s1 := Step(Start, a, true);
    StepCodeQuiet(Start, a);
    var s2 := Step(s1, b, true);
    StepCodeQuiet(s1, b);
    StepClose(s2, c);
    assert [] + [code] == [code];
  }

  lemma FinishCodeCodeText(f: string -> bool, a: string, b: string, c: string)
    requires f(a) && f(b) && !f(c)
    requires Trim(c) != ""
    ensures Finish(Run(f, [a, b, c])) == [Block(Code, Trim(a + "\n" + b)), Block(Text, Trim(c))]
  {
    RunCodeCodeText(f, a, b, c);
    var r := Run(f, [a, b, c]);
    var code, text := Block(Code, Trim(a + "\n" + b)), Block(Text, Trim(c));
    EmptyTrim();
    assert PendingText(r) == [text] && PendingCode(r) == [];
    assert [code] + [text] + [] == [code, text];
  }

  /** Two code lines and a text line: one code block holding both code lines,
      then the text. */
  lemma CodeCodeText(f: string -> bool, a: string, b: string, c: string)
    requires '\n' !in a && '\n' !in b && '\n' !in c
    requires f(a) && f(b) && !f(c)
    requires !Blank(c)
    ensures Segment(f, a + "\n" + b + "\n" + c) == [Block(Code, Trim(a + "\n" + b)), Block(Text, Trim(c))]
  {
    SplitThree(a, b, c);
    TrimBlank(c);
    FinishCodeCodeText(f, a, b, c);
  }

  /** The pending text is the joined lines seen so far, less a blank prefix
      (the empty lines before the first non-empty one). */
  predicate BlankPrefixed(joined: string, cur: string)
  {
    |cur| <= |joined| && joined[|joined| - |cur|..] == cur && Blank(joined[..|joined| - |cur|])
  }

  lemma {:induction false} RunProse(f: string -> bool, lines: seq<string>)
    requires |lines| > 0
    requires forall k :: 0 <= k < |lines| ==> !f(lines[k])
    ensures Run(f, lines).out == [] && !Run(f, lines).inCode && Run(f, lines).code == ""
    ensures BlankPrefixed(Join(lines, "\n"), Run(f, lines).cur)
  {
    var n := |lines|;
    var line := lines[n - 1];
    if n == 1 {
      assert lines[..0] == [];
    } else {
      var init := lines[..n - 1];
      RunProse(f, init);
      var a := Run(f, init);
      assert init + [line] == lines;
      JoinSnoc(init, line, "\n");
      var j := Join(init, "\n");
      var p := j[..|j| - |a.cur|];
      assert j == p + a.cur;
      if a.cur != "" {
        assert Join(lines, "\n") == p + (a.cur + "\n" + line);
      } else {
        assert Join(lines, "\n") == (p + "\n") + line;
        assert Blank(p + "\n");
      }
    }
  }

  lemma BlankPrefixedTrim(text: string, cur: string)
    requires BlankPrefixed(text, cur)
    ensures Trim(text) == Trim(cur)
  {
    var p := text[..|text| - |cur|];
    assert text == p + cur;
    TrimBlankPrefix(p, cur);
  }

  lemma FinishProse(a: Acc, text: string)
    requires a.out == [] && a.code == "" && BlankPrefixed(text, a.cur)
    ensures Finish(a) == if Blank(text) then [] else [Block(Text, Trim(text))]
  {
    BlankPrefixedTrim(text, a.cur);
    TrimBlank(text);
    EmptyTrim();
    assert PendingCode(a) == [];
    if Blank(text) {
      assert PendingText(a) == [];
    } else {
      assert PendingText(a) == [Block(Text, Trim(text))];
    }
  }

  /** A paste none of whose lines is code becomes one trimmed text block, or
      nothing when it is blank. */
  lemma SegmentProse(f: string -> bool, text: string)
    requires forall k :: 0 <= k < |Split(text, "\n")| ==> !f(Split(text, "\n")[k])
    ensures Segment(f, text) == if Blank(text) then [] else [Block(Text, Trim(text))]
  {
    var lines := Split(text, "\n");
    RunProse(f, lines);
    SplitJoin(text, "\n");
    FinishProse(Run(f, lines), text);
  }

  /** A code line while a code run is open, with no text pending, joins
      the code. */
  lemma StepCodeOpen(a: Acc, line: string)
    requires a.out == [] && a.cur == "" && a.inCode
    ensures var b := Step(a, line, true);
      b.out == [] && b.cur == "" && b.inCode && b.code == a.code + "\n" + line
  {
    EmptyTrim();
  }

  /** The last line is the last step. */
  lemma RunLast(f: string -> bool, lines: seq<string>)
    requires |lines| > 0
    ensures Run(f, lines) == Step(Run(f, lines[..|lines| - 1]), lines[|lines| - 1], f(lines[|lines| - 1]))
  {
  }

  /** A single code line opens a code run holding that line. */
  lemma RunOneCode(f: string -> bool, line: string)
    requires f(line)
    ensures Run(f, [line]) == Acc([], "", true, line)
  {
    assert [line][..0] == [];
    EmptyTrim();
  }

  lemma SnocLast<T>(s: seq<T>)
    requires |s| > 0
    ensures s[..|s| - 1] + [s[|s| - 1]] == s
  {
  }

  lemma {:induction false} RunAllCode(f: string -> bool, lines: seq<string>)
    requires |lines| > 0
    requires forall k :: 0 <= k < |lines| ==> f(lines[k])
    ensures Run(f, lines) == Acc([], "", true, Join(lines, "\n"))
  {
    var n := |lines|;
    var line := lines[n - 1];
    var init := lines[..n - 1];
    if n == 1 {
      RunOneCode(f, line);
      assert lines == [line];
    } else {
      RunLast(f, lines);
      RunAllCode(f, init);
      StepCodeOpen(Run(f, init), line);
      SnocLast(lines);
      JoinSnoc(init, line, "\n");
      var b := Run(f, lines);
      assert b.out == [] && b.cur == "" && b.inCode && b.code == Join(lines, "\n");
    }
  }

  /** A paste every line of which is code becomes one trimmed code block, or
      nothing when it is blank. */
  lemma SegmentAllCode(f: string -> bool, text: string)
    requires forall k :: 0 <= k < |Split(text, "\n")| ==> f(Split(text, "\n")[k])
    ensures Segment(f, text) == if Blank(text) then [] else [Block(Code, Trim(text))]
  {
    var lines := Split(text, "\n");
    RunAllCode(f, lines);
    SplitJoin(text, "\n");
    TrimBlank(text);
    EmptyTrim();
    assert PendingText(Run(f, lines)) == [];
  }
}

=== FILE: segmenter_examples.dfy ===
/** The pasted snippet made of a sentence mentioning `print`, a Python call
    and a closing sentence. */
module SegmenterExamples {
  import opened Strings
  import opened Blocks
  import opened Classifier
  import opened ClassifierExamples
  import opened Segmenter

  lemma NoLineFeeds()
    ensures '\n' !in Intro && '\n' !in Call && '\n' !in Outro
  {
  }

  lemma CodeLinesTrimmed()
    ensures Trim(Intro + "\n" + Call) == Intro + "\n" + Call
  {
    var s := Intro + "\n" + Call;
    assert s[0] == 'H' && s[|s| - 1] == ')';
    TrimNoOp(s);
  }

  lemma OutroTrimmed()
    ensures Trim(Outro) == Outro && !Blank(Outro)
  {
    TrimNoOp(Outro);
    assert !IsWs(Outro[0]);
  }

  /** The first two lines form one code block and the last line a text block:
      the sentence that mentions "print in" is taken for code. */
  lemma PrintInPython()
    ensures Segment(IsCode, Intro + "\n" + Call + "\n" + Outro) ==
      [Block(Code, Intro + "\n" + Call), Block(Text, Outro)]
  {
    IntroIsCode();
    CallIsCode();
    OutroIsText();
    NoLineFeeds();
    OutroTrimmed();
    CodeCodeText(IsCode, Intro, Call, Outro);
    CodeLinesTrimmed();
  }
}

=== FILE: strings.dfy ===
/** String primitives the JavaScript code relies on, restricted to ASCII:
    the `\s` and `\w` character classes, `String.prototype.trim`,
    `split`/`join` with a string separator, `includes` and `toLowerCase`. */
module Strings {

  /** JavaScript's `\s` (and what `trim` removes), ASCII part: space, tab,
      line feed, vertical tab, form feed, carriage return. */
  predicate IsWs(c: char) {
    c == ' ' || c == '\t' || c == '\n' || c == '\U{B}' || c == '\U{C}' || c == '\r'
  }

  /** The characters at which `.` stops and multi-line `^`/`$` anchor (ASCII part). */
  predicate IsLineTerminator(c: char) {
    c == '\n' || c == '\r'
  }

  /** JavaScript's `\w`. */
  predicate IsWordChar(c: char) {
    ('a' <= c <= 'z') || ('A' <= c <= 'Z') || ('0' <= c <= '9') || c == '_'
  }

  /** True when `s.trim() === ''`. */
  predicate Blank(s: string) {
    forall i :: 0 <= i < |s| ==> IsWs(s[i])
  }

  /** No line terminator anywhere in `s` (what `.*` can span). */
  predicate SingleLine(s: string) {
    forall i :: 0 <= i < |s| ==> !IsLineTerminator(s[i])
  }

  /** The non-whitespace characters of `s`, in order. */
  function NonWs(s: string): (r: string)
    ensures |r| <= |s|
    ensures forall i :: 0 <= i < |r| ==> !IsWs(r[i])
  {
    if s == [] then [] else (if IsWs(s[0]) then [] else [s[0]]) + NonWs(s[1..])
  }

  lemma {:induction false} NonWsAppend(a: string, b: string)
    ensures NonWs(a + b) == NonWs(a) + NonWs(b)
  {
    if a != [] {
      assert (a + b)[0] == a[0];
      assert (a + b)[1..] == a[1..] + b;
      NonWsAppend(a[1..], b);
    } else {
      assert a + b == b;
    }
  }

  lemma {:induction false} BlankIffNoNonWs(s: string)
    ensures Blank(s) <==> NonWs(s) == []
  {
    if s != [] {
      BlankIffNoNonWs(s[1..]);
      assert Blank(s) <==> IsWs(s[0]) && Blank(s[1..]) by {
        if IsWs(s[0]) && Blank(s[1..]) {
          forall i | 0 <= i < |s| ensures IsWs(s[i]) {
            if i > 0 { assert s[i] == s[1..][i - 1]; }
          }
        }
      }
    }
  }

  /** `s` with its leading whitespace removed. */
  function TrimStart(s: string): (r: string)
    ensures |r| <= |s|
    ensures r == [] || !IsWs(r[0])
  {
    if |s| > 0 && IsWs(s[0]) then TrimStart(s[1..]) else s
  }

  /** `TrimStart` keeps a suffix. */
  lemma {:induction false} TrimStartSuffix(s: string)
    ensures TrimStart(s) == s[|s| - |TrimStart(s)|..]
  {
    if |s| > 0 && IsWs(s[0]) {
      TrimStartSuffix(s[1..]);
      assert s[1..][|s| - 1 - |TrimStart(s)|..] == s[|s| - |TrimStart(s)|..];
    }
  }

  /** What `TrimStart` removes is whitespace. */
  lemma {:induction false} TrimStartBlank(s: string)
    ensures Blank(s[..|s| - |TrimStart(s)|])
  {
    if |s| > 0 && IsWs(s[0]) {
      var k := |s| - |TrimStart(s)|;
      TrimStartBlank(s[1..]);
      forall i | 0 <= i < k ensures IsWs(s[..k][i]) {
        if i > 0 { assert s[..k][i] == s[1..][..k - 1][i - 1]; }
      }
    }
  }

  /** `s` with its trailing whitespace removed. */
  function TrimEnd(s: string): (r: string)
    ensures |r| <= |s| && r == s[..|r|]
    ensures r == [] || !IsWs(r[|r| - 1])
  {
    if |s| > 0 && IsWs(s[|s| - 1]) then TrimEnd(s[..|s| - 1]) else s
  }

  /** What `TrimEnd` removes is whitespace. */
  lemma {:induction false} TrimEndBlank(s: string)
    ensures Blank(s[|TrimEnd(s)|..])
  {
    if |s| > 0 && IsWs(s[|s| - 1]) {
      var k := |TrimEnd(s)|;
      TrimEndBlank(s[..|s| - 1]);
      forall i | k <= i < |s| ensures IsWs(s[i]) {
        if i < |s| - 1 { assert s[i] == s[..|s| - 1][k..][i - k]; }
      }
      assert forall i :: 0 <= i < |s| - k ==> s[k..][i] == s[k + i];
    }
  }

  /** `String.prototype.trim`. */
  function Trim(s: string): (r: string)
  {
    TrimEnd(TrimStart(s))
  }

  /** The trimmed string is a slice of the original with only whitespace
      cut off at either side. */
  lemma TrimIsCore(s: string)
    ensures var r := Trim(s);
      exists a :: 0 <= a && a + |r| <= |s| && r == s[a..a + |r|] && Blank(s[..a]) && Blank(s[a + |r|..])
  {
    var t := TrimStart(s);
    var r := TrimEnd(t);
    var a := |s| - |t|;
    TrimStartSuffix(s);
    TrimStartBlank(s);
    TrimEndBlank(t);
    assert Blank(s[..a]);
    assert s[a + |r|..] == t[|r|..];
    forall i | 0 <= i < |r| ensures r[i] == s[a + i] {
      assert r[i] == t[i];
    }
    assert r == s[a..a + |r|];
  }

  /** The trimmed string neither starts nor ends with whitespace. */
  lemma TrimEnds(s: string)
    ensures Trim(s) == [] || (!IsWs(Trim(s)[0]) && !IsWs(Trim(s)[|Trim(s)| - 1]))
  {
    var t := TrimStart(s);
    var r := TrimEnd(t);
    if r != [] {
      assert r[0] == t[0];
    }
  }

  /** A string that neither starts nor ends with whitespace is its own trim. */
  lemma TrimNoOp(s: string)
    requires s == [] || (!IsWs(s[0]) && !IsWs(s[|s| - 1]))
    ensures Trim(s) == s
  {
    assert TrimStart(s) == s;
  }

  /** Whitespace in front of a string does not change its trim. */
  lemma {:induction false} TrimBlankPrefix(p: string, s: string)
    requires Blank(p)
    ensures Trim(p + s) == Trim(s)
  {
    if p != [] {
      assert (p + s)[0] == p[0];
      assert (p + s)[1..] == p[1..] + s;
      TrimBlankPrefix(p[1..], s);
    } else {
      assert p + s == s;
    }
  }

  lemma TrimChars(s: string)
    ensures forall i :: 0 <= i < |Trim(s)| ==> Trim(s)[i] in s
  {
    TrimIsCore(s);
  }

  lemma {:induction false} TrimBlank(s: string)
    ensures Trim(s) == [] <==> Blank(s)
  {
    var t := TrimStart(s);
    var a := |s| - |t|;
    var r := TrimEnd(t);
    TrimStartSuffix(s);
    TrimStartBlank(s);
    TrimEndBlank(t);
    if r == [] {
      assert Blank(t[|r|..]);
      assert t[|r|..] == t;
      assert t == [];
      assert s[..a] == s;
    }
  }

  lemma {:induction false} TrimIdempotent(s: string)
    ensures Trim(Trim(s)) == Trim(s)
  {
    TrimEnds(s);
    var r := Trim(s);
    assert TrimStart(r) == r;
    assert TrimEnd(r) == r;
  }

  lemma {:induction false} NonWsBlankSides(x: string, y: string, z: string)
    requires Blank(x) && Blank(z)
    ensures NonWs(x + y + z) == NonWs(y)
  {
    BlankIffNoNonWs(x);
    BlankIffNoNonWs(z);
    NonWsAppend(x + y, z);
    NonWsAppend(x, y);
  }

  /** Trimming never removes a non-whitespace character. */
  lemma TrimNonWs(s: string)
    ensures NonWs(Trim(s)) == NonWs(s)
  {
    TrimStartNonWs(s);
    TrimEndNonWs(TrimStart(s));
  }

  lemma TrimStartNonWs(s: string)
    ensures NonWs(TrimStart(s)) == NonWs(s)
  {
    var t := TrimStart(s);
    var p := s[..|s| - |t|];
    TrimStartSuffix(s);
    TrimStartBlank(s);
    assert s == p + t;
    NonWsAppend(p, t);
    BlankIffNoNonWs(p);
  }

  lemma TrimEndNonWs(t: string)
    ensures NonWs(TrimEnd(t)) == NonWs(t)
  {
    var r := TrimEnd(t);
    var q := t[|r|..];
    TrimEndBlank(t);
    assert t == r + q;
    NonWsAppend(r, q);
    BlankIffNoNonWs(q);
  }

  /** `sep` occurs in `s` starting at index `i`. */
  predicate OccursAt(s: string, i: int, sep: string)
  {
    0 <= i && i + |sep| <= |s| && s[i..i + |sep|] == sep
  }

  /** `s.includes(t)`. */
  predicate Includes(s: string, t: string)
  {
    exists i :: 0 <= i <= |s| - |t| && OccursAt(s, i, t)
  }

  /** Every string includes itself. */
  lemma IncludesSelf(s: string)
    ensures Includes(s, s)
  {
    assert s[0..|s|] == s;
    assert OccursAt(s, 0, s);
  }

  /** `parts.join(sep)`. */
  function Join(parts: seq<string>, sep: string): string
  {
    if |parts| == 0 then ""
    else if |parts| == 1 then parts[0]
    else parts[0] + sep + Join(parts[1..], sep)
  }

  /** `s.split(sep)` for a non-empty separator: leftmost occurrences, scanned
      from the start, never overlapping. */
  function Split(s: string, sep: string): (r: seq<string>)
    requires |sep| > 0
    ensures |r| >= 1
    ensures |r[0]| <= |s| && r[0] == s[..|r[0]|]
    ensures forall k, i :: 0 <= k < |r| && 0 <= i ==> !OccursAt(r[k], i, sep)
    decreases |s|
  {
    if |s| < |sep| then [s]
    else if s[..|sep|] == sep then [""] + Split(s[|sep|..], sep)
    else
      var rest := Split(s[1..], sep);
      var first := [s[0]] + rest[0];
      assert forall i :: 0 <= i ==> !OccursAt(first, i, sep) by {
        forall i | 0 <= i && OccursAt(first, i, sep) ensures false {
          if i > 0 {
            assert first[i..i + |sep|] == rest[0][i - 1..i - 1 + |sep|];
            assert OccursAt(rest[0], i - 1, sep);
          }
        }
      }
      [first] + rest[1..]
  }

  lemma {:induction false} SplitJoin(s: string, sep: string)
    requires |sep| > 0
    ensures Join(Split(s, sep), sep) == s
    decreases |s|, 1
  {
    if |s| < |sep| {
    } else if s[..|sep|] == sep {
      SplitJoinAtSep(s, sep);
    } else {
      SplitJoinAtChar(s, sep);
    }
  }

  lemma {:induction false} SplitJoinAtSep(s: string, sep: string)
    requires |sep| > 0 && |s| >= |sep| && s[..|sep|] == sep
    ensures Join(Split(s, sep), sep) == s
    decreases |s|, 0
  {
    var rest := Split(s[|sep|..], sep);
    SplitJoin(s[|sep|..], sep);
    assert Split(s, sep) == [""] + rest;
    assert ([""] + rest)[1..] == rest;
    assert s == "" + sep + s[|sep|..];
  }

  lemma {:induction false} SplitJoinAtChar(s: string, sep: string)
    requires |sep| > 0 && |s| >= |sep| && s[..|sep|] != sep
    ensures Join(Split(s, sep), sep) == s
    decreases |s|, 0
  {
    var rest := Split(s[1..], sep);
    SplitJoin(s[1..], sep);
    SplitAtChar(s, sep);
    JoinConsHead(s[0], rest, sep);
    assert s == [s[0]] + s[1..];
  }

  /** Where no separator starts at the front, the first character goes to
      the first piece of the rest. */
  lemma SplitAtChar(s: string, sep: string)
    requires |sep| > 0 && |s| >= |sep| && s[..|sep|] != sep
    ensures var rest := Split(s[1..], sep);
      Split(s, sep) == [[s[0]] + rest[0]] + rest[1..]
  {
  }

  /** Joining after a character is put in front of the first part. */
  lemma JoinConsHead(c: char, parts: seq<string>, sep: string)
    requires |parts| > 0
    ensures Join([[c] + parts[0]] + parts[1..], sep) == [c] + Join(parts, sep)
  {
    var r := [[c] + parts[0]] + parts[1..];
    if |parts| > 1 {
      assert r[1..] == parts[1..];
      assert Join(r, sep) == ([c] + parts[0]) + sep + Join(parts[1..], sep);
    }
  }

  /** `piece` is the slice of `s` starting at `a`. */
  predicate SliceAt(s: string, a: int, piece: string)
  {
    0 <= a && a + |piece| <= |s| && s[a..a + |piece|] == piece
  }

  /** A slice of a slice is a slice. */
  lemma SubSlice(s: string, a: int, piece: string, b: int, t: string)
    requires SliceAt(s, a, piece)
    requires 0 <= b && b + |t| <= |piece| && t == piece[b..b + |t|]
    ensures SliceAt(s, a + b, t)
  {
    forall i | 0 <= i < |t| ensures s[a + b + i] == t[i] {
      assert t[i] == piece[b + i] == s[a..a + |piece|][b + i];
    }
    assert s[a + b..a + b + |t|] == t;
  }

  /** The trimmed string sits in the original after the leading whitespace;
      `b` is where it starts. */
  lemma TrimOffset(s: string) returns (b: int)
    ensures 0 <= b && b + |Trim(s)| <= |s| && Trim(s) == s[b..b + |Trim(s)|]
  {
    var front := TrimStart(s);
    var t := TrimEnd(front);
    b := |s| - |front|;
    TrimStartSuffix(s);
    assert t == front[..|t|];
    forall i | 0 <= i < |t| ensures t[i] == s[b + i] {
      assert t[i] == front[i];
    }
  }

  /** Trimming a slice leaves a slice of the same string. */
  lemma TrimmedSlice(s: string, a: int, piece: string)
    requires SliceAt(s, a, piece)
    ensures exists c :: SliceAt(s, c, Trim(piece))
  {
    var t := Trim(piece);
    var b := TrimOffset(piece);
    SubSlice(s, a, piece, b, t);
  }

  /** The piece `split` returns at position `k` is a slice of the input. */
  lemma {:induction false} SplitPiece(s: string, sep: string, k: int)
    requires |sep| > 0 && 0 <= k < |Split(s, sep)|
    ensures exists a :: SliceAt(s, a, Split(s, sep)[k])
    decreases |s|, 1
  {
    if |s| < |sep| {
      assert SliceAt(s, 0, Split(s, sep)[0]);
    } else if s[..|sep|] == sep {
      SplitPieceAtSep(s, sep, k);
    } else {
      SplitPieceAtChar(s, sep, k);
    }
  }

  lemma {:induction false} SplitPieceAtSep(s: string, sep: string, k: int)
    requires |sep| > 0 && |s| >= |sep| && s[..|sep|] == sep && 0 <= k < |Split(s, sep)|
    ensures exists a :: SliceAt(s, a, Split(s, sep)[k])
    decreases |s|, 0
  {
    var r := Split(s, sep);
    var tail := s[|sep|..];
    if k == 0 {
      assert SliceAt(s, 0, r[0]);
    } else {
      assert r[k] == Split(tail, sep)[k - 1];
      SplitPiece(tail, sep, k - 1);
      var b :| SliceAt(tail, b, r[k]);
      SliceAtShift(s, |sep|, b, r[k]);
    }
  }

  lemma {:induction false} SplitPieceAtChar(s: string, sep: string, k: int)
    requires |sep| > 0 && |s| >= |sep| && s[..|sep|] != sep && 0 <= k < |Split(s, sep)|
    ensures exists a :: SliceAt(s, a, Split(s, sep)[k])
    decreases |s|, 0
  {
    var r := Split(s, sep);
    var rest := Split(s[1..], sep);
    assert r == [[s[0]] + rest[0]] + rest[1..];
    if k == 0 {
      assert r[0] == s[..1 + |rest[0]|];
      assert SliceAt(s, 0, r[0]);
    } else {
      assert r[k] == rest[k];
      SplitPiece(s[1..], sep, k);
      var b :| SliceAt(s[1..], b, r[k]);
      SliceAtShift(s, 1, b, r[k]);
    }
  }

  /** A slice of a suffix is a slice of the whole string. */
  lemma SliceAtShift(s: string, d: nat, b: int, piece: string)
    requires d <= |s| && SliceAt(s[d..], b, piece)
    ensures SliceAt(s, d + b, piece)
  {
    assert s[d..][b..b + |piece|] == s[d + b..d + b + |piece|];
  }

  /** Joining one more part onto a non-empty list appends separator and part. */
  lemma {:induction false} JoinSnoc(parts: seq<string>, p: string, sep: string)
    requires |parts| > 0
    ensures Join(parts + [p], sep) == Join(parts, sep) + sep + p
  {
    if |parts| == 1 {
      assert parts + [p] == [parts[0], p];
    } else {
      assert (parts + [p])[1..] == parts[1..] + [p];
      JoinSnoc(parts[1..], p, sep);
    }
  }

  /** For a one-character separator absent from every part, `split` undoes `join`. */
  lemma {:induction false} JoinSplit(parts: seq<string>, c: char)
    requires |parts| > 0
    requires forall k :: 0 <= k < |parts| ==> c !in parts[k]
    ensures Split(Join(parts, [c]), [c]) == parts
    decreases |parts|, |parts[0]|, 1
  {
    if |parts[0]| == 0 {
      JoinSplitEmptyHead(parts, c);
    } else {
      JoinSplitCharHead(parts, c);
    }
  }

  lemma {:induction false} JoinSplitEmptyHead(parts: seq<string>, c: char)
    requires |parts| > 0 && |parts[0]| == 0
    requires forall k :: 0 <= k < |parts| ==> c !in parts[k]
    ensures Split(Join(parts, [c]), [c]) == parts
    decreases |parts|, |parts[0]|, 0
  {
    var s := Join(parts, [c]);
    if |parts| == 1 {
      assert s == "";
    } else {
      JoinSplit(parts[1..], c);
      assert s == [c] + Join(parts[1..], [c]);
      assert s[..1] == [c];
      assert s[1..] == Join(parts[1..], [c]);
      assert [parts[0]] + parts[1..] == parts;
    }
  }

  lemma {:induction false} JoinSplitCharHead(parts: seq<string>, c: char)
    requires |parts| > 0 && |parts[0]| > 0
    requires forall k :: 0 <= k < |parts| ==> c !in parts[k]
    ensures Split(Join(parts, [c]), [c]) == parts
    decreases |parts|, |parts[0]|, 0
  {
    var s := Join(parts, [c]);
    var p := parts[0];
    var parts' := [p[1..]] + parts[1..];
    assert parts'[1..] == parts[1..];
    forall k | 0 <= k < |parts'| ensures c !in parts'[k] {
      if k == 0 { assert forall x :: x in p[1..] ==> x in p; }
    }
    JoinSplit(parts', c);
    assert s == [p[0]] + Join(parts', [c]);
    assert s[1..] == Join(parts', [c]);
    assert s[0] == p[0] && p[0] in p;
    assert s[..1] != [c];
    assert [p[0]] + p[1..] == p;
  }

  function LowerChar(c: char): char
  {
    if 'A' <= c <= 'Z' then (c as int + 32) as char else c
  }

  /** `toLowerCase`, ASCII letters only. */
  function Lower(s: string): (r: string)
    ensures |r| == |s|
    ensures forall i :: 0 <= i < |s| ==> r[i] == LowerChar(s[i])
  {
    if s == [] then [] else [LowerChar(s[0])] + Lower(s[1..])
  }

  /** Lower-casing keeps every occurrence of a substring an occurrence. */
  lemma LowerSlice(s: string, i: int, j: int)
    requires 0 <= i <= j <= |s|
    ensures Lower(s[i..j]) == Lower(s)[i..j]
  {
  }

  /** Inclusion is transitive through a slice: whatever a slice of `s`
      includes, `s` includes too. */
  lemma IncludesSlice(s: string, a: int, b: int, t: string)
    requires 0 <= a <= b <= |s|
    requires Includes(s[a..b], t)
    ensures Includes(s, t)
  {
    var i :| 0 <= i <= |s[a..b]| - |t| && OccursAt(s[a..b], i, t);
    assert i + |t| <= b - a;
    forall k | 0 <= k < |t| ensures s[a + i..a + i + |t|][k] == t[k] {
      assert s[a..b][i..i + |t|][k] == t[k];
    }
    assert OccursAt(s, a + i, t);
  }
}

=== FILE: wrappers.dfy ===
/** A value that may be missing: JavaScript's `null`/`undefined`. */
module Wrappers {
  datatype Option<T> = None | Some(value: T)
}
